=== FILE: README.md ===
# os2web_meetings import pipeline, modelled in Dafny

This project models the import core of the OS2web meetings Drupal module. The
module turns meeting manifests exported by an ESDH system (a Danish case and
document management system) into Drupal content:

- meeting nodes;
- bullet point nodes and bullet point attachment nodes;
- committee and location taxonomy terms;
- managed files.

It covers:

- the XML data parser (`SimpleXmlArray`), which strips banned strings, parses
  the manifest and shapes one row per matched meeting element;
- the row hook `prepareRow` and the `preImport`/`postImport` hooks that
  unpublish meetings whose manifest has gone;
- the reconcilers for committees, locations, the agenda document, bullet
  points, enclosures and attachments;
- `createFileCopyAsManaged`;
- the HTML clean-up (`clearHtmlTags`, `cleanHtml`, `fixImagePaths`);
- the entity wrappers and their lookups by ESDH id.

The modules are:

| module | contents |
|---|---|
| `Wrappers` | `Option` and `Result` |
| `PhpStrings` | the PHP string functions the code relies on: `trim`, `explode`/`implode`, `strpos`/`strrpos`, `dirname`, Drupal's `basename`; PHP truthiness |
| `Canonical` | the provider-independent meeting record and the agenda constants |
| `Settings` | the settings the import reads, and how the plugin interprets them |
| `ContentStore` | nodes, terms and managed files as three sequences; an entity's ID is its index |
| `Environment` | the file system, URL generation and node-save outcomes, as parameters |
| `Entities` | the node and term wrappers, `loadByEsdhId` and the scoped child lookups |
| `XmlRows` | `openSourceUrl` and `fetchNextRow` |
| `Patterns` | the regular expressions as anchored match-length functions, one left-to-right scanner behind `preg_replace`/`str_replace`, `preg_match_all`, and a piece-by-piece reference definition for the run patterns |
| `HtmlCleanup` | `clearHtmlTags`, `cleanHtml`, `fixImagePaths` |
| `ManagedFiles` | `createFileCopyAsManaged`, the corrected behaviour and the behaviour as written |
| `Reconciler` | `processCommittee`/`processLocation`, `processAgendaDocument`, `processEnclosures`, `processAttachments`, `processBulletPoints` |
| `Unpublish` | the unpublish schedule: `preImport`, the sighting in `prepareRow`, `postImport` |
| `MeetingsImport` | `prepareRow` and a whole import run |

"First match" of a storage query (`loadByProperties`, `entityQuery` then
`reset`) is modelled as the lowest ID. Every failure the source catches (a
node save that throws, a file copy that throws) is a parameter of type
`Environment.Env`. Every property therefore holds for every behaviour of the
file system and the database.

## Model

| member | source | states |
|---|---|---|
| Settings.Whitelist | src/Plugin/migrate/source/MeetingsDirectory.php:157-160 | an empty setting ("" or "0") gives no ids; otherwise the ids joined with commas give the setting back and no id holds a comma |
| Settings.WhitelistOfList | src/Plugin/migrate/source/MeetingsDirectory.php:160 | a whitelist written as a comma list of ids reads back as exactly those ids |
| Settings.CommitteeAllowed | src/Plugin/migrate/source/MeetingsDirectory.php:216-219 | an empty whitelist admits every committee; otherwise a committee is admitted exactly when its id is one of the comma-separated entries of the setting |
| Settings.HtmlTags | src/Plugin/migrate/source/MeetingsDirectory.php:167 | the tag setting always yields at least one entry, and the entries joined with commas give the setting back |
| Settings.MaxSequentialBr | src/Plugin/migrate/source/MeetingsDirectory.php:170 | an unset limit means 1; a set one is taken as it is |
| Canonical.EffectiveAccess | src/Plugin/migrate/source/MeetingsDirectory.php:464-465 | an absent access flag means open |
| Canonical.EnclosureAsAttachment | src/Plugin/migrate/source/MeetingsDirectory.php:497-498 | an enclosure merged into the attachments keeps its id, title, access and file, and has an empty body |
| Canonical.ConstantsDistinct | src/MeetingsDirectoryInterface.php:17-45 | the two access constants differ, and so do the three agenda types; `MeetingsImport.AccessPasses` uses it to keep a closed agenda from passing as open, and `MeetingsImport.RowImported` to keep a `Dagsorden` or `Referat` row from being taken for a draft |
| ContentStore.NewNode | src/Plugin/migrate/source/MeetingsDirectory.php:478-482 | a created node has the given type, ESDH id and title, and no references or file |
| ContentStore.PutNode | src/Entity/Os2webNodeBase.php:69-71 | saving a loaded node overwrites that node only |
| ContentStore.AddNode | src/Plugin/migrate/source/MeetingsDirectory.php:478-485 | saving a created node appends it under the next free ID and changes nothing else |
| ContentStore.PutTerm | src/Plugin/migrate/source/MeetingsDirectory.php:373-378 | saving a loaded term overwrites that term only |
| ContentStore.AddTerm | src/Plugin/migrate/source/MeetingsDirectory.php:366-378 | saving a created term appends it under the next free ID and changes nothing else |
| ContentStore.AddFile | src/Plugin/migrate/source/MeetingsDirectory.php:768-774 | saving a created managed file appends it under the next free ID and changes nothing else |
| PhpStrings.Trim | src/Plugin/migrate/source/MeetingsDirectory.php:826 | the result has no blank at either end, and a string without blanks is returned as it is |
| PhpStrings.TrimEmpty | src/Plugin/migrate/source/MeetingsDirectory.php:826-830 | a tag entry trims to nothing exactly when it consists of blanks only |
| PhpStrings.Split | src/Plugin/migrate/source/MeetingsDirectory.php:160 | `explode` always gives at least one part, and no part holds the delimiter |
| PhpStrings.JoinSplit | src/Plugin/migrate/source/MeetingsDirectory.php:160 | `implode` undoes `explode` |
| PhpStrings.SplitJoin | src/Plugin/migrate/source/MeetingsDirectory.php:160 | `explode` undoes `implode` when no part holds the delimiter |
| PhpStrings.LastIndexOf | src/Plugin/migrate/source/MeetingsDirectory.php:732 | `strrpos` finds a `.` with no `.` after it, and finds none only when there is none |
| PhpStrings.DirnameOfJoin | src/Plugin/migrate_plus/data_parser/SimpleXmlArray.php:69 | `dirname` of `dir/file` is `dir` |
| PhpStrings.BasenameOfJoin | src/Plugin/migrate/source/MeetingsDirectory.php:719 | the basename of `dir/file` is `file` |
| Entities.WrapNode | src/Entity/Os2webNodeBase.php:30-37 | the wrapper constructor accepts exactly the nodes of its type, and otherwise fails naming the expected and the given type |
| Entities.WrapTerm | src/Entity/Os2webTaxonomyTermBase.php:30-37 | the term wrapper constructor accepts exactly the terms of its vocabulary, and otherwise fails naming both |
| Entities.WrapNodeRoundTrip | src/Entity/Os2webNodeBase.php:30-107 | a wrapped node comes back unchanged from `getEntity`, with its ID from `id` and its ESDH id from `getEsdhId` |
| Entities.WrapTermRoundTrip | src/Entity/Os2webTaxonomyTermBase.php:30-57 | a wrapped term comes back unchanged from `getEntity`, with its ID from `id` |
| Entities.Id | src/Entity/Os2webNodeBase.php:55-57 | `id()` is the wrapped entity's ID; its contract is `WrapNodeRoundTrip` and `WrapTermRoundTrip`, which read the constructor's ID back |
| Entities.GetEsdhId | src/Entity/Os2webNodeBase.php:105-107 | `getEsdhId()` is the node's ESDH id field; its contract is `WrapNodeRoundTrip` and `LoadByEsdhId`, whose result carries the id searched for |
| Entities.Save | src/Entity/Os2webNodeBase.php:69-71 | `save` writes the wrapped entity back under its ID and changes nothing else |
| Entities.FindNodeFrom | src/Entity/Meeting.php:27-31 | the query's first row is the lowest matching ID, and there is none exactly when no node matches |
| Entities.FindTermFrom | src/Entity/Committee.php:25-29 | the first term of the vocabulary with the ESDH id, and none exactly when no term matches |
| Entities.LoadByEsdhId | src/Entity/Meeting.php:22-36 | the result is the wrapper of the lowest-ID entity of the wrapper's type with that ESDH id; NULL exactly when there is none |
| Entities.LoadedWrapperIsWellTyped | src/Entity/Committee.php:29-30 | what `loadByEsdhId` returns always passes its own constructor's type check |
| Entities.GetBulletPointByEsdhId | src/Entity/Meeting.php:109-127 | a bullet point is found only among the meeting's own references and carries the ESDH id; NULL means no referenced bullet point has it |
| Entities.ScopedLookupAgreesWithGlobal | src/Entity/Meeting.php:109-127 | a scoped lookup finds nothing the global lookup would not, and finds the global first match whenever the meeting references it |
| Entities.GetCommittee | src/Entity/Meeting.php:60-71 | the first referenced committee, NULL exactly when the field is empty |
| Entities.GetBulletPoints | src/Entity/Meeting.php:84-95 | `getBulletPoints(FALSE)` is the referenced IDs in field order; its contract is `GetBulletPointByEsdhId`, which searches only these |
| Entities.SetAddendum | src/Entity/Meeting.php:139-144 | the addendum is set on the wrapped meeting and stored only when `save` is true, leaving every other node alone |
| Entities.GetEnclosures | src/Entity/BulletPoint.php:50-61 | the referenced file IDs in field order |
| Entities.GetEnclosureByName | src/Entity/BulletPoint.php:75-89 | the file of the first item whose description is exactly the name; NULL exactly when no item has it |
| Entities.GetBulletPointAttachmentByEsdhId | src/Entity/BulletPoint.php:127-145 | an attachment is found only among the bullet point's own references and carries the ESDH id; NULL means none referenced has it |
| Entities.GetBulletPointAttachments | src/Entity/BulletPoint.php:102-113 | `getBulletPointAttachments(FALSE)` is the referenced IDs in field order; its contract is `GetBulletPointAttachmentByEsdhId`, which searches only these |
| XmlRows.BannedStrings | src/Plugin/migrate_plus/data_parser/SimpleXmlArray.php:53-57 | an empty setting bans nothing; otherwise the banned strings joined with commas give the setting back |
| XmlRows.StripBanned | src/Plugin/migrate_plus/data_parser/SimpleXmlArray.php:55-58 | removal never lengthens the data, and with nothing banned the data is kept |
| XmlRows.RemoveAbsent | src/Plugin/migrate_plus/data_parser/SimpleXmlArray.php:57 | data in which no banned string occurs is kept as it is |
| XmlRows.SingleCharsRemoved | src/Plugin/migrate_plus/data_parser/SimpleXmlArray.php:57 | banned single characters are all gone afterwards, and no character is brought in |
| XmlRows.ManifestText | src/Plugin/migrate_plus/data_parser/SimpleXmlArray.php:55-59 | the text handed to the parser is never longer than the fetched data |
| XmlRows.ManifestTextTrimmed | src/Plugin/migrate_plus/data_parser/SimpleXmlArray.php:59 | the parser's text has no blank at either end |
| XmlRows.ManifestTextPlain | src/Plugin/migrate_plus/data_parser/SimpleXmlArray.php:56-59 | with nothing banned, data without blanks reaches the parser unchanged |
| XmlRows.ManifestTextHasNoBannedChar | src/Plugin/migrate_plus/data_parser/SimpleXmlArray.php:56-59 | when every banned entry is one character, the parser sees none of them and no character the data lacked |
| XmlRows.BannedStringCanSurvive | src/Plugin/migrate_plus/data_parser/SimpleXmlArray.php:57 | a banned entry of several characters can survive: banning `ab` turns `aabb` into `ab` |
| XmlRows.OpenSourceUrl | src/Plugin/migrate_plus/data_parser/SimpleXmlArray.php:46-72 | the parse fails exactly when the parser reports an error on the stripped and trimmed text, with the first error as message; otherwise the matches are the item selector's and the directory is the URL's `dirname` |
| XmlRows.ManifestDirectory | src/Plugin/migrate_plus/data_parser/SimpleXmlArray.php:69 | a manifest at `dir/name` gives its rows `dir` as directory |
| XmlRows.ValueOf | src/Plugin/migrate_plus/data_parser/SimpleXmlArray.php:94-104 | an element is kept as a nested array exactly when it has children and blank text; otherwise its text is taken |
| XmlRows.ValuesOf | src/Plugin/migrate_plus/data_parser/SimpleXmlArray.php:93-105 | one value per match, in match order |
| XmlRows.Collapse | src/Plugin/migrate_plus/data_parser/SimpleXmlArray.php:109-113 | a field becomes a scalar exactly when it has one value and no nested array; otherwise it keeps its whole list |
| XmlRows.CollapseMap | src/Plugin/migrate_plus/data_parser/SimpleXmlArray.php:109-113 | every field is kept and reduced |
| XmlRows.RowOf | src/Plugin/migrate_plus/data_parser/SimpleXmlArray.php:92-115 | a row holds `directory_path`, and any other field exactly when some selector of it matched, with its collected values reduced |
| XmlRows.FetchNextRow | src/Plugin/migrate_plus/data_parser/SimpleXmlArray.php:85-118 | the first match is consumed and shaped into its row; with no match left there is no row and the source is unchanged |
| XmlRows.CollectFields | src/Plugin/migrate_plus/data_parser/SimpleXmlArray.php:92-106 | the field loop collects every selector's values in order, and `$arrayFields` is exactly the set of fields holding a nested array |
| XmlRows.AppendValues | src/Plugin/migrate_plus/data_parser/SimpleXmlArray.php:93-105 | the inner loop appends the matches' values to the field in order and marks the field when one of them is nested |
| XmlRows.CollapseAll | src/Plugin/migrate_plus/data_parser/SimpleXmlArray.php:109-113 | the reduction loop yields every field reduced |
| XmlRows.CollectedOutside | src/Plugin/migrate_plus/data_parser/SimpleXmlArray.php:92-106 | a field no selector names collects nothing |
| XmlRows.CollectedOfUnique | src/Plugin/migrate_plus/data_parser/SimpleXmlArray.php:92-106 | a field named by one selector collects exactly that selector's values |
| XmlRows.SingleSelectorField | src/Plugin/migrate_plus/data_parser/SimpleXmlArray.php:92-115 | such a field is in the row exactly when its selector matched, holding the reduced values in match order |
| Patterns.FindAll | src/Plugin/migrate/source/MeetingsDirectory.php:833 | `preg_match_all` lists non-empty, non-overlapping matches, left to right, each an anchored match of the pattern |
| Patterns.ReplaceIsSplice | src/Plugin/migrate/source/MeetingsDirectory.php:835-836 | the replace scanner rewrites exactly the spans the listing scanner reports and keeps the text between them |
| Patterns.ReplaceAgreesWithFindAll | src/Plugin/migrate/source/MeetingsDirectory.php:833-836 | `preg_replace` rewrites exactly what `preg_match_all` lists |
| Patterns.NoMatchIdentity | src/Plugin/migrate/source/MeetingsDirectory.php:835 | a pattern that never matches leaves the text unchanged and lists nothing |
| Patterns.ReplaceCharIsJoinSplit | src/Plugin/migrate_plus/data_parser/SimpleXmlArray.php:57 | `str_replace` of one character is `implode` of `explode` |
| Patterns.RunReplaceByPieces | src/Plugin/migrate/source/MeetingsDirectory.php:796-809 | a run pattern replaces every maximal run of at least `min` units and keeps shorter runs and all other text, as the piece-by-piece reference says |
| Patterns.RunReplaceIsRender | src/Plugin/migrate/source/MeetingsDirectory.php:796-809 | the same for the three run patterns of the clean-up over a whole text |
| HtmlCleanup.OpeningTags | src/Plugin/migrate/source/MeetingsDirectory.php:833 | one listed text per match of the tag pattern, each a whole opening tag of that name |
| HtmlCleanup.OpeningTagText | src/Plugin/migrate/source/MeetingsDirectory.php:833 | a listed match is `<`, the tag name and everything up to the first `>` |
| HtmlCleanup.StripStyles | src/Plugin/migrate/source/MeetingsDirectory.php:834-837 | each listed opening tag loses its style attributes and replaces every occurrence of itself; its contract is `StripStylesNoLonger` and `StripStylesStyleFree` |
| HtmlCleanup.StripStylesNoLonger | src/Plugin/migrate/source/MeetingsDirectory.php:834-837 | stripping the listed opening tags never lengthens the text |
| HtmlCleanup.ClearTag | src/Plugin/migrate/source/MeetingsDirectory.php:833-836 | the opening tags are listed once and then stripped; its contract is `ClearTagNoLonger`, `ClearTagAbsent`, `ClearOnlyOpening` and `ClearTagRemovesStyle` |
| HtmlCleanup.ClearTagNoLonger | src/Plugin/migrate/source/MeetingsDirectory.php:833-836 | style stripping for one tag never lengthens the text |
| HtmlCleanup.ClearTags | src/Plugin/migrate/source/MeetingsDirectory.php:824-839 | each configured entry is trimmed and, when not empty, cleaned in turn; its contract is `ClearTagsNoLonger`, `ClearTagsAbsent` and `ClearTagsOne` |
| HtmlCleanup.ClearTagsNoLonger | src/Plugin/migrate/source/MeetingsDirectory.php:824-839 | style stripping over any list of tags never lengthens the text |
| HtmlCleanup.ClearHtmlTags | src/Plugin/migrate/source/MeetingsDirectory.php:823-843 | `clearHtmlTags` cleans the tags of the setting split at commas; its contract is `ClearHtmlTagsNoLonger` and `PlainTextHasNoTags` |
| HtmlCleanup.ClearHtmlTagsNoLonger | src/Plugin/migrate/source/MeetingsDirectory.php:823-843 | `clearHtmlTags` never lengthens the text |
| HtmlCleanup.StripStylesStyleFree | src/Plugin/migrate/source/MeetingsDirectory.php:834-837 | opening tags without a style attribute leave the text unchanged |
| HtmlCleanup.ClearTagAbsent | src/Plugin/migrate/source/MeetingsDirectory.php:833-836 | a tag that never opens changes nothing |
| HtmlCleanup.ClearTagsAbsent | src/Plugin/migrate/source/MeetingsDirectory.php:824-839 | when no listed tag opens, and for any entry that trims to nothing, the text is unchanged |
| HtmlCleanup.ClearTagsOne | src/Plugin/migrate/source/MeetingsDirectory.php:825-830 | a single trimmed, non-empty tag entry is cleaned as that tag |
| HtmlCleanup.FilterRemovesStyle | src/Plugin/migrate/source/MeetingsDirectory.php:835 | the attribute filter cuts out one ` style="…"` attribute and keeps every other character of the tag |
| HtmlCleanup.ClearOnlyOpening | src/Plugin/migrate/source/MeetingsDirectory.php:833-836 | when a tag opens in one place only, that opening tag is filtered and the text around it is kept |
| HtmlCleanup.ClearTagRemovesStyle | src/Plugin/migrate/source/MeetingsDirectory.php:823-843 | an opening tag of a listed name with one style attribute loses that attribute; the rest of the tag and all text outside it are kept |
| HtmlCleanup.ClearTagAtStart | src/Plugin/migrate/source/MeetingsDirectory.php:833-836 | the same for a text that starts with the tag |
| HtmlCleanup.ClearTagExample | src/Plugin/migrate/source/MeetingsDirectory.php:833-836 | `<p style="color:red">x</p>` becomes `<p>x</p>` |
| HtmlCleanup.StyleCanReform | src/Plugin/migrate/source/MeetingsDirectory.php:835 | the filter is not a fixed point: `<p  style="a"style="b">` becomes `<p style="b">`, which still has a style attribute |
| HtmlCleanup.CollapseNbsp | src/Plugin/migrate/source/MeetingsDirectory.php:796-799 | every run of two or more non-breaking spaces becomes one `&nbsp;`, and a lone one is kept |
| HtmlCleanup.CollapseEmptyParagraphs | src/Plugin/migrate/source/MeetingsDirectory.php:801-804 | every run of empty paragraphs becomes one `<br/>` |
| HtmlCleanup.PruneBreaks | src/Plugin/migrate/source/MeetingsDirectory.php:806-809 | a run of at least `threshold` line breaks is deleted entirely; shorter runs are kept |
| HtmlCleanup.PruneBreaksKeepsShortRuns | src/Plugin/migrate/source/MeetingsDirectory.php:806-809 | a text with only short line-break runs is unchanged |
| HtmlCleanup.NbspStage | src/Plugin/migrate/source/MeetingsDirectory.php:796-799 | the non-breaking space collapse runs exactly when `replace_multiple_nbsp` is set |
| HtmlCleanup.ParagraphStage | src/Plugin/migrate/source/MeetingsDirectory.php:801-804 | the empty-paragraph collapse runs exactly when `replace_empty_paragraphs` is set |
| HtmlCleanup.CleanHtml | src/Plugin/migrate/source/MeetingsDirectory.php:793-812 | the clean-up is style stripping, then the optional stages, then deletion of runs longer than the limit, in those terms of the reference definition |
| HtmlCleanup.AfterTags | src/Plugin/migrate/source/MeetingsDirectory.php:796-809 | the stages after style stripping: the optional collapses, then deletion of line-break runs longer than the limit, in terms of the reference definition |
| HtmlCleanup.CleanHtmlPlainText | src/Plugin/migrate/source/MeetingsDirectory.php:793-812 | text without markup comes out exactly as it went in, whatever the settings |
| HtmlCleanup.SrcPaths | src/Plugin/migrate/source/MeetingsDirectory.php:863 | one path per `src="…"` match, each the value inside that match |
| HtmlCleanup.SrcValueText | src/Plugin/migrate/source/MeetingsDirectory.php:863 | a listed `src` match is `src="`, a non-empty value without `"`, and `"` |
| HtmlCleanup.MirrorPathOfPrivate | src/Plugin/migrate/source/MeetingsDirectory.php:913 | a private image's public copy mirrors its path below `public://os2web_meetings_images/` |
| HtmlCleanup.MirrorPath | src/Plugin/migrate/source/MeetingsDirectory.php:913 | a URI without `private://` in it is its own mirror |
| HtmlCleanup.ImageUri | src/Plugin/migrate/source/MeetingsDirectory.php:866-874 | an image outside the private scheme stays where it is; a private one is copied to `MirrorPath` of its URI and ends up wherever the copy puts it, or nowhere when the copy fails |
| HtmlCleanup.FixPath | src/Plugin/migrate/source/MeetingsDirectory.php:865-884 | a path whose file exists is replaced everywhere by the file's public URL; a path whose file is missing, or whose private copy failed, is removed everywhere; a path that occurs nowhere changes nothing |
| HtmlCleanup.FixPaths | src/Plugin/migrate/source/MeetingsDirectory.php:865-884 | paths none of which occurs in the text change nothing |
| HtmlCleanup.FixImagePaths | src/Plugin/migrate/source/MeetingsDirectory.php:859-888 | with no `src` value only the removal of images with an empty source applies; `FixImagePathsOneImage` states the rewrite |
| HtmlCleanup.FixImagePathsOneImage | src/Plugin/migrate/source/MeetingsDirectory.php:859-888 | with one `src` value, occurring once, the value is replaced by its new source (the public URL, or nothing for a missing file), every other character is kept, and then images with an empty source are removed |
| HtmlCleanup.FixImagePathsRewrites | src/Plugin/migrate/source/MeetingsDirectory.php:876-883 | an image whose file exists gets the file's public URL as its source and nothing else in the text changes |
| HtmlCleanup.FixImagePathsDropsMissing | src/Plugin/migrate/source/MeetingsDirectory.php:876-886 | an image whose file is missing, or whose private copy failed, is removed with its whole `<img …>` tag |
| HtmlCleanup.PlainBodyKept | src/Plugin/migrate/source/MeetingsDirectory.php:646-647 | a body without markup and without `src` attributes comes out of `cleanHtml` and `fixImagePaths` unchanged |
| HtmlCleanup.FixImagePathsNoImages | src/Plugin/migrate/source/MeetingsDirectory.php:859-888 | text without `src` attributes and without empty-source images is unchanged |
| HtmlCleanup.EmptyImageRemoved | src/Plugin/migrate/source/MeetingsDirectory.php:886 | an image tag with an empty source is removed whole |
| ManagedFiles.SplitExtension | src/Plugin/migrate/source/MeetingsDirectory.php:731-740 | name and extension put together give the basename; the extension is empty exactly when there is no dot, and otherwise is the last dot-led tail |
| ManagedFiles.SplitExtensionOfJoin | src/Plugin/migrate/source/MeetingsDirectory.php:731-740 | splitting a joined name and extension gives them back |
| ManagedFiles.CopyStem | src/Plugin/migrate/source/MeetingsDirectory.php:741-749 | the copy's name is the title when one is given, otherwise the original name with `_0`; its contract is `CopyUriOfJoin` |
| ManagedFiles.CopyName | src/Plugin/migrate/source/MeetingsDirectory.php:741-754 | the copy's base name is its stem with the original extension; its contract is `CopyUriOfJoin` and `CopyNameSplits` |
| ManagedFiles.CopyUri | src/Plugin/migrate/source/MeetingsDirectory.php:719-754 | the copy sits in the original's directory under `CopyName`; its contract is `CopyUriOfJoin` and `CopyUriReadBack` |
| ManagedFiles.CopyUriOfJoin | src/Plugin/migrate/source/MeetingsDirectory.php:719-754 | the copy of `dir/base` is `dir/` followed by the title (or the name with `_0`) and the original extension |
| ManagedFiles.CopyNameSplits | src/Plugin/migrate/source/MeetingsDirectory.php:741-754 | without a title the copy's name splits into the original name with `_0` and the original extension |
| ManagedFiles.CopyNameHasNoSlash | src/Plugin/migrate/source/MeetingsDirectory.php:744-754 | the copy stays in the original's directory when neither name nor title has a slash |
| ManagedFiles.CopyUriReadBack | src/Plugin/migrate/source/MeetingsDirectory.php:719-754 | from the copy's URI the original directory, name and extension can be read back |
| ManagedFiles.FindFileByUri | src/Plugin/migrate/source/MeetingsDirectory.php:764 | the lowest managed file ID with the URI, and none exactly when no record has it |
| ManagedFiles.CreateFileCopyAsManaged | src/Plugin/migrate/source/MeetingsDirectory.php:715-782 | a file exactly when the copy or registration goes through; a copy's record has the copy URI; a registration appends a record named after the file; failure leaves the store alone |
| ManagedFiles.CopyModeIsIdempotent | src/Plugin/migrate/source/MeetingsDirectory.php:751-764 | in copy mode a second import of a file returns the same record and changes nothing, so there is at most one copy |
| ManagedFiles.RegisterModeAlwaysAdds | src/Plugin/migrate/source/MeetingsDirectory.php:766-775 | without copies every import registers one more record for the same URI |
| ManagedFiles.CreateFileCopyAsWritten | src/Plugin/migrate/source/MeetingsDirectory.php:756-781 | as written, a failed registration returns an unsaved file object; every other case agrees with the corrected function |
| ManagedFiles.FailedRegistrationLooksLikeAFile | src/Plugin/migrate/source/MeetingsDirectory.php:768-781 | that unsaved object is truthy for the callers but has no ID, whereas the corrected function returns no file |
| Reconciler.UpsertTerm | src/Plugin/migrate/source/MeetingsDirectory.php:359-383 | the first term of the vocabulary with the ESDH id is renamed in place, or a term is appended; either way the returned ID holds the record's term and no other term changes |
| Reconciler.UpsertTermLoads | src/Plugin/migrate/source/MeetingsDirectory.php:359-383 | after an upsert, `loadByEsdhId` finds the record's term under the returned ID |
| Reconciler.UpsertTermIdempotent | src/Plugin/migrate/source/MeetingsDirectory.php:359-383 | upserting the same record twice is upserting it once |
| Reconciler.RenameAddsNoTerm | src/Plugin/migrate/source/MeetingsDirectory.php:364-376 | a committee whose ESDH id is stored is never duplicated by a rename |
| Reconciler.Admitted | src/Plugin/migrate/source/MeetingsDirectory.php:590 | a sub-record is imported unless it is explicitly closed and closed content is not imported; the same test guards attachments at line 654 |
| Reconciler.ProcessAgendaDocument | src/Plugin/migrate/source/MeetingsDirectory.php:332-339 | at most one target; in copy mode it exists exactly when the copy goes through and names a file at the copy URI; otherwise it exists exactly when the registration goes through and names the appended record; only files are added |
| Reconciler.AgendaDocumentIdempotent | src/Plugin/migrate/source/MeetingsDirectory.php:332-339 | in copy mode importing the same document again changes nothing |
| Reconciler.KeptTitle | src/Plugin/migrate/source/MeetingsDirectory.php:589-611 | an enclosure contributes its title exactly when it is admitted and has a path |
| Reconciler.ProcessEnclosure | src/Plugin/migrate/source/MeetingsDirectory.php:583-611 | a closed enclosure is dropped; an item is described by the enclosure's title; called without a bullet point, the item is a new file of the store, made when nothing fails |
| Reconciler.ProcessEnclosures | src/Plugin/migrate/source/MeetingsDirectory.php:580-616 | called without a bullet point, the items are files of the store, and when no file operation fails they are described by exactly the kept titles in order |
| Reconciler.AttachmentFile | src/Plugin/migrate/source/MeetingsDirectory.php:674-681 | a file only for an attachment with a path, and always one when file operations go through |
| Reconciler.AttachmentBody | src/Plugin/migrate/source/MeetingsDirectory.php:646-647 | the stored body is the cleaned body with its images fixed, so a body without markup and without `src` attributes is stored as it is |
| Reconciler.AttachmentNode | src/Plugin/migrate/source/MeetingsDirectory.php:658-681 | the attachment node has the record's ESDH id, title and cleaned body, and the new file when one was made |
| Reconciler.ProcessAttachment | src/Plugin/migrate/source/MeetingsDirectory.php:643-692 | a closed attachment is dropped; an admitted one updates the bullet point's own attachment of that ESDH id or creates one, with the record's title and cleaned body; a failed save writes no node |
| Reconciler.ProcessAttachments | src/Plugin/migrate/source/MeetingsDirectory.php:641-697 | the targets are attachment nodes, at most one per admitted attachment; when saves go through, the k-th target is the node of the k-th admitted attachment |
| Reconciler.ClosedTitle | src/Plugin/migrate/source/MeetingsDirectory.php:509-513 | a configured prefix and a space are put in front of the title; without a prefix the title is kept |
| Reconciler.NumberPrefix | src/Plugin/migrate/source/MeetingsDirectory.php:519-536 | the optional text and a space, the number, and the optional dot, each where the settings say |
| Reconciler.BpTitle | src/Plugin/migrate/source/MeetingsDirectory.php:460-538 | the stored title has three parts: the number prefix and a space when there is a number, the closed prefix and a space when the bullet point is not admitted and a prefix is set, then the record's title; the length is the sum of the parts, and it is built from the record alone |
| Reconciler.ExistingBulletPoint | src/Plugin/migrate/source/MeetingsDirectory.php:472-475 | a found bullet point has the record's ESDH id; without a meeting nothing is found |
| Reconciler.StartBulletPoint | src/Plugin/migrate/source/MeetingsDirectory.php:471-493 | an existing bullet point is retitled in memory only; otherwise a new one is saved at once, and a failed save yields none |
| Reconciler.AttachmentInputs | src/Plugin/migrate/source/MeetingsDirectory.php:497-500 | with enclosures routed as attachments, the attachments followed by the converted enclosures; otherwise the attachments alone |
| Reconciler.BpChildren | src/Plugin/migrate/source/MeetingsDirectory.php:495-516 | a bullet point that is not admitted gets no enclosures or attachments; an admitted one gets the kept enclosures and one attachment per admitted input when saves go through |
| Reconciler.FinishBulletPoint | src/Plugin/migrate/source/MeetingsDirectory.php:509-541 | the saved node has the composed title, the closed flag, its children, and the placeholder body when not admitted |
| Reconciler.ProcessBulletPoint | src/Plugin/migrate/source/MeetingsDirectory.php:460-553 | the target is the meeting's existing bullet point of that ESDH id or a new one, stored with the composed title and closed flag; a closed one gets the placeholder body and no children; a failed save yields no target |
| Reconciler.ReimportKeepsTitle | src/Plugin/migrate/source/MeetingsDirectory.php:473-537 | importing a bullet point again updates the same node and stores the same title; prefixes never stack |
| Reconciler.ProcessBulletPoints | src/Plugin/migrate/source/MeetingsDirectory.php:453-557 | the targets are bullet point nodes, one per bullet point when saves go through; a failure does not stop the others |
| Unpublish.ScheduleOf | src/Plugin/migrate/source/MeetingsDirectory.php:285-292 | every scheduled meeting is a selected node under its ESDH id, no earlier than any selected node with that id |
| Unpublish.ScheduleKeepsLastSelected | src/Plugin/migrate/source/MeetingsDirectory.php:289-292 | a node is scheduled exactly when it is the last selected node with its ESDH id |
| Unpublish.PreImport | src/Plugin/migrate/source/MeetingsDirectory.php:273-296 | with unpublishing on, the schedule holds exactly the last published meeting of this source per ESDH id; otherwise it is empty |
| Unpublish.Sight | src/Plugin/migrate/source/MeetingsDirectory.php:186-189 | with unpublishing on, the row's meeting leaves the schedule and nothing else changes |
| Unpublish.WithoutSight | src/Plugin/migrate/source/MeetingsDirectory.php:186-189 | sighting ids one at a time removes exactly the sighted ids |
| Unpublish.PostImport | src/Plugin/migrate/source/MeetingsDirectory.php:301-312 | with unpublishing on, each scheduled meeting is saved unpublished and every other node is left alone |
| MeetingsImport.NameList | src/Plugin/migrate/source/MeetingsDirectory.php:260-266 | no property for no names; otherwise a comma list that splits back into the names |
| MeetingsImport.AccessPasses | src/Plugin/migrate/source/MeetingsDirectory.php:208-211 | an open agenda always passes; a closed one passes exactly when closed agendas are imported |
| MeetingsImport.RowImported | src/Plugin/migrate/source/MeetingsDirectory.php:229-232 | a draft (`Kladde`) row is never imported; a `Dagsorden` or `Referat` row is imported exactly when it reaches the committee |
| MeetingsImport.LocationStep | src/Plugin/migrate/source/MeetingsDirectory.php:247-252 | a location term is upserted exactly when the meeting has a location, and only location terms change |
| MeetingsImport.MeetingOf | src/Plugin/migrate/source/MeetingsDirectory.php:223 | a meeting node with the agenda id, found exactly when one is stored |
| MeetingsImport.ImportParts | src/Plugin/migrate/source/MeetingsDirectory.php:242-257 | the agenda document's file comes before any bullet point's; the location term is stored when there is a location; one bullet point target per bullet point when saves go through |
| MeetingsImport.Properties | src/Plugin/migrate/source/MeetingsDirectory.php:201-266 | the row's destination properties name the source, the record's fields and the targets |
| MeetingsImport.CommitteeOnward | src/Plugin/migrate/source/MeetingsDirectory.php:212-266 | the committee is stored under its ESDH id with the record's name; a draft changes only its committee; any other row is imported |
| MeetingsImport.PrepareRow | src/Plugin/migrate/source/MeetingsDirectory.php:177-268 | every row leaves the schedule first; the parts are imported exactly when access, whitelist and agenda type allow; a skipped row stores nothing unless it reaches the committee, and a draft changes only its committee |
| MeetingsImport.LeftOverDistinct | src/Plugin/migrate/source/MeetingsDirectory.php:289-294 | no two schedule entries name the same node, so the sweep writes each node once |
| MeetingsImport.LeftOver | src/Plugin/migrate/source/MeetingsDirectory.php:273-312 | a node is left on the schedule exactly when it is the last selected node of its ESDH id and no row carried that id |
| MeetingsImport.RunRow | src/Plugin/migrate/source/MeetingsDirectory.php:186-268 | one row: the schedule loses its agenda id, and the row is imported exactly when it should be |
| MeetingsImport.Import | src/Plugin/migrate/source/MeetingsDirectory.php:177-312 | a meeting node ends up unpublished exactly when it is the last published meeting of this source with its ESDH id and no row carried that id; a skipped row keeps its meeting published; with unpublishing off no meeting node changes |

## Left out

- The directory walk in the plugin constructor (MeetingsDirectory.php:114-155) is left out. The manifest URLs are an input.
- The provider-specific converters (`convert…ToCanonical`) are left out. A `MeetingRecord` is taken as already converted.
- The migration framework's own row skipping and change detection (`parent::prepareRow`, `needsUpdate`, high water, row hash) are left out. They are two booleans on the row.
- The destination write of the meeting node is left out. `prepareRow` only hands the destination its properties, so meeting nodes change only in the unpublish sweep.
- How a converter computes the start and end dates is left out with the converters. The dates reach `prepareRow` as integer UTC timestamps (MeetingsDirectoryInterface.php:90, 103) and are handed to the destination unchanged.
- The debug output `print_r` (MeetingsDirectory.php:199) and every logger call are left out.
- XML parsing, namespaces and XPath evaluation are oracles (`XmlTools`). Fetching the manifest is an oracle that always returns text, so a fetch that throws is not modelled; the source does not catch it either.
- XmlRows.ValueOf: the `json_encode`/`json_decode` of a nested element is not modelled. The nested value is kept as the element itself.
- Settings.Whitelist: `in_array` at MeetingsDirectory.php:217 compares loosely, so "01" matches "1". The model compares ids as exact strings.
- Settings.HtmlTags: `str_getcsv` quoting and escaping are not modelled. The setting is split at every comma.
- HtmlCleanup.ClearTag: the tag is spliced raw into the regular expression (MeetingsDirectory.php:833). The model treats it as a literal tag name, compared case-insensitively for ASCII, so a tag holding regex metacharacters is not modelled.
- HtmlCleanup.CollapseNbsp: text is a sequence of Unicode characters, so a body that is not valid UTF-8 cannot be represented. On such a body the `/u` `preg_replace` at MeetingsDirectory.php:798 returns NULL, and the next `preg_replace` (803 or 809) turns the NULL into "". The model assumes bodies are valid UTF-8 and does not model that NULL result.
- HtmlCleanup.NbspStage: with `replace_multiple_nbsp` set, a body that is not valid UTF-8 comes out of the source's stage as NULL. The model has no such body and no NULL result; see HtmlCleanup.CollapseNbsp.
- HtmlCleanup.CleanHtml: with `replace_multiple_nbsp` set, the source cleans a body that is not valid UTF-8 to "", through the NULL of line 798. The model assumes valid UTF-8 and does not state that result; see HtmlCleanup.CollapseNbsp.
- Settings.MaxSequentialBr: the limit is a natural number. A negative or non-numeric `max_sequential_br` changes the `{n,}` quantifier into literal text, and that is not modelled.
- Canonical.EffectiveAccess: the source tests `=== TRUE` in processBulletPoints (MeetingsDirectory.php:495) and `=== FALSE` in processEnclosures and processAttachments (590, 654). For an access value that is not a boolean these disagree, and the model's `Option<bool>` cannot hold one.
- Reconciler.UpsertTerm: a term save that throws (MeetingsDirectory.php:378) is not caught by the source and would abort the import; the model's term saves always succeed.
- Unpublish.PostImport: a meeting save that throws (MeetingsDirectory.php:308) is uncaught in the source and would end the sweep early; the model's saves in the sweep always succeed.
- Reconciler.ProcessAgendaDocument: the reconciler follows the corrected `ManagedFiles.CreateFileCopyAsManaged`, not the source as written (see Findings). So on a failed registration the model drops what the source keeps: an enclosure target with a NULL file and its description (MeetingsDirectory.php:606-611), an attachment's NULL `field_os2web_m_bpa_file` (678-679), and an agenda document target with a NULL ID (338).
- Reconciler.ProcessAttachment: the source runs `cleanHtml` and `fixImagePaths` (MeetingsDirectory.php:646-647) before the closed-content check (654). So a closed attachment's private images are still copied to `public://os2web_meetings_images/` although the attachment is dropped. The image copy is a stateless oracle (`Env.copyImage`), so this leak of closed images is not visible in the model.
- Reconciler.ProcessEnclosures: the reuse of an enclosure by description needs a bullet point, and `processBulletPoints` never passes one (MeetingsDirectory.php:502). The model keeps that branch, but states its contents only for the call without a bullet point.
- HtmlCleanup.ImageUri: copying a private image to its public mirror, including creating the folder, is one oracle. `getScheme` is modelled as the `private://` prefix.
- HtmlCleanup.ClearTagRemovesStyle: "no style attribute remains" is not stated for every input. Cutting out one attribute can form a new one, as HtmlCleanup.StyleCanReform shows. The lemma is stated for tags with a single style attribute.
- XmlRows.OpenSourceUrl: "no banned string remains" holds only for single-character entries (XmlRows.ManifestTextHasNoBannedChar). Deleting a longer entry can form a new occurrence, as XmlRows.BannedStringCanSurvive shows.
- The print, search and redirect submodules, and the event subscriber, are not part of this model.

## Findings

| source | as written | input that shows it | evidently intended | confidence | as-written member | corrected member |
|---|---|---|---|---|---|---|
| src/Plugin/migrate/source/MeetingsDirectory.php:768-781 | `$managedFile` is assigned by `File::create` before `save()` can throw, and the catch does not reset it. A failed registration therefore returns an unsaved file object, which is truthy and has a NULL ID. | `create_files_copy` off, and a file whose managed record cannot be saved: the caller's `if ($documentFile)` passes and it stores `['target_id' => NULL]` | return no file (FALSE) when the registration fails, as the function's documented "managed file or FALSE" says, so callers add no reference | medium, not executed | ManagedFiles.FailedRegistrationLooksLikeAFile | ManagedFiles.CreateFileCopyAsManaged |

=== FILE: canonical.dfy ===
/** The provider-independent meeting record every ESDH converter produces,
    and the constants the import pipeline compares against. The converters
    themselves are provider specific and not part of this model: a
    `MeetingRecord` is taken as already converted. */
module Canonical {
  import opened Wrappers

  const AgendaTypeDagsorden: string := "Dagsorden"
  const AgendaTypeReferat: string := "Referat"
  const AgendaTypeKladde: string := "Kladde"

  const AgendaAccessOpen: int := 1
  const AgendaAccessClosed: int := 2

  /** A committee or a location: an ESDH id and a display name. */
  datatype TermRecord = TermRecord(id: string, name: string)

  /** The agenda document: a title and a path relative to the meeting directory. */
  datatype AgendaDocument = AgendaDocument(title: string, uri: string)

  /** A bullet point attachment; `body` may be empty, `access` absent means
      open, `uri` is an optional path relative to the meeting directory. */
  datatype AttachmentRecord = AttachmentRecord(
    id: string,
    title: string,
    body: string,
    access: Option<bool>,
    uri: Option<string>)

  /** An enclosure: a file relative to the meeting directory. */
  datatype EnclosureRecord = EnclosureRecord(
    id: string,
    title: string,
    uri: string,
    access: Option<bool>)

  /** A bullet point; `number` absent means the title gets no number. */
  datatype BulletPointRecord = BulletPointRecord(
    id: string,
    number: Option<string>,
    title: string,
    access: Option<bool>,
    attachments: seq<AttachmentRecord>,
    enclosures: seq<EnclosureRecord>)

  datatype ParticipantsRecord = ParticipantsRecord(
    participants: seq<string>,
    canceled: seq<string>)

  /** One meeting manifest in canonical form. Dates are UTC timestamps;
      `access` is one of the access constants; `location` is absent when the
      converter returned an empty value. */
  datatype MeetingRecord = MeetingRecord(
    agendaId: string,
    access: int,
    agendaType: string,
    startDate: int,
    endDate: int,
    agendaDocument: AgendaDocument,
    committee: TermRecord,
    location: Option<TermRecord>,
    bulletPoints: seq<BulletPointRecord>,
    participants: ParticipantsRecord)

  /** The effective access of a sub-record: absent means open. */
  function EffectiveAccess(access: Option<bool>): (open: bool)
    ensures access.None? ==> open
    ensures access.Some? ==> open == access.value
  {
    access.GetOr(true)
  }

  /** An enclosure routed into the attachment pipeline: it keeps its id,
      title, access and file, and has no body text. */
  function EnclosureAsAttachment(e: EnclosureRecord): (a: AttachmentRecord)
    ensures a.id == e.id && a.title == e.title && a.access == e.access
    ensures a.body == "" && a.uri == Some(e.uri)
  {
    AttachmentRecord(e.id, e.title, "", e.access, Some(e.uri))
  }

  /** The access constants are distinct, and so are the three agenda types. */
  lemma ConstantsDistinct()
    ensures AgendaAccessOpen != AgendaAccessClosed
    ensures AgendaTypeDagsorden != AgendaTypeReferat
    ensures AgendaTypeDagsorden != AgendaTypeKladde
    ensures AgendaTypeReferat != AgendaTypeKladde
  {
    assert AgendaTypeDagsorden[0] == 'D' && AgendaTypeReferat[0] == 'R' && AgendaTypeKladde[0] == 'K';
  }
}

=== FILE: content_store.dfy ===
/** The content store the importer writes to, reduced to the fields the
    import pipeline reads or writes. Nodes, taxonomy terms and managed files
    live in three sequences; the ID of an entity is its position, so IDs are
    allocated in increasing order and "the first match" of a storage query
    is the match with the lowest ID. */
module ContentStore {
  import opened Wrappers

  const MeetingType: string := "os2web_meetings_meeting"
  const BulletPointType: string := "os2web_meetings_bp"
  const AttachmentType: string := "os2web_meetings_bpa"
  const CommitteeVocabulary: string := "os2web_m_committee"
  const LocationVocabulary: string := "os2web_m_location"

  /** One item of a bullet point's enclosure field: a file and its description. */
  datatype EnclosureItem = EnclosureItem(targetId: nat, description: string)

  /** A content node. `bundle` is the node type; the reference fields hold
      target IDs in field order:
      - meeting: `committee` (field_os2web_m_committee), `bulletPoints`
        (field_os2web_m_bps), `addendum`, `published`, `source`;
      - bullet point: `enclosures`, `attachments` (field_os2web_m_bp_bpas),
        `closed`, `body`;
      - attachment: `body`, `file` (field_os2web_m_bpa_file). */
  datatype Node = Node(
    bundle: string,
    esdhId: string,
    title: string,
    body: string,
    published: bool,
    source: string,
    committee: seq<nat>,
    bulletPoints: seq<nat>,
    enclosures: seq<EnclosureItem>,
    attachments: seq<nat>,
    closed: bool,
    file: Option<nat>,
    addendum: Option<nat>)

  /** A taxonomy term of vocabulary `vid`. */
  datatype Term = Term(vid: string, esdhId: string, name: string)

  /** A managed file record. */
  datatype ManagedFile = ManagedFile(uri: string, filename: string)

  datatype Store = Store(nodes: seq<Node>, terms: seq<Term>, files: seq<ManagedFile>)

  /** `Node::create` with a type, an ESDH id and a title; everything else
      takes its default. */
  function NewNode(bundle: string, esdhId: string, title: string): (n: Node)
    ensures n.bundle == bundle && n.esdhId == esdhId && n.title == title
    ensures n.bulletPoints == [] && n.enclosures == [] && n.attachments == [] && n.file.None?
  {
    Node(bundle, esdhId, title, "", true, "", [], [], [], [], false, None, None)
  }

  /** Overwrites the node with ID `nid`; nothing else changes. */
  function PutNode(s: Store, nid: nat, n: Node): (s': Store)
    requires nid < |s.nodes|
    ensures |s'.nodes| == |s.nodes| && s'.nodes[nid] == n
    ensures forall i :: 0 <= i < |s.nodes| && i != nid ==> s'.nodes[i] == s.nodes[i]
    ensures s'.terms == s.terms && s'.files == s.files
  {
    s.(nodes := s.nodes[nid := n])
  }

  /** Stores a new node under the next free ID, `|s.nodes|`. */
  function AddNode(s: Store, n: Node): (s': Store)
    ensures s'.nodes == s.nodes + [n] && s'.nodes[|s.nodes|] == n
    ensures s'.terms == s.terms && s'.files == s.files
  {
    s.(nodes := s.nodes + [n])
  }

  /** Overwrites the term with ID `tid`; nothing else changes. */
  function PutTerm(s: Store, tid: nat, t: Term): (s': Store)
    requires tid < |s.terms|
    ensures |s'.terms| == |s.terms| && s'.terms[tid] == t
    ensures forall i :: 0 <= i < |s.terms| && i != tid ==> s'.terms[i] == s.terms[i]
    ensures s'.nodes == s.nodes && s'.files == s.files
  {
    s.(terms := s.terms[tid := t])
  }

  /** Stores a new term under the next free ID, `|s.terms|`. */
  function AddTerm(s: Store, t: Term): (s': Store)
    ensures s'.terms == s.terms + [t] && s'.terms[|s.terms|] == t
    ensures s'.nodes == s.nodes && s'.files == s.files
  {
    s.(terms := s.terms + [t])
  }

  /** Stores a new managed file record under the next free ID, `|s.files|`. */
  function AddFile(s: Store, f: ManagedFile): (s': Store)
    ensures s'.files == s.files + [f] && s'.files[|s.files|] == f
    ensures s'.nodes == s.nodes && s'.terms == s.terms
  {
    s.(files := s.files + [f])
  }

  /** Only managed files were added: nodes and terms are as they were, and
      the files already stored keep their IDs. */
  predicate OnlyFilesAdded(s: Store, s': Store) {
    && s'.nodes == s.nodes
    && s'.terms == s.terms
    && |s.files| <= |s'.files|
    && s'.files[..|s.files|] == s.files
  }

  lemma OnlyFilesAddedTransitive(s1: Store, s2: Store, s3: Store)
    requires OnlyFilesAdded(s1, s2) && OnlyFilesAdded(s2, s3)
    ensures OnlyFilesAdded(s1, s3)
  {
    assert s3.files[..|s1.files|] == s3.files[..|s2.files|][..|s1.files|];
  }

  /** What every import step does to the store: entities are only added or
      overwritten in place, no node changes its type or its ESDH id, and meeting nodes are
      left exactly as they were (the meeting itself is written by the
      migration's destination, not by the source plugin). */
  predicate Grows(s: Store, s': Store) {
    && |s.nodes| <= |s'.nodes|
    && |s.terms| <= |s'.terms|
    && |s.files| <= |s'.files|
    && (forall i :: 0 <= i < |s.nodes| ==> s'.nodes[i].bundle == s.nodes[i].bundle && s'.nodes[i].esdhId == s.nodes[i].esdhId)
    && (forall i :: 0 <= i < |s.nodes| && s.nodes[i].bundle == MeetingType ==> s'.nodes[i] == s.nodes[i])
  }

  lemma GrowsTransitive(s1: Store, s2: Store, s3: Store)
    requires Grows(s1, s2) && Grows(s2, s3)
    ensures Grows(s1, s3)
  {
  }
}

=== FILE: entities.dfy ===
/** The entity wrapper layer: typed views of store entities, looked up by
    their external ESDH id. Meetings, bullet points and attachments wrap
    nodes; committees and locations wrap taxonomy terms. Lookups by ESDH id
    are global for the wrapper classes and scoped to a parent's reference
    field for the child lookups of `Meeting` and `BulletPoint`. */
module Entities {
  import opened Wrappers
  import opened ContentStore

  datatype Kind = Meeting | BulletPoint | BulletPointAttachment | Committee | Location {

    /** Node wrappers (`Os2webNodeBase`) versus term wrappers
        (`Os2webTaxonomyTermBase`). */
    predicate IsNodeKind() {
      Meeting? || BulletPoint? || BulletPointAttachment?
    }

    /** `getEntityType()` of a node wrapper, `bundle()` of a term wrapper. */
    function TypeName(): string {
      match this
      case Meeting => MeetingType
      case BulletPoint => BulletPointType
      case BulletPointAttachment => AttachmentType
      case Committee => CommitteeVocabulary
      case Location => LocationVocabulary
    }
  }

  /** Distinct kinds wrap distinct types, so a wrapper's type check tells the
      kinds apart. */
  lemma TypeNamesDistinct(a: Kind, b: Kind)
    requires a != b
    ensures a.TypeName() != b.TypeName()
  {
    var ta, tb := a.TypeName(), b.TypeName();
    assert |ta| != |tb| || ta[8] != tb[8];
  }

  /** A wrapper holds the entity it was constructed with and that entity's ID. */
  datatype Wrapper =
    | NodeWrapper(kind: Kind, nid: nat, node: Node)
    | TermWrapper(kind: Kind, tid: nat, term: Term)

  /** The exception a constructor throws for an entity of the wrong type. */
  datatype WrapError = UnsupportedEntityType(expected: string, given: string)

  /** The node-wrapper constructor: succeeds only for a node of the wrapper's type. */
  function WrapNode(kind: Kind, nid: nat, node: Node): (r: Result<Wrapper, WrapError>)
    requires kind.IsNodeKind()
    ensures r.Success? <==> node.bundle == kind.TypeName()
    ensures r.Success? ==> r.value.NodeWrapper? && r.value.kind == kind
    ensures r.Failure? ==> r.error == UnsupportedEntityType(kind.TypeName(), node.bundle)
  {
    if node.bundle == kind.TypeName() then Success(NodeWrapper(kind, nid, node))
    else Failure(UnsupportedEntityType(kind.TypeName(), node.bundle))
  }

  /** The term-wrapper constructor: succeeds only for a term of the wrapper's bundle. */
  function WrapTerm(kind: Kind, tid: nat, term: Term): (r: Result<Wrapper, WrapError>)
    requires !kind.IsNodeKind()
    ensures r.Success? <==> term.vid == kind.TypeName()
    ensures r.Success? ==> r.value.TermWrapper? && r.value.kind == kind
    ensures r.Failure? ==> r.error == UnsupportedEntityType(kind.TypeName(), term.vid)
  {
    if term.vid == kind.TypeName() then Success(TermWrapper(kind, tid, term))
    else Failure(UnsupportedEntityType(kind.TypeName(), term.vid))
  }

  /** `getEntity()`: the wrapped node (only node wrappers have one). */
  function GetNode(w: Wrapper): Node
    requires w.NodeWrapper?
  {
    w.node
  }

  /** `getEntity()`: the wrapped term (only term wrappers have one). */
  function GetTerm(w: Wrapper): Term
    requires w.TermWrapper?
  {
    w.term
  }

  /** `id()`: the wrapped entity's ID. */
  function Id(w: Wrapper): nat {
    match w
    case NodeWrapper(_, nid, _) => nid
    case TermWrapper(_, tid, _) => tid
  }

  /** `getEsdhId()`, which only node wrappers have: the node's ESDH id field. */
  function GetEsdhId(w: Wrapper): string
    requires w.NodeWrapper?
  {
    w.node.esdhId
  }

  /** Construction, `getEntity()` and `id()` round-trip: a successfully
      wrapped node is handed back unchanged, with its ID and ESDH id. */
  lemma WrapNodeRoundTrip(kind: Kind, nid: nat, node: Node)
    requires kind.IsNodeKind() && node.bundle == kind.TypeName()
    ensures WrapNode(kind, nid, node).Success?
    ensures GetNode(WrapNode(kind, nid, node).value) == node
    ensures Id(WrapNode(kind, nid, node).value) == nid
    ensures GetEsdhId(WrapNode(kind, nid, node).value) == node.esdhId
  {
  }

  /** The same round trip for term wrappers. */
  lemma WrapTermRoundTrip(kind: Kind, tid: nat, term: Term)
    requires !kind.IsNodeKind() && term.vid == kind.TypeName()
    ensures WrapTerm(kind, tid, term).Success?
    ensures GetTerm(WrapTerm(kind, tid, term).value) == term
    ensures Id(WrapTerm(kind, tid, term).value) == tid
  {
  }

  /** A wrapper whose entity is stored under its ID. */
  predicate StoredIn(s: Store, w: Wrapper) {
    match w
    case NodeWrapper(_, nid, _) => nid < |s.nodes|
    case TermWrapper(_, tid, _) => tid < |s.terms|
  }

  /** `save()`: writes the wrapped entity back under its ID and changes
      nothing else. */
  function Save(s: Store, w: Wrapper): (s': Store)
    requires StoredIn(s, w)
    ensures w.NodeWrapper? ==> s'.nodes == s.nodes[w.nid := w.node] && s'.terms == s.terms
    ensures w.TermWrapper? ==> s'.terms == s.terms[w.tid := w.term] && s'.nodes == s.nodes
    ensures s'.files == s.files
  {
    match w
    case NodeWrapper(_, nid, n) => PutNode(s, nid, n)
    case TermWrapper(_, tid, t) => PutTerm(s, tid, t)
  }

  /** Node `j` may be returned by a lookup for `bundle`/`esdhId`, optionally
      restricted to the IDs `within`. */
  predicate Eligible(nodes: seq<Node>, bundle: string, esdhId: string, within: Option<seq<nat>>, j: nat)
    requires j < |nodes|
  {
    && nodes[j].bundle == bundle
    && nodes[j].esdhId == esdhId
    && (within.None? || j in within.value)
  }

  /** The lowest eligible node ID at or after `from`. */
  function FindNodeFrom(nodes: seq<Node>, bundle: string, esdhId: string, within: Option<seq<nat>>, from: nat): (r: Option<nat>)
    requires from <= |nodes|
    ensures r.Some? ==> from <= r.value < |nodes| && Eligible(nodes, bundle, esdhId, within, r.value)
    ensures r.Some? ==> forall j :: from <= j < r.value ==> !Eligible(nodes, bundle, esdhId, within, j)
    ensures r.None? ==> forall j :: from <= j < |nodes| ==> !Eligible(nodes, bundle, esdhId, within, j)
    decreases |nodes| - from
  {
    if from == |nodes| then None
    else if Eligible(nodes, bundle, esdhId, within, from) then Some(from)
    else FindNodeFrom(nodes, bundle, esdhId, within, from + 1)
  }

  /** The storage query `type = bundle AND esdh_id = esdhId [AND nid IN within]`,
      reduced to its first row. Part of `LoadByEsdhId`; `FindNodeFrom`
      states what the query finds. */
  function FindNode(nodes: seq<Node>, bundle: string, esdhId: string, within: Option<seq<nat>>): Option<nat>
  {
    FindNodeFrom(nodes, bundle, esdhId, within, 0)
  }

  /** The lowest term ID of vocabulary `vid` with this ESDH id. */
  function FindTermFrom(terms: seq<Term>, vid: string, esdhId: string, from: nat): (r: Option<nat>)
    requires from <= |terms|
    ensures r.Some? ==> from <= r.value < |terms| && terms[r.value].vid == vid && terms[r.value].esdhId == esdhId
    ensures r.Some? ==> forall j :: from <= j < r.value ==> !(terms[j].vid == vid && terms[j].esdhId == esdhId)
    ensures r.None? ==> forall j :: from <= j < |terms| ==> !(terms[j].vid == vid && terms[j].esdhId == esdhId)
    decreases |terms| - from
  {
    if from == |terms| then None
    else if terms[from].vid == vid && terms[from].esdhId == esdhId then Some(from)
    else FindTermFrom(terms, vid, esdhId, from + 1)
  }

  /** `loadByEsdhId` of every wrapper class: a global lookup filtered on the
      wrapper's type and the ESDH id, wrapping the first match, or NULL. */
  function LoadByEsdhId(s: Store, kind: Kind, esdhId: string): (r: Option<Wrapper>)
    ensures r.Some? ==> r.value.kind == kind && StoredIn(s, r.value)
    ensures r.Some? && kind.IsNodeKind() ==>
      && r.value.NodeWrapper?
      && GetEsdhId(r.value) == esdhId
      && r.value.node == s.nodes[r.value.nid]
      && r.value.node.bundle == kind.TypeName()
      && forall j :: 0 <= j < r.value.nid ==> !(s.nodes[j].bundle == kind.TypeName() && s.nodes[j].esdhId == esdhId)
    ensures r.Some? && !kind.IsNodeKind() ==>
      && r.value.TermWrapper?
      && r.value.term == s.terms[r.value.tid]
      && r.value.term.esdhId == esdhId
      && r.value.term.vid == kind.TypeName()
      && forall j :: 0 <= j < r.value.tid ==> !(s.terms[j].vid == kind.TypeName() && s.terms[j].esdhId == esdhId)
    ensures r.None? && kind.IsNodeKind() ==>
      forall j :: 0 <= j < |s.nodes| ==> !(s.nodes[j].bundle == kind.TypeName() && s.nodes[j].esdhId == esdhId)
    ensures r.None? && !kind.IsNodeKind() ==>
      forall j :: 0 <= j < |s.terms| ==> !(s.terms[j].vid == kind.TypeName() && s.terms[j].esdhId == esdhId)
  {
    if kind.IsNodeKind() then
      match FindNode(s.nodes, kind.TypeName(), esdhId, None)
      case None =>
        forall j | 0 <= j < |s.nodes|
          ensures !(s.nodes[j].bundle == kind.TypeName() && s.nodes[j].esdhId == esdhId)
        {
          assert !Eligible(s.nodes, kind.TypeName(), esdhId, None, j);
        }
        None
      case Some(i) =>
        assert Eligible(s.nodes, kind.TypeName(), esdhId, None, i);
        forall j | 0 <= j < i
          ensures !(s.nodes[j].bundle == kind.TypeName() && s.nodes[j].esdhId == esdhId)
        {
          assert !Eligible(s.nodes, kind.TypeName(), esdhId, None, j);
        }
        Some(NodeWrapper(kind, i, s.nodes[i]))
    else
      match FindTermFrom(s.terms, kind.TypeName(), esdhId, 0)
      case None => None
      case Some(i) => Some(TermWrapper(kind, i, s.terms[i]))
  }

  /** What `loadByEsdhId` returns always passes its own constructor's type check. */
  lemma LoadedWrapperIsWellTyped(s: Store, kind: Kind, esdhId: string)
    requires LoadByEsdhId(s, kind, esdhId).Some?
    ensures var w := LoadByEsdhId(s, kind, esdhId).value;
      if kind.IsNodeKind() then WrapNode(kind, w.nid, w.node) == Success(w)
      else WrapTerm(kind, w.tid, w.term) == Success(w)
  {
  }

  // ---------------------------------------------------------------------
  // Meeting

  /** `getBulletPoints(FALSE)`: the referenced bullet point IDs, in field order. */
  function GetBulletPoints(meeting: Node): seq<nat> {
    meeting.bulletPoints
  }

  /** `getBulletPointByEsdhId(id, FALSE)`: the first bullet point node with
      this ESDH id among the meeting's own referenced bullet points; NULL when
      the meeting references none or none matches. */
  function GetBulletPointByEsdhId(s: Store, meeting: Node, esdhId: string): (r: Option<nat>)
    ensures r.Some? ==>
      && r.value < |s.nodes|
      && r.value in GetBulletPoints(meeting)
      && s.nodes[r.value].bundle == BulletPointType
      && s.nodes[r.value].esdhId == esdhId
    ensures r.None? ==> forall j :: 0 <= j < |s.nodes| && j in GetBulletPoints(meeting) ==>
      !(s.nodes[j].bundle == BulletPointType && s.nodes[j].esdhId == esdhId)
  {
    var ids := GetBulletPoints(meeting);
    if ids == [] then None
    else
      var r := FindNode(s.nodes, BulletPointType, esdhId, Some(ids));
      if r.None? then
        forall j | 0 <= j < |s.nodes| && j in ids
          ensures !(s.nodes[j].bundle == BulletPointType && s.nodes[j].esdhId == esdhId)
        {
          assert !Eligible(s.nodes, BulletPointType, esdhId, Some(ids), j);
        }
        r
      else
        assert Eligible(s.nodes, BulletPointType, esdhId, Some(ids), r.value);
        r
  }

  /** `getCommittee(FALSE)`: the first referenced committee, NULL when the
      field is empty. */
  function GetCommittee(meeting: Node): (r: Option<nat>)
    ensures r.None? <==> meeting.committee == []
    ensures r.Some? ==> r.value == meeting.committee[0]
  {
    if meeting.committee == [] then None else Some(meeting.committee[0])
  }

  /** `setAddendum(nid, save)`: sets the addendum reference on the wrapped
      meeting, and writes it to the store only when `save` is true. */
  function SetAddendum(s: Store, meeting: Wrapper, nid: nat, save: bool): (r: (Wrapper, Store))
    requires meeting.NodeWrapper? && StoredIn(s, meeting)
    ensures r.0 == meeting.(node := meeting.node.(addendum := Some(nid)))
    ensures |r.1.nodes| == |s.nodes| && r.1.terms == s.terms && r.1.files == s.files
    ensures save ==> r.1.nodes[meeting.nid] == r.0.node
    ensures save ==> forall i :: 0 <= i < |s.nodes| && i != meeting.nid ==> r.1.nodes[i] == s.nodes[i]
    ensures !save ==> r.1 == s
  {
    var w := meeting.(node := meeting.node.(addendum := Some(nid)));
    (w, if save then Save(s, w) else s)
  }

  // ---------------------------------------------------------------------
  // Bullet point

  /** `getEnclosures(FALSE)`: the referenced file IDs, in field order. */
  function GetEnclosures(bp: Node): (ids: seq<nat>)
    ensures |ids| == |bp.enclosures|
    ensures forall i :: 0 <= i < |ids| ==> ids[i] == bp.enclosures[i].targetId
  {
    seq(|bp.enclosures|, i requires 0 <= i < |bp.enclosures| => bp.enclosures[i].targetId)
  }

  /** `getEnclosureByName(name, FALSE)`: the file of the first enclosure item
      whose description is exactly `name`, NULL when there is none. */
  function GetEnclosureByName(bp: Node, name: string): (r: Option<nat>)
    ensures r.Some? ==> exists i :: (0 <= i < |bp.enclosures| && bp.enclosures[i].description == name
      && r.value == bp.enclosures[i].targetId
      && forall j :: 0 <= j < i ==> bp.enclosures[j].description != name)
    ensures r.None? <==> forall i :: 0 <= i < |bp.enclosures| ==> bp.enclosures[i].description != name
  {
    FirstByDescription(bp.enclosures, name, 0)
  }

  function FirstByDescription(items: seq<EnclosureItem>, name: string, from: nat): (r: Option<nat>)
    requires from <= |items|
    ensures r.Some? ==> exists i :: (from <= i < |items| && items[i].description == name
      && r.value == items[i].targetId
      && forall j :: from <= j < i ==> items[j].description != name)
    ensures r.None? <==> forall i :: from <= i < |items| ==> items[i].description != name
    decreases |items| - from
  {
    if from == |items| then None
    else if items[from].description == name then Some(items[from].targetId)
    else FirstByDescription(items, name, from + 1)
  }

  /** `getBulletPointAttachments(FALSE)`: the referenced attachment IDs, in field order. */
  function GetBulletPointAttachments(bp: Node): seq<nat> {
    bp.attachments
  }

  /** `getBulletPointAttachmentByEsdhId(id, FALSE)`: the first attachment
      node with this ESDH id among the bullet point's own attachments; NULL
      when it references none or none matches. */
  function GetBulletPointAttachmentByEsdhId(s: Store, bp: Node, esdhId: string): (r: Option<nat>)
    ensures r.Some? ==>
      && r.value < |s.nodes|
      && r.value in GetBulletPointAttachments(bp)
      && s.nodes[r.value].bundle == AttachmentType
      && s.nodes[r.value].esdhId == esdhId
    ensures r.None? ==> forall j :: 0 <= j < |s.nodes| && j in GetBulletPointAttachments(bp) ==>
      !(s.nodes[j].bundle == AttachmentType && s.nodes[j].esdhId == esdhId)
  {
    var ids := GetBulletPointAttachments(bp);
    if ids == [] then None
    else
      var r := FindNode(s.nodes, AttachmentType, esdhId, Some(ids));
      if r.None? then
        forall j | 0 <= j < |s.nodes| && j in ids
          ensures !(s.nodes[j].bundle == AttachmentType && s.nodes[j].esdhId == esdhId)
        {
          assert !Eligible(s.nodes, AttachmentType, esdhId, Some(ids), j);
        }
        r
      else
        assert Eligible(s.nodes, AttachmentType, esdhId, Some(ids), r.value);
        r
  }

  /** Scoping: a child lookup never leaves its parent's references, and when
      the globally first match is among them, the scoped lookup finds exactly
      that node. */
  lemma {:induction false} ScopedLookupAgreesWithGlobal(s: Store, meeting: Node, esdhId: string)
    ensures var scoped := GetBulletPointByEsdhId(s, meeting, esdhId);
      var global := LoadByEsdhId(s, Kind.BulletPoint, esdhId);
      && (scoped.Some? ==> global.Some? && global.value.nid <= scoped.value)
      && (global.Some? && global.value.nid in GetBulletPoints(meeting) ==> scoped == Some(global.value.nid))
  {
    var scoped := GetBulletPointByEsdhId(s, meeting, esdhId);
    var global := LoadByEsdhId(s, Kind.BulletPoint, esdhId);
    if global.Some? && global.value.nid in GetBulletPoints(meeting) {
      var g := global.value.nid;
      var ids := GetBulletPoints(meeting);
      var r := FindNode(s.nodes, BulletPointType, esdhId, Some(ids));
      assert Eligible(s.nodes, BulletPointType, esdhId, Some(ids), g);
      assert r.Some? && r.value <= g;
      assert r.value == g by {
        assert Eligible(s.nodes, BulletPointType, esdhId, Some(ids), r.value);
      }
    }
  }
}

=== FILE: env.dfy ===
/** What the import pipeline asks of the world outside the content store:
    the file system, URL generation and whether a node save goes through.
    Each is a parameter of the model, so every property proved holds for
    every behaviour of the file system. */
module Environment {
  import opened Wrappers
  import opened ContentStore

  datatype Env = Env(
    /** Prepares the destination folder and copies an image there; the URI
        the file ended up at, or `None` when the folder cannot be created or
        the copy throws. */
    copyImage: (string, string) -> Option<string>,
    /** `file_exists`. */
    fileExists: string -> bool,
    /** `file_create_url`. */
    publicUrl: string -> string,
    /** The copy to a managed file in copy mode (`copy` with replace, then
        `file_get_contents` and `file_save_data`) goes through. */
    copyFile: (string, string) -> bool,
    /** Registering an existing file as a managed file goes through. */
    registerFile: string -> bool,
    /** Saving this node goes through (otherwise it throws). */
    nodeSaveOk: Node -> bool)
}

=== FILE: html_cleanup.dfy ===
/** The clean-up every attachment body goes through before it is stored:
    style attributes stripped from the configured tags, runs of
    non-breaking spaces, empty paragraphs and line breaks collapsed, and
    image sources rewritten to public URLs (or dropped). */
module HtmlCleanup {
  import opened Wrappers
  import opened PhpStrings
  import opened Settings
  import opened Patterns
  import opened Environment

  // ---------------------------------------------------------------------
  // Style stripping (`clearHtmlTags`).

  /** `<`, the tag name in any letter case, and everything up to the first
      `>`: the shape of every match of `#<tag(.*?)>#is`. */
  predicate IsOpeningTag(x: string, tag: string) {
    |x| >= 2 + |tag| && x[0] == '<' && x[|x| - 1] == '>' && StartsWithCi(x[1..], tag)
  }

  /** The opening tags of `tag` in `html`, in the order `preg_match_all`
      lists them. */
  function OpeningTags(tag: string, html: string): (r: seq<string>)
    ensures |r| == |FindAll(TagOpen(tag), html)|
    ensures forall k :: 0 <= k < |r| ==> IsOpeningTag(r[k], tag)
  {
    var spans := FindAll(TagOpen(tag), html);
    var r := MatchTexts(html, spans);
    forall k | 0 <= k < |r| ensures IsOpeningTag(r[k], tag) {
      OpeningTagText(tag, html, spans[k]);
    }
    r
  }

  /** The text of one listed opening tag. */
  lemma OpeningTagText(tag: string, html: string, sp: Span)
    requires sp.start + sp.len <= |html| && sp.len > 0
    requires MatchLen(TagOpen(tag), html[sp.start..]) == sp.len
    ensures IsOpeningTag(SpanText(html, sp), tag)
  {
    var t := html[sp.start..];
    var x := SpanText(html, sp);
    assert x == t[..sp.len];
    assert x[1..] == t[1..][..sp.len - 1];
  }

  /** Every listed opening tag, one after the other, loses its `style`
      attributes, and the stripped tag replaces every occurrence of the
      original in the whole text (`str_replace`). */
  function StripStyles(html: string, matches: seq<string>): string
    decreases |matches|
  {
    if matches == [] then html
    else
      var filtered := Replace(StyleAttr, matches[0], "");
      StripStyles(Replace(Literal(matches[0]), html, filtered), matches[1..])
  }

  /** Style stripping for one tag; the matches are taken once, before any
      of them is replaced. */
  function ClearTag(html: string, tag: string): string {
    StripStyles(html, OpeningTags(tag, html))
  }

  /** Style stripping for each configured tag in turn; an entry that is
      empty after trimming (PHP's `empty`, so also "0") is skipped. */
  function ClearTags(html: string, tags: seq<string>): (r: string)
    decreases |tags|
  {
    if tags == [] then html
    else
      var tag := Trim(tags[0]);
      ClearTags(if Truthy(tag) then ClearTag(html, tag) else html, tags[1..])
  }

  /** `clearHtmlTags`. The setting always splits into at least one entry,
      so the emptiness test of the list never skips the loop. */
  function ClearHtmlTags(cfg: Config, html: string): string {
    ClearTags(html, HtmlTags(cfg))
  }

  /** Stripping the listed opening tags only ever removes characters. */
  lemma {:induction false} StripStylesNoLonger(html: string, matches: seq<string>)
    ensures |StripStyles(html, matches)| <= |html|
    decreases |matches|
  {
    if matches != [] {
      var filtered := Replace(StyleAttr, matches[0], "");
      DeleteNoLonger(StyleAttr, matches[0]);
      LiteralReplaceNoLonger(matches[0], html, filtered);
      StripStylesNoLonger(Replace(Literal(matches[0]), html, filtered), matches[1..]);
    }
  }

  /** Style stripping for one tag never lengthens the text. */
  lemma ClearTagNoLonger(html: string, tag: string)
    ensures |ClearTag(html, tag)| <= |html|
  {
    StripStylesNoLonger(html, OpeningTags(tag, html));
  }

  /** Style stripping only ever removes characters. */
  lemma {:induction false} ClearTagsNoLonger(html: string, tags: seq<string>)
    ensures |ClearTags(html, tags)| <= |html|
    decreases |tags|
  {
    if tags != [] {
      var tag := Trim(tags[0]);
      var next := if Truthy(tag) then ClearTag(html, tag) else html;
      if Truthy(tag) {
        ClearTagNoLonger(html, tag);
      }
      ClearTagsNoLonger(next, tags[1..]);
    }
  }

  /** `clearHtmlTags` never lengthens the text. */
  lemma ClearHtmlTagsNoLonger(cfg: Config, html: string)
    ensures |ClearHtmlTags(cfg, html)| <= |html|
  {
    ClearTagsNoLonger(html, HtmlTags(cfg));
  }

  /** Opening tags without a `style` attribute leave the text as it is. */
  lemma {:induction false} StripStylesStyleFree(html: string, matches: seq<string>)
    requires forall k, j :: 0 <= k < |matches| && 0 <= j < |matches[k]| ==> StyleAttrLen(matches[k][j..]) == 0
    ensures StripStyles(html, matches) == html
    decreases |matches|
  {
    if matches != [] {
      var x := matches[0];
      forall j | 0 <= j < |x| ensures MatchLen(StyleAttr, x[j..]) == 0 {
        assert StyleAttrLen(matches[0][j..]) == 0;
      }
      NoMatchIdentity(StyleAttr, x, "");
      ReplaceSelf(x, html);
      StripStylesStyleFree(html, matches[1..]);
    }
  }

  /** A tag that never opens in the text changes nothing. */
  lemma ClearTagAbsent(html: string, tag: string)
    requires forall j :: 0 <= j < |html| ==> TagOpenLen(tag, html[j..]) == 0
    ensures ClearTag(html, tag) == html
  {
    NoMatchIdentity(TagOpen(tag), html, "");
  }

  /** When none of the configured (non-empty) tags opens in the text, style
      stripping is the identity; in particular an entry that trims to
      nothing changes nothing. */
  lemma {:induction false} ClearTagsAbsent(html: string, tags: seq<string>)
    requires forall k, j :: 0 <= k < |tags| && Truthy(Trim(tags[k])) && 0 <= j < |html| ==>
      TagOpenLen(Trim(tags[k]), html[j..]) == 0
    ensures ClearTags(html, tags) == html
    decreases |tags|
  {
    if tags != [] {
      var tag := Trim(tags[0]);
      if Truthy(tag) {
        ClearTagAbsent(html, tag);
      }
      ClearTagsAbsent(html, tags[1..]);
    }
  }

  /** A `style` attribute as it stands inside a tag: a blank, `style="`,
      the value and the closing `"`. */
  function StyleAttribute(value: string): string {
    " style=\"" + value + "\""
  }

  /** No style attribute starts anywhere in `t`. */
  predicate StyleFree(t: string) {
    forall j :: 0 <= j < |t| ==> StyleAttrLen(t[j..]) == 0
  }

  /** A style attribute whose value has no `"` is matched whole. */
  lemma StyleAttributeMatched(value: string, rest: string)
    requires '"' !in value
    ensures StyleAttrLen(StyleAttribute(value) + rest) == |StyleAttribute(value)|
  {
    var t := StyleAttribute(value) + rest;
    assert t[1..][..7] == "style=\"";
    assert t[8..] == value + ['"'] + rest;
    IndexOfAfter(value, '"', rest);
  }

  /** No style attribute starts inside a text without `"` that is followed
      by a style attribute: the match would need a `"` or a blank where the
      attribute's blank stands. */
  lemma NoStyleBefore(a: string, value: string, b: string, j: nat)
    requires '"' !in a && j < |a|
    ensures StyleAttrLen((a + StyleAttribute(value) + b)[j..]) == 0
  {
    var x := a + StyleAttribute(value) + b;
    var t := x[j..];
    var k := |a| - j;
    assert x[|a|] == ' ';
    if k <= 7 {
      assert t[1..][k - 1] == ' ';
      assert LowerAscii(t[1..][k - 1]) != LowerAscii("style=\""[k - 1]);
    } else {
      assert t[1..][6] == a[j + 7];
      assert LowerAscii(t[1..][6]) != LowerAscii("style=\""[6]);
    }
  }

  /** The style filter of one opening tag: a single style attribute, with
      no `"` before it and no further style attribute after it, is cut out
      and everything else is kept. */
  lemma FilterRemovesStyle(a: string, value: string, b: string)
    requires '"' !in a && '"' !in value && StyleFree(b)
    ensures Replace(StyleAttr, a + StyleAttribute(value) + b, "") == a + b
  {
    var m := Of(StyleAttr);
    var x := a + StyleAttribute(value) + b;
    forall j | 0 <= j < |a| ensures Len(m, x[j..]) == 0 {
      NoStyleBefore(a, value, b, j);
      LenOf(StyleAttr, x[j..]);
    }
    forall j | 0 <= j < |b| ensures Len(m, b[j..]) == 0 {
      LenOf(StyleAttr, b[j..]);
    }
    StyleAttributeAt(a, value, b);
    ReplaceOnlyMatch(m, a, StyleAttribute(value), b, "");
    assert a + "" == a;
  }

  /** The filter's matcher finds the whole style attribute where it stands. */
  lemma StyleAttributeAt(a: string, value: string, b: string)
    requires '"' !in value
    ensures Len(Of(StyleAttr), (a + StyleAttribute(value) + b)[|a|..]) == |StyleAttribute(value)|
  {
    var st := StyleAttribute(value);
    assert (a + st + b)[|a|..] == st + b;
    StyleAttributeMatched(value, b);
    LenOf(StyleAttr, st + b);
  }

  /** `x` is the only place in `pre + x + post` where a tag named `tag`
      opens, and it is a whole opening tag. */
  predicate OnlyOpening(tag: string, pre: string, x: string, post: string) {
    && TagOpenLen(tag, x) == |x| > 0
    && forall j :: 0 <= j < |pre + x + post| && j != |pre| ==> TagOpenLen(tag, (pre + x + post)[j..]) == 0
  }

  /** The tag matcher in such a text: a match at `x` and nowhere else. */
  lemma OnlyOpeningMatches(tag: string, pre: string, x: string, post: string)
    requires OnlyOpening(tag, pre, x, post)
    ensures forall j :: 0 <= j < |pre| ==> Len(Of(TagOpen(tag)), (pre + x + post)[j..]) == 0
    ensures Len(Of(TagOpen(tag)), (pre + x + post)[|pre|..]) == |x| > 0
    ensures forall j :: 0 <= j < |post| ==> Len(Of(TagOpen(tag)), post[j..]) == 0
  {
    var html := pre + x + post;
    forall j | 0 <= j < |pre| ensures Len(Of(TagOpen(tag)), html[j..]) == 0 {
      LenOf(TagOpen(tag), html[j..]);
    }
    forall j | 0 <= j < |post| ensures Len(Of(TagOpen(tag)), post[j..]) == 0 {
      assert post[j..] == html[|pre| + |x| + j..];
      LenOf(TagOpen(tag), post[j..]);
    }
    assert html[|pre|..] == x + post;
    TagOpenExtends(tag, x, post);
    LenOf(TagOpen(tag), html[|pre|..]);
  }

  /** The opening tags listed in such a text: `x` alone. */
  lemma OnlyOpeningTag(tag: string, pre: string, x: string, post: string)
    requires OnlyOpening(tag, pre, x, post)
    ensures OpeningTags(tag, pre + x + post) == [x]
  {
    OnlyOpeningMatches(tag, pre, x, post);
    FindOnlyMatch(Of(TagOpen(tag)), pre, x, post);
    assert (pre + x + post)[|pre|..|pre| + |x|] == x;
  }

  /** An opening tag occurs in the text only where it opens. */
  lemma OccursOnlyWhereItOpens(tag: string, pre: string, x: string, post: string, j: nat)
    requires OnlyOpening(tag, pre, x, post)
    requires j < |pre + x + post| && j != |pre|
    ensures !StartsWith((pre + x + post)[j..], x)
  {
  }

  /** The needle matcher in such a text: `x` occurs there and nowhere else. */
  lemma OnlyOccurrenceMatches(tag: string, pre: string, x: string, post: string)
    requires OnlyOpening(tag, pre, x, post)
    ensures forall j :: 0 <= j < |pre| ==> Len(Of(Literal(x)), (pre + x + post)[j..]) == 0
    ensures Len(Of(Literal(x)), (pre + x + post)[|pre|..]) == |x| > 0
    ensures forall j :: 0 <= j < |post| ==> Len(Of(Literal(x)), post[j..]) == 0
  {
    var html := pre + x + post;
    forall j | 0 <= j < |pre| ensures Len(Of(Literal(x)), html[j..]) == 0 {
      OccursOnlyWhereItOpens(tag, pre, x, post, j);
      LenOf(Literal(x), html[j..]);
    }
    forall j | 0 <= j < |post| ensures Len(Of(Literal(x)), post[j..]) == 0 {
      assert post[j..] == html[|pre| + |x| + j..];
      OccursOnlyWhereItOpens(tag, pre, x, post, |pre| + |x| + j);
      LenOf(Literal(x), post[j..]);
    }
    assert html[|pre|..][..|x|] == x;
    LenOf(Literal(x), html[|pre|..]);
  }

  /** `str_replace` of the only opening tag replaces that one place. */
  lemma ReplaceOnlyOccurrence(tag: string, pre: string, x: string, post: string, y: string)
    requires OnlyOpening(tag, pre, x, post)
    ensures Replace(Literal(x), pre + x + post, y) == pre + y + post
  {
    OnlyOccurrenceMatches(tag, pre, x, post);
    ReplaceOnlyMatch(Of(Literal(x)), pre, x, post, y);
  }

  /** Style stripping for a tag that opens in one place only: that opening
      tag is filtered and the rest of the text is kept. */
  lemma ClearOnlyOpening(tag: string, pre: string, x: string, post: string)
    requires OnlyOpening(tag, pre, x, post)
    ensures ClearTag(pre + x + post, tag) == pre + Replace(StyleAttr, x, "") + post
  {
    OnlyOpeningTag(tag, pre, x, post);
    ReplaceOnlyOccurrence(tag, pre, x, post, Replace(StyleAttr, x, ""));
    StripStylesOne(pre + x + post, x);
  }

  /** `clearHtmlTags` on a text in which one tag of a listed name opens,
      carrying a single style attribute: the attribute is removed and the
      rest of the text, inside the tag and outside it, is kept. */
  lemma ClearTagRemovesStyle(html: string, tag: string, pre: string, a: string, value: string, b: string, post: string)
    requires html == pre + (a + StyleAttribute(value) + b) + post
    requires OnlyOpening(tag, pre, a + StyleAttribute(value) + b, post)
    requires '"' !in a && '"' !in value && StyleFree(b)
    ensures ClearTag(html, tag) == pre + a + b + post
    ensures Trim(tag) == tag && Truthy(tag) ==> ClearTags(html, [tag]) == pre + a + b + post
  {
    ClearOnlyOpening(tag, pre, a + StyleAttribute(value) + b, post);
    FilterRemovesStyle(a, value, b);
    ConcatAssoc(pre, a, b);
    if Trim(tag) == tag && Truthy(tag) {
      ClearTagsOne(html, tag);
    }
  }

  /** Style stripping with a single listed opening tag. */
  lemma StripStylesOne(html: string, x: string)
    ensures StripStyles(html, [x]) == Replace(Literal(x), html, Replace(StyleAttr, x, ""))
  {
    assert [x][1..] == [];
  }

  /** The clean-up with a single configured tag name. */
  lemma ClearTagsOne(html: string, tag: string)
    requires Trim(tag) == tag && Truthy(tag)
    ensures ClearTags(html, [tag]) == ClearTag(html, tag)
  {
    var tags := [tag];
    var c := ClearTag(html, tag);
    assert tags[1..] == [];
    assert ClearTags(html, tags) == ClearTags(c, tags[1..]);
  }

  /** `<`, the tag name, text without `>`, and `>` make one opening tag. */
  lemma TagOpenWhole(tag: string, inner: string)
    requires '>' !in inner
    ensures TagOpenLen(tag, "<" + tag + inner + ">") == |tag| + |inner| + 2
  {
    var x := "<" + tag + inner + ">";
    assert x[1..][..|tag|] == tag;
    assert x[1 + |tag|..] == inner + ['>'] + "";
    IndexOfAfter(inner, '>', "");
  }

  /** An opening tag at the start of the text, with no other opening of the
      same name after it. */
  lemma OpeningAtStart(tag: string, inner: string, post: string)
    requires '<' !in tag && '<' !in inner && '>' !in inner
    requires forall j :: 0 <= j < |post| ==> TagOpenLen(tag, post[j..]) == 0
    ensures OnlyOpening(tag, "", "<" + tag + inner + ">", post)
  {
    assert ("<" + tag + inner + ">")[1..] == tag + inner + ">";
    var x := "<" + tag + inner + ">";
    TagOpenWhole(tag, inner);
    NoOpeningInside(tag, x, post);
  }

  /** No tag opens inside an opening tag without further `<`, nor in what
      follows it when nothing opens there. */
  lemma NoOpeningInside(tag: string, x: string, post: string)
    requires x != [] && '<' !in x[1..]
    requires forall j :: 0 <= j < |post| ==> TagOpenLen(tag, post[j..]) == 0
    ensures forall j :: 0 < j < |"" + x + post| ==> TagOpenLen(tag, ("" + x + post)[j..]) == 0
  {
    var html := "" + x + post;
    forall j | 0 < j < |html| ensures TagOpenLen(tag, html[j..]) == 0 {
      if j < |x| {
        assert html[j..][0] == x[1..][j - 1];
      } else {
        assert html[j..] == post[j - |x|..];
      }
    }
  }

  /** A text that starts with an opening tag carrying one style attribute,
      with no other opening of that tag after it: the clean-up removes the
      attribute and keeps everything else. */
  lemma ClearTagAtStart(tag: string, lead: string, value: string, tail: string, post: string)
    requires '<' !in tag && '"' !in tag && '>' !in tag
    requires '<' !in lead && '"' !in lead && '>' !in lead
    requires '<' !in value && '"' !in value && '>' !in value
    requires '<' !in tail && '>' !in tail && StyleFree(tail + ">")
    requires forall j :: 0 <= j < |post| ==> TagOpenLen(tag, post[j..]) == 0
    ensures ClearTag("<" + tag + lead + StyleAttribute(value) + tail + ">" + post, tag)
         == "<" + tag + lead + tail + ">" + post
  {
    var a := "<" + tag + lead;
    var b := tail + ">";
    var inner := lead + StyleAttribute(value) + tail;
    var html := "<" + tag + lead + StyleAttribute(value) + tail + ">" + post;
    StartTagShapes(tag, lead, value, tail, post);
    OpeningAtStart(tag, inner, post);
    ClearTagRemovesStyle(html, tag, "", a, value, b, post);
  }

  /** Proof helper for `ClearTagAtStart`, not part of the model: the same
      text grouped the ways the lemmas above take it. */
  lemma StartTagShapes(tag: string, lead: string, value: string, tail: string, post: string)
    requires '<' !in lead && '>' !in lead && '<' !in value && '>' !in value && '<' !in tail && '>' !in tail
    ensures var inner := lead + StyleAttribute(value) + tail;
      && '<' !in inner && '>' !in inner
      && ("<" + tag + lead) + StyleAttribute(value) + (tail + ">") == "<" + tag + inner + ">"
      && "<" + tag + lead + StyleAttribute(value) + tail + ">" + post
         == "" + (("<" + tag + lead) + StyleAttribute(value) + (tail + ">")) + post
      && "" + ("<" + tag + lead) + (tail + ">") + post == "<" + tag + lead + tail + ">" + post
  {
  }

  /** The usual case: `<p style="color:red">x</p>` becomes `<p>x</p>`. */
  lemma ClearTagExample()
    ensures ClearTag("<p style=\"color:red\">x</p>", "p") == "<p>x</p>"
  {
    ExampleTexts();
    ClosingTagOnly();
    assert StyleFree("" + ">");
    ClearTagAtStart("p", "", "color:red", "", "x</p>");
  }

  /** Proof helper for `ClearTagExample`: the example texts spelled out. */
  lemma ExampleTexts()
    ensures "<" + "p" + "" + StyleAttribute("color:red") + "" + ">" + "x</p>" == "<p style=\"color:red\">x</p>"
    ensures "<" + "p" + "" + "" + ">" + "x</p>" == "<p>x</p>"
  {
  }

  /** No `p` tag opens in `x</p>`. */
  lemma ClosingTagOnly()
    ensures forall j :: 0 <= j < |"x</p>"| ==> TagOpenLen("p", "x</p>"[j..]) == 0
  {
    var post := "x</p>";
    forall j | 0 <= j < |post| ensures TagOpenLen("p", post[j..]) == 0 {
      assert j != 1 ==> post[j] != '<';
      assert post[1..][1] == '/';
    }
  }

  /** The filter is not a fixed point: cutting out one attribute can join a
      blank before it to a `style="` after it, and the tag keeps a style
      attribute. */
  lemma StyleCanReform()
    ensures ClearTag("<p  style=\"a\"style=\"b\">", "p") == "<p style=\"b\">"
    ensures StyleAttrLen("<p style=\"b\">"[2..]) > 0
  {
    ReformTexts();
    StyleSurvives();
    ReformTailStyleFree();
    ClearTagAtStart("p", " ", "a", "style=\"b\"", "");
  }

  /** Proof helper for `StyleCanReform`: the example texts spelled out. */
  lemma ReformTexts()
    ensures "<" + "p" + " " + StyleAttribute("a") + "style=\"b\"" + ">" + "" == "<p  style=\"a\"style=\"b\">"
    ensures "<" + "p" + " " + "style=\"b\"" + ">" + "" == "<p style=\"b\">"
    ensures '<' !in "style=\"b\"" && '>' !in "style=\"b\""
  {
  }

  /** `style="b">` has no blank, so no style attribute starts in it. */
  lemma ReformTailStyleFree()
    ensures StyleFree("style=\"b\"" + ">")
  {
    var t := "style=\"b\"" + ">";
    assert forall i :: 0 <= i < |t| ==> !IsPcreSpace(t[i]);
    BlanklessStyleFree(t);
  }

  /** A style attribute starts with a blank, so a text without one has none. */
  lemma BlanklessStyleFree(t: string)
    requires forall i :: 0 <= i < |t| ==> !IsPcreSpace(t[i])
    ensures StyleFree(t)
  {
    forall j | 0 <= j < |t| ensures StyleAttrLen(t[j..]) == 0 {
      assert t[j..][0] == t[j];
    }
  }

  /** `<p style="b">` carries a style attribute. */
  lemma StyleSurvives()
    ensures StyleAttrLen("<p style=\"b\">"[2..]) > 0
  {
    var r := "<p style=\"b\">";
    assert r[2..][1..][..7] == "style=\"";
    assert r[2..][8..] == "b" + ['"'] + ">";
    IndexOfAfter("b", '"', ">");
  }

  // ---------------------------------------------------------------------
  // The run clean-ups (`cleanHtml`).

  /** A run of two or more non-breaking spaces (U+00A0 or `&nbsp;`) becomes
      a single `&nbsp;`; a lone one is kept. */
  function CollapseNbsp(html: string): (r: string)
    ensures r == Render(Pieces(Unit(NbspRun), html, 0), 2, "&nbsp;")
  {
    RunReplaceIsRender(NbspRun, html, 2, "&nbsp;");
    Replace(TokenRun(NbspRun, 2), html, "&nbsp;")
  }

  /** Every run of empty paragraphs becomes one `<br/>`. */
  function CollapseEmptyParagraphs(html: string): (r: string)
    ensures r == Render(Pieces(Unit(EmptyParagraphRun), html, 0), 1, "<br/>")
  {
    RunReplaceIsRender(EmptyParagraphRun, html, 1, "<br/>");
    Replace(TokenRun(EmptyParagraphRun, 1), html, "<br/>")
  }

  /** A run of at least `threshold` line breaks is deleted entirely;
      shorter runs are kept. */
  function PruneBreaks(html: string, threshold: nat): (r: string)
    requires threshold >= 1
    ensures r == Render(Pieces(Unit(BrRun), html, 0), threshold, "")
  {
    RunReplaceIsRender(BrRun, html, threshold, "");
    Replace(TokenRun(BrRun, threshold), html, "")
  }

  /** The non-breaking space stage: the collapse when the setting is on,
      nothing otherwise. */
  function NbspStage(cfg: Config, html: string): (r: string)
    ensures cfg.replaceMultipleNbsp ==> r == CollapseNbsp(html)
    ensures !cfg.replaceMultipleNbsp ==> r == html
  {
    if cfg.replaceMultipleNbsp then CollapseNbsp(html) else html
  }

  /** The empty-paragraph stage: the collapse when the setting is on,
      nothing otherwise. */
  function ParagraphStage(cfg: Config, html: string): (r: string)
    ensures cfg.replaceEmptyParagraphs ==> r == CollapseEmptyParagraphs(html)
    ensures !cfg.replaceEmptyParagraphs ==> r == html
  {
    if cfg.replaceEmptyParagraphs then CollapseEmptyParagraphs(html) else html
  }

  /** `cleanHtml`: style stripping, then (when enabled) the non-breaking
      space collapse, then (when enabled) the empty-paragraph collapse, and
      always the deletion of line-break runs longer than `maxSequentialBr`. */
  function CleanHtml(cfg: Config, html: string): (r: string)
    ensures r == Render(Pieces(Unit(BrRun), ParagraphStage(cfg, NbspStage(cfg, ClearHtmlTags(cfg, html))), 0),
                        MaxSequentialBr(cfg) + 1, "")
  {
    AfterTags(cfg, ClearHtmlTags(cfg, html))
  }

  /** The stages of `cleanHtml` that follow style stripping. */
  function AfterTags(cfg: Config, html: string): (r: string)
    ensures r == Render(Pieces(Unit(BrRun), ParagraphStage(cfg, NbspStage(cfg, html)), 0), MaxSequentialBr(cfg) + 1, "")
  {
    PruneBreaks(ParagraphStage(cfg, NbspStage(cfg, html)), MaxSequentialBr(cfg) + 1)
  }

  /** No run among the pieces has `min` units or more. */
  predicate NoLongRun(ps: seq<Piece>, min: nat) {
    forall k :: 0 <= k < |ps| && ps[k].Run? ==> ps[k].count < min
  }

  /** Rendering pieces none of which is a long run gives back their text. */
  lemma {:induction false} RenderShortRuns(ps: seq<Piece>, min: nat, repl: string)
    requires NoLongRun(ps, min)
    ensures Render(ps, min, repl) == Text(ps)
    decreases |ps|
  {
    if ps != [] {
      RenderShortRuns(ps[1..], min, repl);
    }
  }

  /** Runs of at most `threshold - 1` line breaks are left untouched. */
  lemma PruneBreaksKeepsShortRuns(html: string, threshold: nat)
    requires threshold >= 1
    requires NoLongRun(Pieces(Unit(BrRun), html, 0), threshold)
    ensures PruneBreaks(html, threshold) == html
  {
    RenderShortRuns(Pieces(Unit(BrRun), html, 0), threshold, "");
    PiecesCover(Unit(BrRun), html, 0);
    assert html[0..] == html;
  }

  /** No unit of a run pattern starts at a character that is not `<`, `&`
      or U+00A0. */
  lemma NoUnitAt(k: RunKind, min: nat, t: string)
    requires t != [] && t[0] != '<' && t[0] != '&' && t[0] != '\U{00A0}'
    ensures MatchLen(TokenRun(k, min), t) == 0
  {
    assert forall c: char :: LowerAscii(c) == '<' ==> c == '<';
    assert !StartsWith(t, "&nbsp;");
    assert TokenLen(k, t) == 0;
    assert Len(Unit(k), t) == 0;
  }

  /** No `<`, `&` or U+00A0 anywhere in the text. */
  predicate IsPlainText(html: string) {
    forall i :: 0 <= i < |html| ==> html[i] != '<' && html[i] != '&' && html[i] != '\U{00A0}'
  }

  /** Style stripping finds no opening tag in plain text. */
  lemma PlainTextHasNoTags(cfg: Config, html: string)
    requires IsPlainText(html)
    ensures ClearHtmlTags(cfg, html) == html
  {
    forall k, j | 0 <= k < |HtmlTags(cfg)| && Truthy(Trim(HtmlTags(cfg)[k])) && 0 <= j < |html|
      ensures TagOpenLen(Trim(HtmlTags(cfg)[k]), html[j..]) == 0
    {
      assert html[j..][0] == html[j];
    }
    ClearTagsAbsent(html, HtmlTags(cfg));
  }

  /** No run of any kind starts in plain text. */
  lemma PlainTextHasNoRuns(kind: RunKind, min: nat, html: string, repl: string)
    requires IsPlainText(html)
    ensures Replace(TokenRun(kind, min), html, repl) == html
  {
    forall j | 0 <= j < |html|
      ensures MatchLen(TokenRun(kind, min), html[j..]) == 0
    {
      assert html[j..][0] == html[j];
      NoUnitAt(kind, min, html[j..]);
    }
    NoMatchIdentity(TokenRun(kind, min), html, repl);
  }

  /** Text without markup comes out of the clean-up exactly as it went in,
      whatever the settings. */
  lemma CleanHtmlPlainText(cfg: Config, html: string)
    requires IsPlainText(html)
    ensures CleanHtml(cfg, html) == html
  {
    PlainTextHasNoTags(cfg, html);
    PlainTextAfterTags(cfg, html);
  }

  /** The stages after style stripping leave plain text alone. */
  lemma PlainTextAfterTags(cfg: Config, html: string)
    requires IsPlainText(html)
    ensures AfterTags(cfg, html) == html
  {
    PlainTextStages(cfg, html);
    PlainTextKeepsBreaks(cfg, html);
  }

  /** Both optional stages leave plain text alone. */
  lemma PlainTextStages(cfg: Config, html: string)
    requires IsPlainText(html)
    ensures ParagraphStage(cfg, NbspStage(cfg, html)) == html
  {
    PlainTextHasNoRuns(NbspRun, 2, html, "&nbsp;");
    PlainTextHasNoRuns(EmptyParagraphRun, 1, html, "<br/>");
  }

  /** Line-break pruning leaves plain text alone. */
  lemma PlainTextKeepsBreaks(cfg: Config, html: string)
    requires IsPlainText(html)
    ensures PruneBreaks(html, MaxSequentialBr(cfg) + 1) == html
  {
    PlainTextHasNoRuns(BrRun, MaxSequentialBr(cfg) + 1, html, "");
  }

  // ---------------------------------------------------------------------
  // Image sources (`fixImagePaths`, `copyPrivateImageToPublic`).

  const PrivatePrefix: string := "private://"
  const PublicImagesPrefix: string := "public://os2web_meetings_images/"

  /** `src="`, a non-empty value without `"`, and `"`. */
  predicate IsSrcAttr(x: string, value: string) {
    value != [] && '"' !in value && x == "src=\"" + value + "\""
  }

  /** The values of the `src` attributes, as the capture group of
      `preg_match_all('/src="([^"]+)"/')` lists them. */
  function SrcPaths(html: string): (paths: seq<string>)
    ensures |paths| == |FindAll(SrcAttr, html)|
    ensures forall k :: 0 <= k < |paths| ==> IsSrcAttr(MatchTexts(html, FindAll(SrcAttr, html))[k], paths[k])
  {
    var spans := FindAll(SrcAttr, html);
    var texts := MatchTexts(html, spans);
    var paths := seq(|spans|, k requires 0 <= k < |spans| => SrcValue(html, spans[k]));
    forall k | 0 <= k < |paths| ensures IsSrcAttr(texts[k], paths[k]) {
      SrcValueText(html, spans[k]);
    }
    paths
  }

  /** The value inside a `src` match. */
  function SrcValue(html: string, sp: Span): string
    requires sp.start + sp.len <= |html| && sp.len > 0
    requires MatchLen(SrcAttr, html[sp.start..]) == sp.len
  {
    SrcAttrShape(html[sp.start..], sp.len);
    html[sp.start + 5..sp.start + sp.len - 1]
  }

  /** A listed `src` attribute is `src="`, its value and `"`. */
  lemma SrcValueText(html: string, sp: Span)
    requires sp.start + sp.len <= |html| && sp.len > 0
    requires MatchLen(SrcAttr, html[sp.start..]) == sp.len
    ensures sp.len >= 7
    ensures IsSrcAttr(SpanText(html, sp), SrcValue(html, sp))
  {
    var t := html[sp.start..];
    SrcAttrShape(t, sp.len);
    assert SpanText(html, sp) == t[..sp.len];
    assert html[sp.start + 5..sp.start + sp.len - 1] == t[5..sp.len - 1];
  }

  /** The shape of an anchored `src` match. */
  lemma SrcAttrShape(t: string, n: nat)
    requires n > 0 && SrcAttrLen(t) == n
    ensures 7 <= n <= |t| && IsSrcAttr(t[..n], t[5..n - 1])
  {
    assert t[..n] == t[..5] + t[5..n - 1] + [t[n - 1]];
  }

  /** Whether a URI is in the private scheme (`getScheme` returns the name
      before `://`). */
  predicate IsPrivate(uri: string) {
    StartsWith(uri, PrivatePrefix)
  }

  /** The public copy of a private image: every `private://` becomes
      `public://os2web_meetings_images/`. */
  function MirrorPath(uri: string): (r: string)
    ensures (forall j :: 0 <= j < |uri| ==> !StartsWith(uri[j..], PrivatePrefix)) ==> r == uri
  {
    NeedleAbsent(PrivatePrefix, uri, PublicImagesPrefix);
    Replace(Literal(PrivatePrefix), uri, PublicImagesPrefix)
  }

  /** `str_replace` of a needle that occurs nowhere changes nothing. */
  lemma NeedleAbsent(x: string, s: string, y: string)
    ensures (forall j :: 0 <= j < |s| ==> !StartsWith(s[j..], x)) ==> Replace(Literal(x), s, y) == s
  {
    if forall j :: 0 <= j < |s| ==> !StartsWith(s[j..], x) {
      NoMatchIdentity(Literal(x), s, y);
    }
  }

  /** The public copy mirrors the private path below the images folder. */
  lemma MirrorPathOfPrivate(rest: string)
    requires forall j :: 0 <= j < |rest| ==> !StartsWith(rest[j..], PrivatePrefix)
    ensures MirrorPath(PrivatePrefix + rest) == PublicImagesPrefix + rest
  {
    var s := PrivatePrefix + rest;
    var m := Of(Literal(PrivatePrefix));
    assert s[..10] == PrivatePrefix;
    assert Len(m, s[0..]) == 10;
    ReplaceStep(m, s, 0, PublicImagesPrefix);
    forall j | 10 <= j < |s| ensures Len(m, s[j..]) == 0 {
      assert s[j..] == rest[j - 10..];
    }
    ReplaceSkip(m, s, 10, |s|, PublicImagesPrefix);
    assert s[10..] == rest;
  }

  /** Where an image ends up: a private image is copied to its public
      mirror (and is lost when that fails); any other stays where it is. */
  function ImageUri(env: Env, dir: string, path: string): (u: Option<string>)
    ensures !IsPrivate(dir + "/" + path) ==> u == Some(dir + "/" + path)
    ensures IsPrivate(dir + "/" + path) ==> u == env.copyImage(dir + "/" + path, MirrorPath(dir + "/" + path))
  {
    var rel := dir + "/" + path;
    if IsPrivate(rel) then env.copyImage(rel, MirrorPath(rel)) else Some(rel)
  }

  /** What a `src` value is replaced by: the public URL of the file the
      image ended up at, or nothing when there is no such file. Part of
      `FixPath` (MeetingsDirectory.php:876-883), whose contract states
      the cases. */
  function NewSource(env: Env, dir: string, path: string): string {
    match ImageUri(env, dir, path)
    case Some(u) => if env.fileExists(u) then env.publicUrl(u) else ""
    case None => ""
  }

  /** One `src` value: replaced everywhere by the public URL of its file, or
      removed everywhere when there is no such file. */
  function FixPath(env: Env, dir: string, html: string, path: string): (r: string)
    ensures ImageUri(env, dir, path).Some? && env.fileExists(ImageUri(env, dir, path).value) ==>
      r == Replace(Literal(path), html, env.publicUrl(ImageUri(env, dir, path).value))
    ensures ImageUri(env, dir, path).Some? && !env.fileExists(ImageUri(env, dir, path).value) ==>
      r == Replace(Literal(path), html, "")
    ensures ImageUri(env, dir, path).None? ==> r == Replace(Literal(path), html, "")
    ensures (forall j :: 0 <= j < |html| ==> !StartsWith(html[j..], path)) ==> r == html
  {
    NeedleAbsent(path, html, NewSource(env, dir, path));
    Replace(Literal(path), html, NewSource(env, dir, path))
  }

  /** The `src` values one after the other; values that occur nowhere in
      the text change nothing. */
  function FixPaths(env: Env, dir: string, html: string, paths: seq<string>): (r: string)
    ensures (forall k, j :: 0 <= k < |paths| && 0 <= j < |html| ==> !StartsWith(html[j..], paths[k])) ==> r == html
    decreases |paths|
  {
    if paths == [] then html else FixPaths(env, dir, FixPath(env, dir, html, paths[0]), paths[1..])
  }

  /** `fixImagePaths`: every `src` value is rewritten, then every image
      whose source ended up empty is removed. */
  function FixImagePaths(env: Env, html: string, dir: string): (r: string)
    ensures SrcPaths(html) == [] ==> r == Replace(EmptySrcImg, html, "")
  {
    Replace(EmptySrcImg, FixPaths(env, dir, html, SrcPaths(html)), "")
  }

  /** `src="path"` is the only `src` attribute of `html`, at `pre`, and the
      value occurs nowhere else in the text. */
  predicate OnlySource(html: string, pre: string, path: string, post: string) {
    && html == pre + "src=\"" + path + "\"" + post
    && path != [] && '"' !in path
    && (forall j :: 0 <= j < |html| && j != |pre| ==> SrcAttrLen(html[j..]) == 0)
    && (forall j :: 0 <= j < |html| && j != |pre| + 5 ==> !StartsWith(html[j..], path))
  }

  /** With one image source in the text, `fixImagePaths` puts the new source
      (the public URL, or nothing when the file is missing) in its place,
      keeps every other character, and then removes the images whose source
      is empty. */
  lemma FixImagePathsOneImage(env: Env, html: string, dir: string, pre: string, path: string, post: string)
    requires OnlySource(html, pre, path, post)
    ensures FixImagePaths(env, html, dir)
         == Replace(EmptySrcImg, pre + "src=\"" + NewSource(env, dir, path) + "\"" + post, "")
  {
    OnlySourcePaths(html, pre, path, post);
    var w := NewSource(env, dir, path);
    var fixed := FixPath(env, dir, html, path);
    assert FixPaths(env, dir, html, [path]) == FixPaths(env, dir, fixed, []);
    OnlySourceReplaced(html, pre, path, post, w);
  }

  /** The listed `src` values of such a text: `path` alone. */
  lemma OnlySourcePaths(html: string, pre: string, path: string, post: string)
    requires OnlySource(html, pre, path, post)
    ensures SrcPaths(html) == [path]
  {
    OnlySourceSpans(html, pre, path, post);
    OneSpanPath(html, pre, path, post);
  }

  /** A single listed `src` match at `pre` holds the value `path`. */
  lemma OneSpanPath(html: string, pre: string, path: string, post: string)
    requires html == pre + "src=\"" + path + "\"" + post
    requires FindAll(SrcAttr, html) == [Span(|pre|, |path| + 6)]
    ensures SrcPaths(html) == [path]
  {
    var paths := SrcPaths(html);
    var x := MatchTexts(html, FindAll(SrcAttr, html))[0];
    assert x == html[|pre|..|pre| + |path| + 6];
    assert x == "src=\"" + path + "\"";
    assert IsSrcAttr(x, paths[0]);
    assert paths[0] == x[5..|x| - 1];
  }

  /** `preg_match_all` finds the one `src` attribute of such a text. */
  lemma OnlySourceSpans(html: string, pre: string, path: string, post: string)
    requires OnlySource(html, pre, path, post)
    ensures FindAll(SrcAttr, html) == [Span(|pre|, |path| + 6)]
  {
    OnlySourceMatches(html, pre, path, post);
    OnlyMatchListed(SrcAttr, html, pre, "src=\"" + path + "\"", post);
  }

  /** `preg_match_all` on a text whose only match is `mid`. */
  lemma OnlyMatchListed(pat: Pattern, html: string, pre: string, mid: string, post: string)
    requires html == pre + mid + post
    requires forall j :: 0 <= j < |pre| ==> Len(Of(pat), (pre + mid + post)[j..]) == 0
    requires Len(Of(pat), (pre + mid + post)[|pre|..]) == |mid| > 0
    requires forall j :: 0 <= j < |post| ==> Len(Of(pat), post[j..]) == 0
    ensures FindAll(pat, html) == [Span(|pre|, |mid|)]
  {
    FindOnlyMatch(Of(pat), pre, mid, post);
  }

  /** The `src` matcher in such a text: a match at `pre` and nowhere else. */
  lemma OnlySourceMatches(html: string, pre: string, path: string, post: string)
    requires OnlySource(html, pre, path, post)
    ensures html == pre + ("src=\"" + path + "\"") + post
    ensures var mid := "src=\"" + path + "\"";
      && (forall j :: 0 <= j < |pre| ==> Len(Of(SrcAttr), (pre + mid + post)[j..]) == 0)
      && Len(Of(SrcAttr), (pre + mid + post)[|pre|..]) == |mid| > 0
      && (forall j :: 0 <= j < |post| ==> Len(Of(SrcAttr), post[j..]) == 0)
  {
    var mid := "src=\"" + path + "\"";
    assert html == pre + mid + post;
    OnlySourceNoMatchBefore(html, pre, path, post);
    OnlySourceNoMatchAfter(html, pre, path, post);
    SrcAttrWhole(path, post);
    assert html[|pre|..] == mid + post;
    LenOf(SrcAttr, html[|pre|..]);
  }

  lemma OnlySourceNoMatchBefore(html: string, pre: string, path: string, post: string)
    requires OnlySource(html, pre, path, post)
    ensures forall j :: 0 <= j < |pre| ==> Len(Of(SrcAttr), html[j..]) == 0
  {
    forall j | 0 <= j < |pre| ensures Len(Of(SrcAttr), html[j..]) == 0 {
      LenOf(SrcAttr, html[j..]);
    }
  }

  lemma OnlySourceNoMatchAfter(html: string, pre: string, path: string, post: string)
    requires OnlySource(html, pre, path, post)
    ensures forall j :: 0 <= j < |post| ==> Len(Of(SrcAttr), post[j..]) == 0
  {
    var e := |pre| + |path| + 6;
    assert |html| == e + |post|;
    forall j | 0 <= j < |post| ensures Len(Of(SrcAttr), post[j..]) == 0 {
      assert post[j..] == html[e + j..];
      LenOf(SrcAttr, post[j..]);
    }
  }

  /** `src="path"` followed by anything is one whole `src` match. */
  lemma SrcAttrWhole(path: string, post: string)
    requires path != [] && '"' !in path
    ensures SrcAttrLen("src=\"" + path + "\"" + post) == |path| + 6
  {
    var t := "src=\"" + path + "\"" + post;
    assert t[..5] == "src=\"";
    assert t[5..] == path + ['"'] + post;
    IndexOfAfter(path, '"', post);
  }

  /** `str_replace` of the only occurrence of the value replaces it there. */
  lemma OnlySourceReplaced(html: string, pre: string, path: string, post: string, w: string)
    requires OnlySource(html, pre, path, post)
    ensures Replace(Literal(path), html, w) == pre + "src=\"" + w + "\"" + post
  {
    var m := Of(Literal(path));
    var a := pre + "src=\"";
    var b := "\"" + post;
    assert html == a + path + b;
    forall j | 0 <= j < |a| ensures Len(m, (a + path + b)[j..]) == 0 {
      LenOf(Literal(path), html[j..]);
    }
    forall j | 0 <= j < |b| ensures Len(m, b[j..]) == 0 {
      assert b[j..] == html[|a| + |path| + j..];
      LenOf(Literal(path), b[j..]);
    }
    assert html[|a|..][..|path|] == path;
    LenOf(Literal(path), html[|a|..]);
    ReplaceOnlyMatch(m, a, path, b, w);
  }

  /** No image with an empty source starts anywhere in `t`. */
  predicate NoEmptySourceImage(t: string) {
    forall j :: 0 <= j < |t| ==> EmptySrcImgLen(t[j..]) == 0
  }

  /** An image whose file exists: its source becomes the file's public URL
      and nothing else changes. */
  lemma FixImagePathsRewrites(env: Env, html: string, dir: string, pre: string, path: string, post: string, u: string)
    requires OnlySource(html, pre, path, post)
    requires ImageUri(env, dir, path) == Some(u) && env.fileExists(u)
    requires NoEmptySourceImage(pre + "src=\"" + env.publicUrl(u) + "\"" + post)
    ensures FixImagePaths(env, html, dir) == pre + "src=\"" + env.publicUrl(u) + "\"" + post
  {
    NewSourceOfExisting(env, dir, path, u);
    FixImagePathsOneImage(env, html, dir, pre, path, post);
    NoEmptySourceImageKept(pre + "src=\"" + env.publicUrl(u) + "\"" + post);
  }

  lemma NewSourceOfExisting(env: Env, dir: string, path: string, u: string)
    requires ImageUri(env, dir, path) == Some(u) && env.fileExists(u)
    ensures NewSource(env, dir, path) == env.publicUrl(u)
  {
  }

  lemma NewSourceOfMissing(env: Env, dir: string, path: string)
    requires ImageUri(env, dir, path).None? || !env.fileExists(ImageUri(env, dir, path).value)
    ensures NewSource(env, dir, path) == ""
  {
  }

  /** A text without images with an empty source keeps every image. */
  lemma NoEmptySourceImageKept(t: string)
    requires NoEmptySourceImage(t)
    ensures Replace(EmptySrcImg, t, "") == t
  {
    forall j | 0 <= j < |t| ensures MatchLen(EmptySrcImg, t[j..]) == 0 {
      assert EmptySrcImgLen(t[j..]) == 0;
    }
    NoMatchIdentity(EmptySrcImg, t, "");
  }

  /** An image whose file is missing (or whose private copy failed): the
      whole `<img …>` tag is removed. */
  lemma FixImagePathsDropsMissing(env: Env, html: string, dir: string, a: string, path: string, b: string)
    requires OnlySource(html, "<img" + a, path, b + ">")
    requires |a| >= 1 && '>' !in a && '>' !in b
    requires ImageUri(env, dir, path).None? || !env.fileExists(ImageUri(env, dir, path).value)
    ensures FixImagePaths(env, html, dir) == ""
  {
    NewSourceOfMissing(env, dir, path);
    FixImagePathsOneImage(env, html, dir, "<img" + a, path, b + ">");
    EmptySourceText(a, b);
    EmptyImageRemoved(a, b);
  }

  /** The image tag once its source is cut out. */
  lemma EmptySourceText(a: string, b: string)
    ensures ("<img" + a) + "src=\"" + "" + "\"" + (b + ">") == "<img" + a + "src=\"\"" + b + ">"
  {
  }

  /** A body without markup and without `src` attributes goes through the
      clean-up and the image fix unchanged. */
  lemma PlainBodyKept(env: Env, cfg: Config, body: string, dir: string)
    requires IsPlainText(body) && forall j :: 0 <= j < |body| ==> SrcAttrLen(body[j..]) == 0
    ensures FixImagePaths(env, CleanHtml(cfg, body), dir) == body
  {
    CleanHtmlPlainText(cfg, body);
    PlainTextNoEmptyImage(body);
    FixImagePathsNoImages(env, body, dir);
  }

  /** An image tag starts with `<`, so plain text holds none. */
  lemma PlainTextNoEmptyImage(t: string)
    requires IsPlainText(t)
    ensures forall j :: 0 <= j < |t| ==> EmptySrcImgLen(t[j..]) == 0
  {
    forall j | 0 <= j < |t| ensures EmptySrcImgLen(t[j..]) == 0 {
      assert t[j..][0] == t[j];
    }
  }

  /** Text without `src="…"` attributes and without images with an empty
      source is not changed. */
  lemma FixImagePathsNoImages(env: Env, html: string, dir: string)
    requires forall j :: 0 <= j < |html| ==> SrcAttrLen(html[j..]) == 0 && EmptySrcImgLen(html[j..]) == 0
    ensures FixImagePaths(env, html, dir) == html
  {
    NoMatchIdentity(SrcAttr, html, "");
    NoMatchIdentity(EmptySrcImg, html, "");
  }

  /** An image tag whose source is empty is removed whole. */
  lemma EmptyImageRemoved(a: string, b: string)
    requires |a| >= 1 && '>' !in a && '>' !in b
    ensures Replace(EmptySrcImg, "<img" + a + "src=\"\"" + b + ">", "") == ""
  {
    EmptyImageMatch(a, b);
    WholeMatchReplaced(EmptySrcImg, "<img" + a + "src=\"\"" + b + ">", "");
  }

  /** Such a tag is one match of the empty-source pattern. */
  lemma EmptyImageMatch(a: string, b: string)
    requires |a| >= 1 && '>' !in a && '>' !in b
    ensures EmptySrcImgLen("<img" + a + "src=\"\"" + b + ">") == |a| + |b| + 11
  {
    var t := "<img" + a + "src=\"\"" + b + ">";
    var i := |a| + 6 + |b|;
    assert StartsWith(t, "<img") by {
      assert t[..4] == "<img";
    }
    assert IndexOf(t[4..], '>') == Some(i) by {
      forall j | 0 <= j < i ensures t[4..][j] != '>' {
        assert t[4..][j] == t[4 + j];
        if j < |a| {
          assert t[4 + j] == a[j];
        } else if j >= |a| + 6 {
          assert t[4 + j] == b[j - |a| - 6];
        }
      }
      IndexOfAt(t[4..], '>', i);
    }
    assert HasEmptySrcBefore(t, 4 + i) by {
      assert t[4 + |a|..][..6] == "src=\"\"";
    }
    EmptySrcImgLenAt(t, i);
  }

  /** The anchored match length once its three conditions are known. */
  lemma EmptySrcImgLenAt(t: string, i: nat)
    requires StartsWith(t, "<img") && IndexOf(t[4..], '>') == Some(i)
    requires 4 + i <= |t| && HasEmptySrcBefore(t, 4 + i)
    ensures EmptySrcImgLen(t) == 4 + i + 1
  {
  }
}

=== FILE: managed_files.dfy ===
/** `createFileCopyAsManaged`: where the managed copy of an imported file
    goes, and what the store gains. The copy is always named the same way,
    so a file imported again replaces its earlier copy instead of adding a
    second one. */
module ManagedFiles {
  import opened Wrappers
  import opened PhpStrings
  import opened Settings
  import opened ContentStore
  import opened Environment

  /** A base name split at its last dot: the extension keeps the dot. */
  datatype NameParts = NameParts(name: string, ext: string)

  /** The `strrpos`/`substr` split of a base name into name and extension. */
  function SplitExtension(basename: string): (p: NameParts)
    ensures p.name + p.ext == basename
    ensures p.ext == [] <==> '.' !in basename
    ensures p.ext != [] ==> p.ext[0] == '.' && '.' !in p.ext[1..]
  {
    match LastIndexOf(basename, '.')
    case None => NameParts(basename, "")
    case Some(i) =>
      assert basename[..i] + basename[i..] == basename;
      NameParts(basename[..i], basename[i..])
  }

  /** Splitting a name and an extension that were put together gives them
      back, provided the extension is empty or the only dot-led tail. */
  lemma SplitExtensionOfJoin(name: string, ext: string)
    requires (ext == [] && '.' !in name) || (ext != [] && ext[0] == '.' && '.' !in ext[1..])
    ensures SplitExtension(name + ext) == NameParts(name, ext)
  {
    var b := name + ext;
    if ext != [] {
      assert b[|name|] == '.';
      forall j | |name| < j < |b| ensures b[j] != '.' {
        assert b[j] == ext[1..][j - |name| - 1];
      }
      assert LastIndexOf(b, '.') == Some(|name|) by {
        LastIndexOfAt(b, '.', |name|);
      }
      assert b[..|name|] == name;
    } else {
      assert b == name;
    }
  }

  /** No separator after a directory that already ends in a slash (as
      `public://` does), one slash otherwise. */
  function Separator(dirname: string): string {
    if dirname != [] && dirname[|dirname| - 1] == '/' then "" else "/"
  }

  /** The name of the copy: the desired title when one is given (PHP
      truthiness), otherwise the original name with `_0` appended. */
  function CopyStem(name: string, title: string): string {
    if Truthy(title) then title else name + "_0"
  }

  /** The base name of the copy of a file named `base`: the stem and the
      original extension. */
  function CopyName(base: string, title: string): string {
    var parts := SplitExtension(base);
    CopyStem(parts.name, title) + parts.ext
  }

  /** Where the copy of `uri` goes: the same directory and `CopyName`.
      `title` is "" when the caller passes none. */
  function CopyUri(uri: string, title: string): string {
    var dir := PhpDirname(uri);
    dir + Separator(dir) + CopyName(DrupalBasename(uri), title)
  }

  /** For a file `base` in a directory `dir`, the copy is
      `dir/<stem><ext>`: the title when given, otherwise the original name
      with `_0`, and the original extension in both cases. */
  lemma CopyUriOfJoin(dir: string, base: string, title: string)
    requires dir != [] && dir[|dir| - 1] != '/'
    requires base != [] && '/' !in base
    ensures CopyUri(dir + "/" + base, title) == dir + "/" + CopyName(base, title)
    ensures Truthy(title) ==> CopyName(base, title) == title + SplitExtension(base).ext
    ensures !Truthy(title) ==> CopyName(base, title) == SplitExtension(base).name + "_0" + SplitExtension(base).ext
  {
    DirnameOfJoin(dir, base);
    BasenameOfJoin(dir, base);
    assert Separator(dir) == "/";
  }

  /** Without a title the copy's base name splits into the original name
      with `_0` and the original extension. */
  lemma CopyNameSplits(base: string)
    ensures SplitExtension(CopyName(base, "")) == NameParts(SplitExtension(base).name + "_0", SplitExtension(base).ext)
  {
    var parts := SplitExtension(base);
    if parts.ext == [] {
      assert parts.name == base;
      assert '.' !in parts.name + "_0";
    }
    SplitExtensionOfJoin(parts.name + "_0", parts.ext);
  }

  /** The copy's base name has no slash when neither the original base
      name nor the title has one. */
  lemma CopyNameHasNoSlash(base: string, title: string)
    requires '/' !in base && '/' !in title
    ensures '/' !in CopyName(base, title)
  {
    var parts := SplitExtension(base);
    assert '/' !in parts.name && '/' !in parts.ext by {
      assert base == parts.name + parts.ext;
      forall j | 0 <= j < |parts.ext| ensures parts.ext[j] != '/' {
        assert parts.ext[j] == base[|parts.name| + j];
      }
    }
  }

  /** Without a title the copy sits in the same directory, and its base
      name splits into the original name with `_0` and the original
      extension: the naming can be read back from the copy. */
  lemma CopyUriReadBack(dir: string, base: string)
    requires dir != [] && dir[|dir| - 1] != '/'
    requires base != [] && '/' !in base
    ensures PhpDirname(CopyUri(dir + "/" + base, "")) == dir
    ensures SplitExtension(DrupalBasename(CopyUri(dir + "/" + base, "")))
      == NameParts(SplitExtension(base).name + "_0", SplitExtension(base).ext)
  {
    var file := CopyName(base, "");
    CopyUriOfJoin(dir, base, "");
    CopyNameHasNoSlash(base, "");
    assert file != [] by {
      assert |file| >= 2;
    }
    DirnameOfJoin(dir, file);
    BasenameOfJoin(dir, file);
    CopyNameSplits(base);
  }

  /** The lowest managed file ID with this URI (`loadByProperties(['uri' => ...])`
      reduced to its first entity). */
  function FindFileByUri(files: seq<ManagedFile>, uri: string): (r: Option<nat>)
    ensures r.Some? ==> r.value < |files| && files[r.value].uri == uri
    ensures r.Some? ==> forall j :: 0 <= j < r.value ==> files[j].uri != uri
    ensures r.None? <==> forall j :: 0 <= j < |files| ==> files[j].uri != uri
  {
    if files == [] then None
    else if files[|files| - 1].uri == uri && FindFileByUri(files[..|files| - 1], uri).None? then Some(|files| - 1)
    else
      var r := FindFileByUri(files[..|files| - 1], uri);
      r
  }

  /** What `createFileCopyAsManaged` hands back and the store after it. */
  datatype FileOutcome = FileOutcome(store: Store, file: Option<nat>)

  /** `createFileCopyAsManaged`. In copy mode the file is copied to its
      `CopyUri`, replacing what is there, and `file_save_data` with
      `EXISTS_REPLACE` reuses the managed record that already has that URI,
      or adds one named after the copy. Otherwise the original file is
      registered as a new managed record under its own name. A failure
      (an exception in the source) yields no file and leaves the store as
      it was. */
  function CreateFileCopyAsManaged(env: Env, cfg: Config, s: Store, uri: string, title: string): (r: FileOutcome)
    ensures r.file.None? ==> r.store == s
    ensures OnlyFilesAdded(s, r.store) && |r.store.files| <= |s.files| + 1
    ensures r.file.Some? ==> r.file.value < |r.store.files|
    ensures r.file.Some? && cfg.createFilesCopy ==> r.store.files[r.file.value].uri == CopyUri(uri, title)
    ensures r.file.Some? && !cfg.createFilesCopy ==>
      r.store.files[r.file.value] == ManagedFile(uri, DrupalBasename(uri)) && r.file.value == |s.files|
    ensures r.file.Some? <==> (if cfg.createFilesCopy then env.copyFile(uri, CopyUri(uri, title)) else env.registerFile(uri))
  {
    if cfg.createFilesCopy then
      var copyUri := CopyUri(uri, title);
      if !env.copyFile(uri, copyUri) then FileOutcome(s, None)
      else
        match FindFileByUri(s.files, copyUri)
        case Some(fid) => FileOutcome(s, Some(fid))
        case None =>
          FileOutcome(AddFile(s, ManagedFile(copyUri, DrupalBasename(copyUri))), Some(|s.files|))
    else if !env.registerFile(uri) then FileOutcome(s, None)
    else
      var parts := SplitExtension(DrupalBasename(uri));
      FileOutcome(AddFile(s, ManagedFile(uri, parts.name + parts.ext)), Some(|s.files|))
  }

  /** In copy mode a file imported a second time reuses the record of its
      first import: the same file ID comes back and the store does not
      change, so there is at most one managed copy per file. */
  lemma CopyModeIsIdempotent(env: Env, cfg: Config, s: Store, uri: string, title: string)
    requires cfg.createFilesCopy
    ensures var first := CreateFileCopyAsManaged(env, cfg, s, uri, title);
      var second := CreateFileCopyAsManaged(env, cfg, first.store, uri, title);
      second == first
  {
    var copyUri := CopyUri(uri, title);
    if env.copyFile(uri, copyUri) && FindFileByUri(s.files, copyUri).None? {
      FindAppended(s.files, ManagedFile(copyUri, DrupalBasename(copyUri)), copyUri);
    }
  }

  /** A record appended to files none of which has its URI is the first
      with that URI. */
  lemma FindAppended(files: seq<ManagedFile>, f: ManagedFile, uri: string)
    requires FindFileByUri(files, uri).None? && f.uri == uri
    ensures FindFileByUri(files + [f], uri) == Some(|files|)
  {
    assert (files + [f])[..|files|] == files;
  }

  /** Without copies, every import of a file registers one more managed
      record for the same URI: nothing is reused. */
  lemma RegisterModeAlwaysAdds(env: Env, cfg: Config, s: Store, uri: string, title: string)
    requires !cfg.createFilesCopy && env.registerFile(uri)
    ensures var first := CreateFileCopyAsManaged(env, cfg, s, uri, title);
      var second := CreateFileCopyAsManaged(env, cfg, first.store, uri, title);
      && second.file == Some(|s.files| + 1)
      && second.store.files == s.files + [ManagedFile(uri, DrupalBasename(uri)), ManagedFile(uri, DrupalBasename(uri))]
  {
  }

  // ---------------------------------------------------------------------
  // The function as written, for the failed registration.

  /** What the source function hands back: a saved managed file, the file
      object created for registration whose `save()` threw (it is assigned
      before the save, so the exception handler leaves it in place), or
      FALSE. */
  datatype ReturnedFile = Saved(fid: nat) | Unsaved | NoFile

  /** Callers test the result with PHP truthiness: any object is truthy. */
  predicate IsTruthy(f: ReturnedFile) {
    !f.NoFile?
  }

  /** `->id()` of the returned object: none for a file that was never saved. */
  function ReturnedId(f: ReturnedFile): Option<nat> {
    if f.Saved? then Some(f.fid) else None
  }

  /** The source function as written; only the failed registration differs
      from `CreateFileCopyAsManaged`. */
  function CreateFileCopyAsWritten(env: Env, cfg: Config, s: Store, uri: string, title: string): (r: ReturnedFile)
    ensures !cfg.createFilesCopy && !env.registerFile(uri) ==> r == Unsaved
    ensures cfg.createFilesCopy || env.registerFile(uri) ==>
      r == (if CreateFileCopyAsManaged(env, cfg, s, uri, title).file.Some?
            then Saved(CreateFileCopyAsManaged(env, cfg, s, uri, title).file.value) else NoFile)
  {
    if !cfg.createFilesCopy && !env.registerFile(uri) then Unsaved
    else match CreateFileCopyAsManaged(env, cfg, s, uri, title).file
      case Some(fid) => Saved(fid)
      case None => NoFile
  }

  /** As written, a registration whose save fails hands back an object the
      callers accept as a file although it has no ID, so they reference a
      file with a NULL target; `CreateFileCopyAsManaged` yields no file
      instead, which is what the documented "managed file or FALSE" means. */
  lemma FailedRegistrationLooksLikeAFile(env: Env, cfg: Config, s: Store, uri: string, title: string)
    requires !cfg.createFilesCopy && !env.registerFile(uri)
    ensures IsTruthy(CreateFileCopyAsWritten(env, cfg, s, uri, title))
    ensures ReturnedId(CreateFileCopyAsWritten(env, cfg, s, uri, title)).None?
    ensures CreateFileCopyAsManaged(env, cfg, s, uri, title).file.None?
  {
  }
}

=== FILE: meetings_import.dfy ===
/** The source plugin's row hook and a whole import run. The hook takes the
    row's meeting off the unpublish schedule, filters the row on agenda
    access, the committee whitelist and the draft agenda type, and for an
    imported row upserts the committee, then the agenda document, the
    location and the bullet points, handing their targets to the meeting's
    destination as source properties. The meeting node itself is written by
    the migration's destination and is not part of this model. */
module MeetingsImport {
  import opened Wrappers
  import opened PhpStrings
  import opened Settings
  import opened Canonical
  import opened ContentStore
  import opened Entities
  import opened Environment
  import opened ManagedFiles
  import opened Reconciler
  import opened Unpublish

  /** A meeting row as the migration hands it to the hook: the converted
      record and its directory, whether the migration's own row preparation
      keeps it, and whether the migration wants it imported (no ID map yet,
      marked for update, above the high-water mark, or changed). */
  datatype Row = Row(record: MeetingRecord, directoryPath: string, kept: bool, needsImport: bool)

  /** The source properties the hook sets for an imported meeting. */
  datatype MeetingProperties = MeetingProperties(
    source: string,
    agendaId: string,
    committee: nat,
    agendaType: string,
    startDate: int,
    endDate: int,
    agendaDocument: seq<nat>,
    location: Option<nat>,
    bulletPoints: seq<nat>,
    participants: Option<string>,
    canceledParticipants: Option<string>)

  /** What becomes of a row: skipped (the hook returns FALSE), passed on with
      nothing set (the migration has nothing to update), or imported. */
  datatype RowOutcome = Skipped | Unchanged | Imported(properties: MeetingProperties)

  /** The store and the schedule after the hook, and the row's outcome. */
  datatype RowStep = RowStep(store: Store, schedule: Schedule, outcome: RowOutcome)

  /** The agenda-level access check: a closed agenda passes only when closed
      content is imported. */
  predicate AccessPasses(cfg: Config, rec: MeetingRecord)
    ensures rec.access == AgendaAccessOpen ==> AccessPasses(cfg, rec)
    ensures rec.access == AgendaAccessClosed ==> (AccessPasses(cfg, rec) <==> cfg.importClosedAgenda)
  {
    ConstantsDistinct();
    cfg.importClosedAgenda || rec.access == AgendaAccessOpen
  }

  /** A row the hook takes as far as the committee: kept, wanted, open
      enough and of a whitelisted committee. */
  predicate ReachesCommittee(cfg: Config, row: Row) {
    && row.kept
    && row.needsImport
    && AccessPasses(cfg, row.record)
    && CommitteeAllowed(cfg, row.record.committee.id)
  }

  /** A row whose meeting parts are imported: one that reaches the committee
      and is not a draft. */
  predicate RowImported(cfg: Config, row: Row)
    ensures row.record.agendaType == AgendaTypeKladde ==> !RowImported(cfg, row)
    ensures row.record.agendaType == AgendaTypeDagsorden || row.record.agendaType == AgendaTypeReferat ==>
      (RowImported(cfg, row) <==> ReachesCommittee(cfg, row))
  {
    ConstantsDistinct();
    ReachesCommittee(cfg, row) && row.record.agendaType != AgendaTypeKladde
  }

  /** A comma list of names, or no property at all for no names. */
  function NameList(names: seq<string>): (r: Option<string>)
    ensures r.None? <==> names == []
    ensures r.Some? && (forall i :: 0 <= i < |names| ==> ',' !in names[i]) ==> Split(r.value, ',') == names
  {
    if names == [] then None
    else
      assert (forall i :: 0 <= i < |names| ==> ',' !in names[i]) ==> Split(Join(names, ","), ',') == names by {
        if forall i :: 0 <= i < |names| ==> ',' !in names[i] {
          SplitJoin(names, ',');
        }
      }
      Some(Join(names, ","))
  }

  /** A location term and its ID, when the meeting has a location. */
  datatype LocationOutcome = LocationOutcome(store: Store, tid: Option<nat>)

  /** Every stored term keeps its vocabulary, and only location terms
      change. */
  predicate OnlyLocationsChange(s: Store, s': Store) {
    && |s.terms| <= |s'.terms|
    && forall i :: 0 <= i < |s.terms| ==>
         s'.terms[i].vid == s.terms[i].vid && (s.terms[i].vid != LocationVocabulary ==> s'.terms[i] == s.terms[i])
  }

  /** The location step: upserted only when the meeting has one. */
  function LocationStep(s: Store, loc: Option<TermRecord>): (r: LocationOutcome)
    ensures r.store.nodes == s.nodes && r.store.files == s.files
    ensures |s.terms| <= |r.store.terms| <= |s.terms| + 1
    ensures r.tid.Some? <==> loc.Some?
    ensures loc.None? ==> r.store == s
    ensures loc.Some? ==>
      r.tid.value < |r.store.terms| && r.store.terms[r.tid.value] == Term(LocationVocabulary, loc.value.id, loc.value.name)
    ensures OnlyLocationsChange(s, r.store)
  {
    match loc
    case None => LocationOutcome(s, None)
    case Some(l) =>
      var u := UpsertTerm(s, Kind.Location, l);
      LocationOutcome(u.store, Some(u.tid))
  }

  /** The meeting node stored under the agenda id, if any. */
  function MeetingOf(s: Store, agendaId: string): (r: Option<Node>)
    ensures r.Some? ==> r.value.bundle == MeetingType && r.value.esdhId == agendaId
    ensures r.Some? <==> exists i :: 0 <= i < |s.nodes| && s.nodes[i].bundle == MeetingType && s.nodes[i].esdhId == agendaId
  {
    match LoadByEsdhId(s, Kind.Meeting, agendaId)
    case Some(w) => Some(w.node)
    case None => None
  }

  /** The targets of an imported meeting's parts. */
  datatype Parts = Parts(store: Store, document: seq<nat>, location: Option<nat>, bulletPoints: seq<nat>)

  /** An imported meeting's parts, in the hook's order: the agenda document
      first, so that its file comes before any file of the bullet points;
      the location, when there is one; then the bullet points of the
      meeting stored under the agenda id. */
  function ImportParts(env: Env, cfg: Config, s: Store, rec: MeetingRecord, dir: string): (r: Parts)
    ensures Grows(s, r.store)
    ensures |r.document| <= 1 && (r.document != [] ==> r.document[0] <= |s.files| && r.document[0] < |r.store.files|)
    ensures !cfg.createFilesCopy && env.registerFile(dir + "/" + rec.agendaDocument.uri) ==> r.document == [|s.files|]
    ensures |r.store.terms| <= |s.terms| + 1
    ensures OnlyLocationsChange(s, r.store)
    ensures r.location.Some? <==> rec.location.Some?
    ensures rec.location.Some? ==>
      && r.location.value < |r.store.terms|
      && r.store.terms[r.location.value] == Term(LocationVocabulary, rec.location.value.id, rec.location.value.name)
    ensures BulletPointTargets(r.store, r.bulletPoints) && |r.bulletPoints| <= |rec.bulletPoints|
    ensures SavesSucceed(env) ==> |r.bulletPoints| == |rec.bulletPoints|
  {
    var doc := ProcessAgendaDocument(env, cfg, s, rec.agendaDocument, dir);
    var loc := LocationStep(doc.store, rec.location);
    var bps := ProcessBulletPoints(env, cfg, loc.store, MeetingOf(s, rec.agendaId), rec.bulletPoints, dir);
    assert Grows(s, loc.store);
    GrowsTransitive(s, loc.store, bps.store);
    Parts(bps.store, doc.targets, loc.tid, bps.targets)
  }

  /** The properties an imported row hands to its destination. */
  function Properties(pluginId: string, rec: MeetingRecord, committee: nat, parts: Parts): (p: MeetingProperties)
    ensures p.source == pluginId && p.agendaId == rec.agendaId && p.agendaType == rec.agendaType
    ensures p.startDate == rec.startDate && p.endDate == rec.endDate && p.committee == committee
    ensures p.agendaDocument == parts.document && p.location == parts.location && p.bulletPoints == parts.bulletPoints
    ensures p.participants == NameList(rec.participants.participants)
    ensures p.canceledParticipants == NameList(rec.participants.canceled)
  {
    MeetingProperties(pluginId, rec.agendaId, committee, rec.agendaType, rec.startDate, rec.endDate,
      parts.document, parts.location, parts.bulletPoints,
      NameList(rec.participants.participants), NameList(rec.participants.canceled))
  }

  /** The committee of the record is stored: a lookup by its ESDH id
      finds it under `tid`, with the record's name. */
  predicate CommitteeStored(s: Store, c: TermRecord, tid: nat) {
    LoadByEsdhId(s, Kind.Committee, c.id) == Some(TermWrapper(Kind.Committee, tid, Term(CommitteeVocabulary, c.id, c.name)))
  }

  /** Only the committee with this ESDH id may have changed: nodes and files
      are as they were, at most one term was added, and every term of
      another vocabulary or id is as it was. */
  predicate OnlyCommitteeChanges(s: Store, s': Store, c: TermRecord) {
    && s'.nodes == s.nodes && s'.files == s.files
    && |s.terms| <= |s'.terms| <= |s.terms| + 1
    && forall i :: 0 <= i < |s.terms| && !(s.terms[i].vid == CommitteeVocabulary && s.terms[i].esdhId == c.id) ==>
         s'.terms[i] == s.terms[i]
  }

  /** What an imported row leaves behind: properties naming the row, the
      stored committee and location terms, an agenda document file made
      before any bullet point file, and bullet point targets. */
  predicate ImportedProperly(s: Store, s': Store, pluginId: string, rec: MeetingRecord, p: MeetingProperties) {
    && p.source == pluginId && p.agendaId == rec.agendaId && p.agendaType == rec.agendaType
    && p.startDate == rec.startDate && p.endDate == rec.endDate
    && p.participants == NameList(rec.participants.participants)
    && p.canceledParticipants == NameList(rec.participants.canceled)
    && CommitteeStored(s', rec.committee, p.committee)
    && (p.location.Some? <==> rec.location.Some?)
    && (rec.location.Some? ==>
          && p.location.value < |s'.terms|
          && s'.terms[p.location.value] == Term(LocationVocabulary, rec.location.value.id, rec.location.value.name))
    && |p.agendaDocument| <= 1
    && (p.agendaDocument != [] ==> p.agendaDocument[0] <= |s.files|)
    && BulletPointTargets(s', p.bulletPoints)
    && |p.bulletPoints| <= |rec.bulletPoints|
  }

  /** The store and the outcome of a row past the filters. */
  datatype RowResult = RowResult(store: Store, outcome: RowOutcome)

  /** A row past the access and whitelist checks: the committee is upserted,
      then a draft is skipped; any other row has its parts imported. */
  function CommitteeOnward(env: Env, cfg: Config, s: Store, pluginId: string, rec: MeetingRecord, dir: string): (r: RowResult)
    ensures Grows(s, r.store)
    ensures r.outcome.Imported? <==> rec.agendaType != AgendaTypeKladde
    ensures !r.outcome.Unchanged?
    ensures |r.store.terms| <= |s.terms| + 2
    ensures rec.agendaType == AgendaTypeKladde ==> OnlyCommitteeChanges(s, r.store, rec.committee)
    ensures r.outcome.Imported? ==> ImportedProperly(s, r.store, pluginId, rec, r.outcome.properties)
    ensures r.outcome.Imported? && SavesSucceed(env) ==> |r.outcome.properties.bulletPoints| == |rec.bulletPoints|
    ensures LoadByEsdhId(r.store, Kind.Committee, rec.committee.id).Some?
    ensures LoadByEsdhId(r.store, Kind.Committee, rec.committee.id).value.term.name == rec.committee.name
  {
    var committee := UpsertTerm(s, Kind.Committee, rec.committee);
    UpsertTermLoads(s, Kind.Committee, rec.committee);
    if rec.agendaType == AgendaTypeKladde then RowResult(committee.store, Skipped)
    else
      var parts := ImportParts(env, cfg, committee.store, rec, dir);
      PartsKeepCommittee(committee.store, committee.tid, parts.store, rec.committee);
      GrowsTransitive(s, committee.store, parts.store);
      RowResult(parts.store, Imported(Properties(pluginId, rec, committee.tid, parts)))
  }

  /** The committee stays stored when only locations change after it. */
  lemma PartsKeepCommittee(s: Store, tid: nat, s': Store, c: TermRecord)
    requires CommitteeStored(s, c, tid) && OnlyLocationsChange(s, s')
    ensures CommitteeStored(s', c, tid)
  {
    TypeNamesDistinct(Kind.Committee, Kind.Location);
    var t := s'.terms;
    forall j | 0 <= j < tid
      ensures !(t[j].vid == CommitteeVocabulary && t[j].esdhId == c.id)
    {
      if s.terms[j].vid != LocationVocabulary {
        assert t[j] == s.terms[j];
      }
    }
  }

  /** `prepareRow`. Every row, whatever becomes of it, leaves the unpublish
      schedule first. A row the migration drops or does not need is
      passed on untouched. A closed agenda (unless closed content is
      imported) or a committee outside a non-empty whitelist is skipped
      before anything is stored. Otherwise the committee is upserted, and
      only then is a draft skipped, so a draft still creates or renames its
      committee and changes nothing else. Every other row has its parts
      imported and its properties set. */
  function PrepareRow(env: Env, cfg: Config, s: Store, m: Schedule, pluginId: string, row: Row): (r: RowStep)
    ensures cfg.unpublishMissingAgendas ==> r.schedule == m - {row.record.agendaId}
    ensures !cfg.unpublishMissingAgendas ==> r.schedule == m
    ensures Grows(s, r.store)
    ensures r.outcome.Imported? <==> RowImported(cfg, row)
    ensures r.outcome.Unchanged? <==> row.kept && !row.needsImport
    ensures !ReachesCommittee(cfg, row) ==> r.store == s
    ensures ReachesCommittee(cfg, row) ==>
      && LoadByEsdhId(r.store, Kind.Committee, row.record.committee.id).Some?
      && LoadByEsdhId(r.store, Kind.Committee, row.record.committee.id).value.term.name == row.record.committee.name
    ensures ReachesCommittee(cfg, row) && !RowImported(cfg, row) ==> OnlyCommitteeChanges(s, r.store, row.record.committee)
    ensures r.outcome.Imported? ==> ImportedProperly(s, r.store, pluginId, row.record, r.outcome.properties)
    ensures r.outcome.Imported? && SavesSucceed(env) ==> |r.outcome.properties.bulletPoints| == |row.record.bulletPoints|
  {
    var m' := Sight(cfg, m, row.record.agendaId);
    if !row.kept then RowStep(s, m', Skipped)
    else if !row.needsImport then RowStep(s, m', Unchanged)
    else if !AccessPasses(cfg, row.record) || !CommitteeAllowed(cfg, row.record.committee.id) then RowStep(s, m', Skipped)
    else
      var rest := CommitteeOnward(env, cfg, s, pluginId, row.record, row.directoryPath);
      RowStep(rest.store, m', rest.outcome)
  }

  // ---------------------------------------------------------------------
  // A whole import run.

  /** The agenda ids of the first `n` rows. */
  function SightedIds(rows: seq<Row>, n: nat): set<string>
    requires n <= |rows|
  {
    set k | 0 <= k < n :: rows[k].record.agendaId
  }

  lemma SightedIdsStep(rows: seq<Row>, n: nat)
    requires n < |rows|
    ensures SightedIds(rows, n + 1) == SightedIds(rows, n) + {rows[n].record.agendaId}
  {
    assert rows[n].record.agendaId in SightedIds(rows, n + 1);
  }

  /** A meeting the run unpublishes: unpublishing is switched on, the
      meeting is the last published one of this source with its ESDH id,
      and no row carried that id. */
  ghost predicate Unpublished(cfg: Config, s: Store, pluginId: string, rows: seq<Row>, i: nat) {
    && cfg.unpublishMissingAgendas
    && LastSelected(s.nodes, pluginId, i)
    && s.nodes[i].esdhId !in SightedIds(rows, |rows|)
  }

  /** What is left of a schedule built before the run names distinct nodes. */
  lemma LeftOverDistinct(cfg: Config, s: Store, pluginId: string, ids: set<string>)
    ensures DistinctNodes(Without(PreImport(cfg, s, pluginId), ids))
  {
  }

  /** What is left of a schedule built before the run names a node exactly when that node is the last selected one of
      its ESDH id and its id was not sighted. */
  lemma {:induction false} LeftOver(cfg: Config, s: Store, pluginId: string, ids: set<string>, i: nat)
    requires i < |s.nodes|
    ensures var left := Without(PreImport(cfg, s, pluginId), ids);
      && (i in Nids(left) <==> cfg.unpublishMissingAgendas && LastSelected(s.nodes, pluginId, i) && s.nodes[i].esdhId !in ids)
      && (i in Nids(left) ==> s.nodes[i].esdhId in left && left[s.nodes[i].esdhId].nid == i)
  {
    var snap := PreImport(cfg, s, pluginId);
    var left := Without(snap, ids);
    var id := s.nodes[i].esdhId;
    if i in Nids(left) {
      var k :| k in left && left[k].nid == i;
      assert k == id;
    }
    if cfg.unpublishMissingAgendas && LastSelected(s.nodes, pluginId, i) && id !in ids {
      assert id in left && left[id].nid == i;
    }
  }

  /** One row of the run, with what the run needs of it. */
  method RunRow(env: Env, cfg: Config, s: Store, m: Schedule, pluginId: string, row: Row) returns (step: RowStep)
    ensures Grows(s, step.store)
    ensures step.schedule == Sight(cfg, m, row.record.agendaId)
    ensures step.outcome.Imported? <==> RowImported(cfg, row)
  {
    step := PrepareRow(env, cfg, s, m, pluginId, row);
  }

  /** An import run: the schedule is built, every row goes through the row
      hook in order, and what is left of the schedule is unpublished. A
      meeting node ends up unpublished exactly when it is the last published
      meeting of this source with its ESDH id and no row carried that id; a
      row that is skipped still keeps its meeting published, and with
      unpublishing switched off no meeting node changes. */
  method Import(env: Env, cfg: Config, s: Store, pluginId: string, rows: seq<Row>) returns (r: Store, outcomes: seq<RowOutcome>)
    ensures |outcomes| == |rows|
    ensures forall k :: 0 <= k < |rows| ==> (outcomes[k].Imported? <==> RowImported(cfg, rows[k]))
    ensures |s.nodes| <= |r.nodes|
    ensures forall i :: 0 <= i < |s.nodes| && s.nodes[i].bundle == MeetingType ==>
      r.nodes[i] == (if Unpublished(cfg, s, pluginId, rows, i) then s.nodes[i].(published := false) else s.nodes[i])
    ensures forall i :: 0 <= i < |s.nodes| && s.nodes[i].bundle == MeetingType && s.nodes[i].esdhId in SightedIds(rows, |rows|) ==>
      r.nodes[i] == s.nodes[i]
    ensures !cfg.unpublishMissingAgendas ==> forall i :: 0 <= i < |s.nodes| && s.nodes[i].bundle == MeetingType ==>
      r.nodes[i] == s.nodes[i]
  {
    var snap := PreImport(cfg, s, pluginId);
    var m := snap;
    var cur := s;
    outcomes := [];
    var k := 0;
    GrowsReflexive(s);
    assert Without(snap, SightedIds(rows, 0)) == snap;
    while k < |rows|
      invariant 0 <= k <= |rows| && |outcomes| == k
      invariant Grows(s, cur)
      invariant m == Without(snap, SightedIds(rows, k))
      invariant forall j :: 0 <= j < k ==> (outcomes[j].Imported? <==> RowImported(cfg, rows[j]))
    {
      var step := RunRow(env, cfg, cur, m, pluginId, rows[k]);
      WithoutSight(cfg, snap, SightedIds(rows, k), rows[k].record.agendaId);
      SightedIdsStep(rows, k);
      GrowsTransitive(s, cur, step.store);
      cur, m := step.store, step.schedule;
      outcomes := outcomes + [step.outcome];
      k := k + 1;
    }
    LeftOverDistinct(cfg, s, pluginId, SightedIds(rows, |rows|));
    r := PostImport(cfg, cur, m);
    forall i | 0 <= i < |s.nodes| && s.nodes[i].bundle == MeetingType
      ensures r.nodes[i] == (if Unpublished(cfg, s, pluginId, rows, i) then s.nodes[i].(published := false) else s.nodes[i])
    {
      LeftOver(cfg, s, pluginId, SightedIds(rows, |rows|), i);
    }
  }
}

=== FILE: patterns.dfy ===
/** The text patterns the HTML clean-up uses, and one left-to-right scanner
    that gives both `preg_replace`/`str_replace` (replace every match) and
    `preg_match_all` (list every match).

    A pattern is modelled by its anchored match length at the start of a
    text: 0 when it does not match there, otherwise the length PCRE's
    leftmost, greedy-or-lazy match takes. None of the patterns matches the
    empty string, so the scanner either consumes a match or copies one
    character and moves on, exactly as PCRE resumes after a match. */
module Patterns {
  import opened Wrappers
  import opened PhpStrings

  /** PCRE's `\s` without the Unicode flag: space, tab, LF, VT, FF, CR. */
  predicate IsPcreSpace(c: char) {
    c == ' ' || c == '\t' || c == '\n' || c == '\U{000B}' || c == '\U{000C}' || c == '\r'
  }

  /** The repeated units of the three run patterns of the clean-up. */
  datatype RunKind =
    | NbspRun            // `\x{00A0}|&nbsp;` (case-sensitive)
    | BrRun              // `\<br\>|\<br\/\>|\<br\ \/\>` (case-insensitive)
    | EmptyParagraphRun  // `<p( )*?>((<span>)*?)(|&nbsp;)((<\/span>)*?)<\/p>\s*` (case-insensitive)

  /** Length of a non-breaking-space token at the start of `t`: the character
      U+00A0 or the entity `&nbsp;`. */
  function NbspTokenLen(t: string): (n: nat)
    ensures n <= |t|
    ensures n > 0 ==> (n == 1 && t[0] == '\U{00A0}') || (n == 6 && t[..6] == "&nbsp;")
    ensures n == 0 ==> t == [] || (t[0] != '\U{00A0}' && !StartsWith(t, "&nbsp;"))
  {
    if |t| >= 1 && t[0] == '\U{00A0}' then 1
    else if StartsWith(t, "&nbsp;") then 6
    else 0
  }

  /** Length of a line-break tag at the start of `t`: `<br>`, `<br/>` or
      `<br />` in any letter case. */
  function BrTokenLen(t: string): (n: nat)
    ensures n <= |t|
    ensures n > 0 ==> n >= 4 && t[0] == '<'
    ensures n == 0 || (n == 4 && StartsWithCi(t, "<br>")) || (n == 5 && StartsWithCi(t, "<br/>"))
      || (n == 6 && StartsWithCi(t, "<br />"))
    ensures n == 0 ==> !StartsWithCi(t, "<br>") && !StartsWithCi(t, "<br/>") && !StartsWithCi(t, "<br />")
  {
    assert forall c: char :: LowerAscii(c) == '<' ==> c == '<';
    if StartsWithCi(t, "<br>") then 4
    else if StartsWithCi(t, "<br/>") then 5
    else if StartsWithCi(t, "<br />") then 6
    else 0
  }

  /** How many copies of `unit` (ignoring case) `t` starts with. */
  function RepeatCi(t: string, unit: string): (k: nat)
    requires |unit| > 0
    ensures k * |unit| <= |t|
    decreases |t|
  {
    if StartsWithCi(t, unit) then 1 + RepeatCi(t[|unit|..], unit) else 0
  }

  /** Length of the run of plain spaces `t` starts with. */
  function SpaceRunLen(t: string): (n: nat)
    ensures n <= |t|
    ensures forall i :: 0 <= i < n ==> t[i] == ' '
    ensures n == |t| || t[n] != ' '
  {
    if t != [] && t[0] == ' ' then 1 + SpaceRunLen(t[1..]) else 0
  }

  /** Length of the run of `\s` characters `t` starts with. */
  function PcreSpaceRunLen(t: string): (n: nat)
    ensures n <= |t|
    ensures forall i :: 0 <= i < n ==> IsPcreSpace(t[i])
    ensures n == |t| || !IsPcreSpace(t[n])
  {
    if t != [] && IsPcreSpace(t[0]) then 1 + PcreSpaceRunLen(t[1..]) else 0
  }

  /** Length of one empty paragraph at the start of `t`: `<p`, spaces, `>`,
      opening spans, at most one `&nbsp;`, closing spans, `</p>`, and the
      white space after it. Each part is forced by the text (the parts start
      with different characters), so backtracking cannot choose another
      split. */
  function ParagraphUnitLen(t: string): (n: nat)
    ensures n <= |t|
    ensures n > 0 ==> n >= 7 && StartsWithCi(t, "<p")
  {
    if !StartsWithCi(t, "<p") then 0
    else
      var a := 2 + SpaceRunLen(t[2..]);
      if a == |t| || t[a] != '>' then 0
      else
        var b := a + 1 + 6 * RepeatCi(t[a + 1..], "<span>");
        var c := if StartsWithCi(t[b..], "&nbsp;") then b + 6 else b;
        var d := c + 7 * RepeatCi(t[c..], "</span>");
        if !StartsWithCi(t[d..], "</p>") then 0
        else d + 4 + PcreSpaceRunLen(t[d + 4..])
  }

  /** An anchored matcher: the length of the match at the start of a text,
      0 when there is none. */
  type Matcher = string -> nat

  /** The length a matcher reports, read as "no match" if it would run past
      the end of the text (no pattern here ever does; see `MatchLen`). */
  function Len(m: Matcher, t: string): (n: nat)
    ensures n <= |t|
  {
    if m(t) <= |t| then m(t) else 0
  }

  /** Length of one unit of kind `k` at the start of `t`, 0 if none. */
  function TokenLen(k: RunKind, t: string): (n: nat)
    ensures n <= |t|
  {
    match k
    case NbspRun => NbspTokenLen(t)
    case BrRun => BrTokenLen(t)
    case EmptyParagraphRun => ParagraphUnitLen(t)
  }

  /** The units of kind `k` as a matcher. */
  function Unit(k: RunKind): Matcher {
    t => TokenLen(k, t)
  }

  /** Number of consecutive units at the start of `t`. */
  function RunCount(unit: Matcher, t: string): (c: nat)
    ensures c == 0 <==> Len(unit, t) == 0
    decreases |t|
  {
    var n := Len(unit, t);
    if n == 0 then 0 else 1 + RunCount(unit, t[n..])
  }

  /** Length of the maximal run of units at the start of `t`. */
  function RunLen(unit: Matcher, t: string): (n: nat)
    ensures n <= |t|
    ensures n == 0 <==> Len(unit, t) == 0
    ensures n >= Len(unit, t)
    decreases |t|
  {
    var m := Len(unit, t);
    if m == 0 then 0 else m + RunLen(unit, t[m..])
  }

  /** The patterns the importer hands to `preg_replace`, `preg_match_all` and
      `str_replace`. */
  datatype Pattern =
    | Literal(text: string)               // a `str_replace` needle
    | TokenRun(kind: RunKind, min: nat)   // `(unit){min,}`, used with min >= 1
    | TagOpen(tag: string)                // `#<tag(.*?)>#is`
    | StyleAttr                           // `#\sstyle="(.*?)"#is`
    | SrcAttr                             // `/src="([^"]+)"/`
    | EmptySrcImg                         // `/<img([^>]+)src=""([^>]*)>/`

  /** `src=""` occurs inside `t` starting at a position in [5, gt - 6]. */
  predicate HasEmptySrcBefore(t: string, gt: nat)
    requires gt <= |t|
  {
    exists p :: 5 <= p && p + 6 <= gt && StartsWith(t[p..], "src=\"\"")
  }

  /** The run pattern `(unit){min,}`: the whole maximal run when it has at
      least `min` units (and at least one). */
  function RunMatchLen(unit: Matcher, min: nat, t: string): (n: nat)
    ensures n <= |t|
    ensures n > 0 <==> RunCount(unit, t) >= min && RunCount(unit, t) > 0
    ensures n > 0 ==> n == RunLen(unit, t)
  {
    var c := RunCount(unit, t);
    if c >= min && c > 0 then RunLen(unit, t) else 0
  }

  /** `<tag` (any case) and everything up to the first `>`. */
  function TagOpenLen(tag: string, t: string): (n: nat)
    ensures n <= |t|
    ensures n > 0 ==> n >= 2 + |tag| && t[0] == '<' && t[n - 1] == '>'
    ensures n > 0 ==> StartsWithCi(t[1..], tag) && '>' !in t[1 + |tag|..n - 1]
  {
    if 1 + |tag| <= |t| && t[0] == '<' && StartsWithCi(t[1..], tag) then
      match IndexOf(t[1 + |tag|..], '>')
      case None => 0
      case Some(i) =>
        assert t[1 + |tag|..][..i] == t[1 + |tag|..1 + |tag| + i];
        1 + |tag| + i + 1
    else 0
  }

  /** A white-space character, `style="` (any case) and everything up to
      the next `"`. */
  function StyleAttrLen(t: string): (n: nat)
    ensures n <= |t|
    ensures n > 0 ==> n >= 9 && IsPcreSpace(t[0]) && t[n - 1] == '"'
  {
    if 8 <= |t| && IsPcreSpace(t[0]) && StartsWithCi(t[1..], "style=\"") then
      match IndexOf(t[8..], '"')
      case None => 0
      case Some(i) => 8 + i + 1
    else 0
  }

  /** `src="`, a non-empty value without `"`, and the closing `"`. */
  function SrcAttrLen(t: string): (n: nat)
    ensures n <= |t|
    ensures n > 0 ==> n >= 7 && StartsWith(t, "src=\"") && t[n - 1] == '"' && '"' !in t[5..n - 1]
  {
    if StartsWith(t, "src=\"") then
      match IndexOf(t[5..], '"')
      case None => 0
      case Some(i) =>
        assert t[5..][..i] == t[5..5 + i];
        if i == 0 then 0 else 5 + i + 1
    else 0
  }

  /** `<img`, then up to the first `>`, provided an empty `src=""` comes
      after at least one character and before that `>`. */
  function EmptySrcImgLen(t: string): (n: nat)
    ensures n <= |t|
    ensures n > 0 ==> StartsWith(t, "<img") && t[n - 1] == '>' && '>' !in t[4..n - 1]
    ensures n > 0 ==> HasEmptySrcBefore(t, n - 1)
  {
    if StartsWith(t, "<img") then
      match IndexOf(t[4..], '>')
      case None => 0
      case Some(i) =>
        assert t[4..][..i] == t[4..4 + i];
        if HasEmptySrcBefore(t, 4 + i) then 4 + i + 1 else 0
    else 0
  }

  /** Length of the match of `pat` anchored at the start of `t`, 0 for none. */
  function MatchLen(pat: Pattern, t: string): (n: nat)
    ensures n <= |t|
  {
    match pat
    case Literal(x) => if x != [] && StartsWith(t, x) then |x| else 0
    case TokenRun(k, min) => RunMatchLen(Unit(k), min, t)
    case TagOpen(tag) => TagOpenLen(tag, t)
    case StyleAttr => StyleAttrLen(t)
    case SrcAttr => SrcAttrLen(t)
    case EmptySrcImg => EmptySrcImgLen(t)
  }

  /** A pattern as a matcher. */
  function Of(pat: Pattern): Matcher {
    t => MatchLen(pat, t)
  }

  /** The scanner behind `preg_replace` and `str_replace` (every occurrence,
      left to right, without overlaps), from position `from` on. */
  function ReplaceFrom(m: Matcher, s: string, from: nat, repl: string): string
    requires from <= |s|
    decreases |s| - from
  {
    if from == |s| then []
    else
      var n := Len(m, s[from..]);
      if n > 0 then repl + ReplaceFrom(m, s, from + n, repl)
      else [s[from]] + ReplaceFrom(m, s, from + 1, repl)
  }

  /** `preg_replace(pat, repl, s)`, and `str_replace(needle, repl, s)` for a
      `Literal` needle (an empty needle leaves `s` as it is). */
  function Replace(pat: Pattern, s: string, repl: string): string {
    ReplaceFrom(Of(pat), s, 0, repl)
  }

  /** A match found by the scanner: its start and length. */
  datatype Span = Span(start: nat, len: nat)

  /** The spans lie inside `s` at or after `from`, in increasing order,
      without overlapping. */
  predicate Ordered(s: string, spans: seq<Span>, from: nat)
    decreases |spans|
  {
    spans == [] ||
      (from <= spans[0].start && spans[0].start + spans[0].len <= |s|
       && Ordered(s, spans[1..], spans[0].start + spans[0].len))
  }

  /** Every span is a non-empty match of `m`. */
  predicate AllMatch(m: Matcher, s: string, spans: seq<Span>)
    decreases |spans|
  {
    spans == [] ||
      (spans[0].start <= |s| && spans[0].len > 0 && Len(m, s[spans[0].start..]) == spans[0].len
       && AllMatch(m, s, spans[1..]))
  }

  /** The scanner behind `preg_match_all`, from position `from` on. */
  function FindFrom(m: Matcher, s: string, from: nat): (r: seq<Span>)
    requires from <= |s|
    ensures Ordered(s, r, from) && AllMatch(m, s, r)
    decreases |s| - from
  {
    if from == |s| then []
    else
      var n := Len(m, s[from..]);
      if n > 0 then
        var rest := FindFrom(m, s, from + n);
        assert ([Span(from, n)] + rest)[1..] == rest;
        [Span(from, n)] + rest
      else FindFrom(m, s, from + 1)
  }

  /** The ordering of spans, one span at a time. */
  lemma {:induction false} OrderedBounds(s: string, spans: seq<Span>, from: nat)
    requires Ordered(s, spans, from)
    ensures forall k :: 0 <= k < |spans| ==> from <= spans[k].start && spans[k].start + spans[k].len <= |s|
    ensures forall k, l :: 0 <= k < l < |spans| ==> spans[k].start + spans[k].len <= spans[l].start
    decreases |spans|
  {
    if spans != [] {
      OrderedBounds(s, spans[1..], spans[0].start + spans[0].len);
      assert forall k :: 1 <= k < |spans| ==> spans[k] == spans[1..][k - 1];
    }
  }

  /** Being a match, one span at a time. */
  lemma {:induction false} AllMatchEach(m: Matcher, s: string, spans: seq<Span>)
    requires AllMatch(m, s, spans)
    ensures forall k :: 0 <= k < |spans| ==> spans[k].start <= |s| && spans[k].len > 0 && Len(m, s[spans[k].start..]) == spans[k].len
    decreases |spans|
  {
    if spans != [] {
      AllMatchEach(m, s, spans[1..]);
      assert forall k :: 1 <= k < |spans| ==> spans[k] == spans[1..][k - 1];
    }
  }

  /** `preg_match_all(pat, s)`: every match, left to right, without overlaps. */
  function FindAll(pat: Pattern, s: string): (r: seq<Span>)
    ensures Ordered(s, r, 0)
    ensures forall k :: 0 <= k < |r| ==> r[k].start + r[k].len <= |s|
    ensures forall k, l :: 0 <= k < l < |r| ==> r[k].start + r[k].len <= r[l].start
    ensures forall k :: 0 <= k < |r| ==> r[k].len > 0 && MatchLen(pat, s[r[k].start..]) == r[k].len
  {
    var r := FindFrom(Of(pat), s, 0);
    OrderedBounds(s, r, 0);
    AllMatchEach(Of(pat), s, r);
    r
  }

  /** The text of a span. */
  function SpanText(s: string, sp: Span): string
    requires sp.start + sp.len <= |s|
  {
    s[sp.start..sp.start + sp.len]
  }

  /** `$matches[0]` of `preg_match_all`: the matched texts, in order. */
  function MatchTexts(s: string, spans: seq<Span>): (r: seq<string>)
    requires forall k :: 0 <= k < |spans| ==> spans[k].start + spans[k].len <= |s|
    ensures |r| == |spans|
    ensures forall k :: 0 <= k < |r| ==> r[k] == SpanText(s, spans[k])
  {
    seq(|spans|, k requires 0 <= k < |spans| => SpanText(s, spans[k]))
  }

  /** The text from `from` on with every span replaced by `repl`. */
  function Splice(s: string, spans: seq<Span>, from: nat, repl: string): string
    requires from <= |s| && Ordered(s, spans, from)
    decreases |spans|
  {
    if spans == [] then s[from..]
    else
      var sp := spans[0];
      s[from..sp.start] + repl + Splice(s, spans[1..], sp.start + sp.len, repl)
  }

  /** Replacing and listing agree: the replace scanner rewrites exactly the
      matches the listing scanner reports and keeps the text between them. */
  lemma {:induction false} ReplaceIsSplice(m: Matcher, s: string, from: nat, repl: string)
    requires from <= |s|
    ensures ReplaceFrom(m, s, from, repl) == Splice(s, FindFrom(m, s, from), from, repl)
    decreases |s| - from
  {
    if from < |s| {
      var n := Len(m, s[from..]);
      if n > 0 {
        ReplaceIsSplice(m, s, from + n, repl);
        SpliceMatched(m, s, from, repl);
      } else {
        ReplaceIsSplice(m, s, from + 1, repl);
        SpliceCopied(m, s, from, repl);
      }
    }
  }

  /** A match is replaced in both descriptions. */
  lemma SpliceMatched(m: Matcher, s: string, from: nat, repl: string)
    requires from < |s| && Len(m, s[from..]) > 0
    requires var n := Len(m, s[from..]);
      ReplaceFrom(m, s, from + n, repl) == Splice(s, FindFrom(m, s, from + n), from + n, repl)
    ensures ReplaceFrom(m, s, from, repl) == Splice(s, FindFrom(m, s, from), from, repl)
  {
    var n := Len(m, s[from..]);
    var rest := FindFrom(m, s, from + n);
    var tail := Splice(s, rest, from + n, repl);
    assert ReplaceFrom(m, s, from, repl) == repl + tail;
    assert FindFrom(m, s, from) == [Span(from, n)] + rest;
    assert Splice(s, [Span(from, n)] + rest, from, repl) == repl + tail by {
      SpliceHead(s, Span(from, n), rest, repl);
    }
  }

  /** A character where nothing matches is copied in both descriptions. */
  lemma SpliceCopied(m: Matcher, s: string, from: nat, repl: string)
    requires from < |s| && Len(m, s[from..]) == 0
    requires ReplaceFrom(m, s, from + 1, repl) == Splice(s, FindFrom(m, s, from + 1), from + 1, repl)
    ensures ReplaceFrom(m, s, from, repl) == Splice(s, FindFrom(m, s, from), from, repl)
  {
    var rest := FindFrom(m, s, from + 1);
    assert ReplaceFrom(m, s, from, repl) == [s[from]] + ReplaceFrom(m, s, from + 1, repl);
    assert FindFrom(m, s, from) == rest;
    assert Splice(s, rest, from, repl) == [s[from]] + Splice(s, rest, from + 1, repl) by {
      SpliceStep(s, rest, from, repl);
    }
  }

  /** `preg_replace` rewrites exactly what `preg_match_all` lists. */
  lemma ReplaceAgreesWithFindAll(pat: Pattern, s: string, repl: string)
    ensures Replace(pat, s, repl) == Splice(s, FindAll(pat, s), 0, repl)
  {
    ReplaceIsSplice(Of(pat), s, 0, repl);
  }

  /** A splice whose first span starts right at `from` begins with `repl`. */
  lemma SpliceHead(s: string, sp: Span, rest: seq<Span>, repl: string)
    requires sp.start + sp.len <= |s|
    requires Ordered(s, [sp] + rest, sp.start)
    ensures Ordered(s, rest, sp.start + sp.len)
    ensures Splice(s, [sp] + rest, sp.start, repl) == repl + Splice(s, rest, sp.start + sp.len, repl)
  {
    assert ([sp] + rest)[1..] == rest;
  }

  /** Moving the start of a splice over one character outside every span. */
  lemma SpliceStep(s: string, spans: seq<Span>, from: nat, repl: string)
    requires from < |s| && Ordered(s, spans, from + 1)
    ensures Ordered(s, spans, from)
    ensures Splice(s, spans, from, repl) == [s[from]] + Splice(s, spans, from + 1, repl)
  {
    if spans == [] {
      SliceCons(s, from, |s|);
    } else {
      var sp := spans[0];
      var tail := Splice(s, spans[1..], sp.start + sp.len, repl);
      assert Ordered(s, spans, from);
      assert Splice(s, spans, from + 1, repl) == s[from + 1..sp.start] + repl + tail;
      assert Splice(s, spans, from, repl) == s[from..sp.start] + repl + tail;
      SliceCons(s, from, sp.start);
    }
  }

  lemma TakeDrop(s: string, a: nat, n: nat)
    requires a + n <= |s|
    ensures s[a..] == s[a..][..n] + s[a + n..]
  {
  }

  lemma SliceCons(s: string, a: nat, b: nat)
    requires a < b <= |s|
    ensures s[a..b] == [s[a]] + s[a + 1..b]
    ensures b == |s| ==> s[a..] == [s[a]] + s[a + 1..]
  {
  }

  /** Text without a match is copied: the scanner leaves a stretch in which
      no match starts as it is. */
  lemma {:induction false} ReplaceSkip(m: Matcher, s: string, from: nat, to: nat, repl: string)
    requires from <= to <= |s|
    requires forall j :: from <= j < to ==> Len(m, s[j..]) == 0
    ensures ReplaceFrom(m, s, from, repl) == s[from..to] + ReplaceFrom(m, s, to, repl)
    decreases |s| - from
  {
    if from < to {
      ReplaceSkip(m, s, from + 1, to, repl);
      ReplaceStep(m, s, from, repl);
      assert s[from..to] == [s[from]] + s[from + 1..to];
    }
  }

  /** The listing scanner passes over a stretch in which no match starts. */
  lemma {:induction false} FindSkip(m: Matcher, s: string, from: nat, to: nat)
    requires from <= to <= |s|
    requires forall j :: from <= j < to ==> Len(m, s[j..]) == 0
    ensures FindFrom(m, s, from) == FindFrom(m, s, to)
    decreases |s| - from
  {
    if from < to {
      FindSkip(m, s, from + 1, to);
    }
  }

  /** The matcher of a pattern reports the pattern's match length. */
  lemma LenOf(pat: Pattern, t: string)
    ensures Len(Of(pat), t) == MatchLen(pat, t)
  {
  }

  /** A match of length `n` at `from` is replaced as a whole. */
  lemma MatchReplaced(m: Matcher, s: string, from: nat, n: nat, repl: string)
    requires from < |s| && Len(m, s[from..]) == n > 0
    ensures ReplaceFrom(m, s, from, repl) == repl + ReplaceFrom(m, s, from + n, repl)
  {
  }

  /** A tail in which no match starts is copied. */
  lemma TailCopied(m: Matcher, p: string, b: string, repl: string)
    requires forall j :: 0 <= j < |b| ==> Len(m, b[j..]) == 0
    ensures ReplaceFrom(m, p + b, |p|, repl) == b
  {
    var x := p + b;
    forall j | |p| <= j < |x| ensures Len(m, x[j..]) == 0 {
      assert x[j..] == b[j - |p|..];
    }
    ReplaceSkip(m, x, |p|, |x|, repl);
    assert x[|p|..|x|] == b;
  }

  /** A text with exactly one match, `mid`, and no match starting before
      it or inside the text after it: the match alone is replaced. */
  lemma ReplaceOnlyMatch(m: Matcher, a: string, mid: string, b: string, repl: string)
    requires forall j :: 0 <= j < |a| ==> Len(m, (a + mid + b)[j..]) == 0
    requires Len(m, (a + mid + b)[|a|..]) == |mid| > 0
    requires forall j :: 0 <= j < |b| ==> Len(m, b[j..]) == 0
    ensures ReplaceFrom(m, a + mid + b, 0, repl) == a + repl + b
  {
    var x := a + mid + b;
    var after := |a| + |mid|;
    assert after == |a + mid|;
    TailCopied(m, a + mid, b, repl);
    assert ReplaceFrom(m, x, after, repl) == b;
    MatchReplaced(m, x, |a|, |mid|, repl);
    var r1 := ReplaceFrom(m, x, |a|, repl);
    assert r1 == repl + b;
    ReplaceSkip(m, x, 0, |a|, repl);
    assert x[0..|a|] == a;
    ConcatAssoc(a, repl, b);
  }

  /** The listing scanner finds the one match of such a text. */
  lemma FindOnlyMatch(m: Matcher, a: string, mid: string, b: string)
    requires forall j :: 0 <= j < |a| ==> Len(m, (a + mid + b)[j..]) == 0
    requires Len(m, (a + mid + b)[|a|..]) == |mid| > 0
    requires forall j :: 0 <= j < |b| ==> Len(m, b[j..]) == 0
    ensures FindFrom(m, a + mid + b, 0) == [Span(|a|, |mid|)]
  {
    var x := a + mid + b;
    var e := |a| + |mid|;
    FindSkip(m, x, 0, |a|);
    forall j | e <= j < |x| ensures Len(m, x[j..]) == 0 {
      assert x[j..] == b[j - e..];
    }
    NoMatchFindsNothing(m, x, e);
  }

  /** An opening tag followed by more text is still the same match. */
  lemma TagOpenExtends(tag: string, x: string, more: string)
    requires TagOpenLen(tag, x) == |x| > 0
    ensures TagOpenLen(tag, x + more) == |x|
  {
    var t := x + more;
    var k := 1 + |tag|;
    assert t[1..][..|tag|] == x[1..][..|tag|];
    assert StartsWithCi(t[1..], tag);
    var i :| IndexOf(x[k..], '>') == Some(i) && |x| == k + i + 1;
    assert t[k..] == x[k..] + more;
    IndexOfPrefix(x[k..], more, '>', i);
  }

  lemma {:induction false} NoMatchFindsNothing(m: Matcher, s: string, from: nat)
    requires from <= |s|
    requires forall j :: from <= j < |s| ==> Len(m, s[j..]) == 0
    ensures FindFrom(m, s, from) == []
    decreases |s| - from
  {
    if from < |s| {
      NoMatchFindsNothing(m, s, from + 1);
    }
  }

  /** A text in which the pattern never matches is left unchanged, and
      `preg_match_all` finds nothing in it. */
  lemma NoMatchIdentity(pat: Pattern, s: string, repl: string)
    requires forall j :: 0 <= j < |s| ==> MatchLen(pat, s[j..]) == 0
    ensures Replace(pat, s, repl) == s
    ensures FindAll(pat, s) == []
  {
    var m := Of(pat);
    assert forall j :: 0 <= j < |s| ==> Len(m, s[j..]) == MatchLen(pat, s[j..]);
    ReplaceSkip(m, s, 0, |s|, repl);
    NoMatchFindsNothing(m, s, 0);
  }

  /** A replacement no longer than any match never lengthens the text. */
  lemma {:induction false} ReplaceNoLonger(m: Matcher, s: string, from: nat, repl: string)
    requires from <= |s|
    requires forall t :: Len(m, t) > 0 ==> |repl| <= Len(m, t)
    ensures |ReplaceFrom(m, s, from, repl)| <= |s| - from
    decreases |s| - from
  {
    if from < |s| {
      var n := Len(m, s[from..]);
      if n > 0 {
        ReplaceNoLonger(m, s, from + n, repl);
      } else {
        ReplaceNoLonger(m, s, from + 1, repl);
      }
    }
  }

  /** `str_replace` of a needle by a text no longer than it never lengthens
      the haystack. */
  lemma LiteralReplaceNoLonger(x: string, s: string, y: string)
    requires |y| <= |x|
    ensures |Replace(Literal(x), s, y)| <= |s|
  {
    forall t | Len(Of(Literal(x)), t) > 0 ensures |y| <= Len(Of(Literal(x)), t) {
      LenOf(Literal(x), t);
    }
    ReplaceNoLonger(Of(Literal(x)), s, 0, y);
  }

  /** Deleting every match never lengthens the text. */
  lemma DeleteNoLonger(pat: Pattern, s: string)
    ensures |Replace(pat, s, "")| <= |s|
  {
    ReplaceNoLonger(Of(pat), s, 0, "");
  }

  /** `str_replace` with a one-character needle is `implode` of `explode`. */
  lemma ReplaceCharIsJoinSplit(c: char, s: string, glue: string)
    ensures Replace(Literal([c]), s, glue) == Join(Split(s, c), glue)
  {
    var m := Of(Literal([c]));
    forall t ensures Len(m, t) == (if t != [] && t[0] == c then 1 else 0) {
      CharMatch(c, t);
    }
    ReplaceCharFrom(m, c, s, 0, glue);
    assert s[0..] == s;
  }

  /** `m` matches the one character `c` and nothing else. */
  ghost predicate MatchesChar(m: Matcher, c: char) {
    forall t :: Len(m, t) == (if t != [] && t[0] == c then 1 else 0)
  }

  lemma {:induction false} ReplaceCharFrom(m: Matcher, c: char, s: string, from: nat, glue: string)
    requires MatchesChar(m, c) && from <= |s|
    ensures ReplaceFrom(m, s, from, glue) == Join(Split(s[from..], c), glue)
    decreases |s| - from
  {
    var found := IndexOf(s[from..], c);
    if found.None? {
      ReplaceCharAbsent(m, c, s, from, glue);
    } else {
      var i := found.value;
      var next := from + i + 1;
      assert next <= |s|;
      ReplaceCharFrom(m, c, s, next, glue);
      NoCharBefore(m, c, s, from, i);
      CharFound(m, c, s, from, i);
      ReplaceCharFirst(m, c, s, from, i, next, glue);
    }
  }

  /** Without the needle character the rest is copied. */
  lemma ReplaceCharAbsent(m: Matcher, c: char, s: string, from: nat, glue: string)
    requires MatchesChar(m, c) && from <= |s| && IndexOf(s[from..], c).None?
    ensures ReplaceFrom(m, s, from, glue) == Join(Split(s[from..], c), glue)
  {
    var t := s[from..];
    forall j | from <= j < |s| ensures Len(m, s[j..]) == 0 {
      assert s[j..][0] == t[j - from];
    }
    ReplaceSkip(m, s, from, |s|, glue);
    assert ReplaceFrom(m, s, |s|, glue) == [];
    assert Split(t, c) == [t];
  }

  /** Up to the first needle character the text is copied, the character
      becomes the glue, and the rest is handled the same way. */
  lemma ReplaceCharFirst(m: Matcher, c: char, s: string, from: nat, i: nat, next: nat, glue: string)
    requires from <= |s| && IndexOf(s[from..], c) == Some(i) && next == from + i + 1
    requires forall j :: from <= j < from + i ==> Len(m, s[j..]) == 0
    requires Len(m, s[from + i..]) == 1
    requires ReplaceFrom(m, s, next, glue) == Join(Split(s[next..], c), glue)
    ensures ReplaceFrom(m, s, from, glue) == Join(Split(s[from..], c), glue)
  {
    CopyThenReplace(m, s, from, from + i, next, glue);
    ReplaceAtFirst(m, c, s, from, i, next, glue);
  }

  /** One scanner step at the first needle character, for any matcher. */
  lemma ReplaceAtFirst(m: Matcher, c: char, s: string, from: nat, i: nat, next: nat, glue: string)
    requires from <= |s| && IndexOf(s[from..], c) == Some(i) && next == from + i + 1
    requires ReplaceFrom(m, s, from, glue) == s[from..from + i] + (glue + ReplaceFrom(m, s, next, glue))
    requires ReplaceFrom(m, s, next, glue) == Join(Split(s[next..], c), glue)
    ensures ReplaceFrom(m, s, from, glue) == Join(Split(s[from..], c), glue)
  {
    var r1 := ReplaceFrom(m, s, next, glue);
    SplitAtFirstOf(c, s, from, i, next, glue, r1);
    SameAs(ReplaceFrom(m, s, from, glue), Join(Split(s[from..], c), glue), s[from..from + i] + (glue + r1));
  }

  /** `SplitAtFirst` for the text from a position on. */
  lemma SplitAtFirstOf(c: char, s: string, from: nat, i: nat, next: nat, glue: string, r1: string)
    requires from <= |s| && IndexOf(s[from..], c) == Some(i) && next == from + i + 1
    requires Join(Split(s[next..], c), glue) == r1
    ensures Join(Split(s[from..], c), glue) == s[from..from + i] + (glue + r1)
  {
    var t := s[from..];
    assert t[i + 1..] == s[next..];
    assert t[..i] == s[from..from + i];
    SplitAtFirst(c, t, i, glue, r1);
  }

  lemma SameAs(x: string, y: string, z: string)
    requires x == z && y == z
    ensures x == y
  {
  }

  /** A stretch without a match followed by a one-character match. */
  lemma CopyThenReplace(m: Matcher, s: string, a: nat, b: nat, next: nat, glue: string)
    requires a <= b < |s| && next == b + 1
    requires forall j :: a <= j < b ==> Len(m, s[j..]) == 0
    requires Len(m, s[b..]) == 1
    ensures ReplaceFrom(m, s, a, glue) == s[a..b] + (glue + ReplaceFrom(m, s, next, glue))
  {
    ReplaceSkip(m, s, a, b, glue);
    ReplaceStep(m, s, b, glue);
  }

  /** At the first needle character the needle matches. */
  lemma CharFound(m: Matcher, c: char, s: string, from: nat, i: nat)
    requires MatchesChar(m, c) && from <= |s| && IndexOf(s[from..], c) == Some(i)
    ensures Len(m, s[from + i..]) == 1
  {
    assert s[from + i..][0] == s[from..][i];
  }

  /** Before the first needle character the needle matches nowhere. */
  lemma NoCharBefore(m: Matcher, c: char, s: string, from: nat, i: nat)
    requires MatchesChar(m, c) && from <= |s| && IndexOf(s[from..], c) == Some(i)
    ensures forall j :: from <= j < from + i ==> Len(m, s[j..]) == 0
  {
    var t := s[from..];
    forall j | from <= j < from + i ensures Len(m, s[j..]) == 0 {
      assert s[j..][0] == t[..i][j - from];
    }
  }

  /** `implode` of `explode` at the first needle character. */
  lemma SplitAtFirst(c: char, t: string, i: nat, glue: string, r1: string)
    requires IndexOf(t, c) == Some(i)
    requires Join(Split(t[i + 1..], c), glue) == r1
    ensures Join(Split(t, c), glue) == t[..i] + (glue + r1)
  {
    var tail := Split(t[i + 1..], c);
    assert Split(t, c) == [t[..i]] + tail;
    JoinCons(t[..i], tail, glue);
    ConcatAssoc(t[..i], glue, r1);
  }

  lemma ConcatAssoc(a: string, b: string, c: string)
    ensures a + b + c == a + (b + c)
  {
  }

  lemma CharStep(c: char, s: string, k: nat, glue: string)
    requires k < |s| && s[k] == c
    ensures ReplaceFrom(Of(Literal([c])), s, k, glue) == glue + ReplaceFrom(Of(Literal([c])), s, k + 1, glue)
  {
    var m := Of(Literal([c]));
    assert s[k..][0] == c;
    CharMatch(c, s[k..]);
    assert Len(m, s[k..]) == 1;
    ReplaceStep(m, s, k, glue);
  }

  /** A one-character needle matches exactly where that character is. */
  lemma CharMatch(c: char, t: string)
    ensures Len(Of(Literal([c])), t) == (if t != [] && t[0] == c then 1 else 0)
  {
    if t != [] {
      assert t[..1] == [t[0]];
    }
  }

  // ---------------------------------------------------------------------
  // Runs: an independent description of what a run pattern does.

  /** A text cut into maximal runs of units and single other characters. */
  datatype Piece = Run(count: nat, text: string) | Other(c: char)

  /** The characters a piece stands for. */
  function PieceText(p: Piece): string {
    match p
    case Run(_, text) => text
    case Other(c) => [c]
  }

  /** The first piece of a non-empty text: the maximal run at its start, or
      its first character when no unit starts there. */
  function FirstPiece(unit: Matcher, t: string): (p: Piece)
    requires t != []
    ensures 0 < |PieceText(p)| <= |t| && PieceText(p) == t[..|PieceText(p)|]
    ensures p.Run? <==> Len(unit, t) > 0
    ensures p.Run? ==> p.count == RunCount(unit, t) && |p.text| == RunLen(unit, t)
  {
    var n := RunLen(unit, t);
    if n > 0 then Run(RunCount(unit, t), t[..n]) else Other(t[0])
  }

  /** Where the piece after the one starting at `from` starts. */
  function Next(unit: Matcher, s: string, from: nat): (n: nat)
    requires from < |s|
    ensures from < n <= |s|
  {
    from + |PieceText(FirstPiece(unit, s[from..]))|
  }

  /** Cuts `s` from `from` on into pieces, taking maximal runs of `unit`. */
  function Pieces(unit: Matcher, s: string, from: nat): seq<Piece>
    requires from <= |s|
    decreases |s| - from
  {
    if from == |s| then []
    else [FirstPiece(unit, s[from..])] + Pieces(unit, s, Next(unit, s, from))
  }

  /** The text of the pieces. */
  function Text(ps: seq<Piece>): string {
    if ps == [] then [] else PieceText(ps[0]) + Text(ps[1..])
  }

  /** Puts the pieces back together, writing `repl` for every run of at
      least `min` units and keeping shorter runs as they were. */
  function Render(ps: seq<Piece>, min: nat, repl: string): string {
    if ps == [] then [] else RenderPiece(ps[0], min, repl) + Render(ps[1..], min, repl)
  }

  function RenderPiece(p: Piece, min: nat, repl: string): string {
    match p
    case Run(count, text) => if count >= min then repl else text
    case Other(c) => [c]
  }

  /** The rendering of the piece that starts at `from`. */
  function Head(unit: Matcher, s: string, from: nat, min: nat, repl: string): string
    requires from < |s|
  {
    RenderPiece(FirstPiece(unit, s[from..]), min, repl)
  }

  /** One step of cutting into pieces. */
  lemma PiecesStep(unit: Matcher, s: string, from: nat)
    requires from < |s|
    ensures Pieces(unit, s, from) == [FirstPiece(unit, s[from..])] + Pieces(unit, s, Next(unit, s, from))
  {
  }

  lemma TextCons(p: Piece, ps: seq<Piece>)
    ensures Text([p] + ps) == PieceText(p) + Text(ps)
  {
    assert ([p] + ps)[1..] == ps;
  }

  lemma RenderCons(p: Piece, ps: seq<Piece>, min: nat, repl: string)
    ensures Render([p] + ps, min, repl) == RenderPiece(p, min, repl) + Render(ps, min, repl)
  {
    assert ([p] + ps)[1..] == ps;
  }

  /** Rendering the pieces from `from` on renders the first piece, then the rest. */
  lemma RenderPiecesStep(unit: Matcher, s: string, from: nat, min: nat, repl: string)
    requires from < |s|
    ensures Render(Pieces(unit, s, from), min, repl)
      == Head(unit, s, from, min, repl) + Render(Pieces(unit, s, Next(unit, s, from)), min, repl)
  {
    PiecesStep(unit, s, from);
    RenderCons(FirstPiece(unit, s[from..]), Pieces(unit, s, Next(unit, s, from)), min, repl);
  }

  /** The text of the pieces from `from` on: the first piece's text, then the rest. */
  lemma TextPiecesStep(unit: Matcher, s: string, from: nat)
    requires from < |s|
    ensures Text(Pieces(unit, s, from)) == s[from..Next(unit, s, from)] + Text(Pieces(unit, s, Next(unit, s, from)))
  {
    var p := FirstPiece(unit, s[from..]);
    PiecesStep(unit, s, from);
    TextCons(p, Pieces(unit, s, Next(unit, s, from)));
    assert s[from..][..|PieceText(p)|] == s[from..Next(unit, s, from)];
  }

  /** Cutting into pieces loses nothing. */
  lemma {:induction false} PiecesCover(unit: Matcher, s: string, from: nat)
    requires from <= |s|
    ensures Text(Pieces(unit, s, from)) == s[from..]
    decreases |s| - from
  {
    if from < |s| {
      PiecesCover(unit, s, Next(unit, s, from));
      TextPiecesStep(unit, s, from);
      SliceSplit(s, from, Next(unit, s, from));
    } else {
      assert Pieces(unit, s, from) == [];
    }
  }

  lemma SliceSplit(s: string, a: nat, b: nat)
    requires a <= b <= |s|
    ensures s[a..] == s[a..b] + s[b..]
  {
  }

  /** No unit starts strictly inside another. */
  predicate NoInnerStart(unit: Matcher, t: string) {
    forall j :: 0 < j < Len(unit, t) ==> Len(unit, t[j..]) == 0
  }

  lemma NbspNoInnerStart(t: string)
    ensures NoInnerStart(Unit(NbspRun), t)
  {
    var n := TokenLen(NbspRun, t);
    forall j | 0 < j < n ensures TokenLen(NbspRun, t[j..]) == 0 {
      assert t[..6] == "&nbsp;";
      assert t[j..][0] == t[j];
    }
  }

  lemma BrNoInnerStart(t: string)
    ensures NoInnerStart(Unit(BrRun), t)
  {
    var n := TokenLen(BrRun, t);
    forall j | 0 < j < n ensures TokenLen(BrRun, t[j..]) == 0 {
      BrInnerChar(t, j);
      assert t[j..][0] == t[j];
    }
  }

  /** Only the first character of a line break is a `<`. */
  lemma BrInnerChar(t: string, j: nat)
    requires 0 < j < BrTokenLen(t)
    ensures t[j] != '<'
  {
    var n := BrTokenLen(t);
    var p: string := if n == 4 then "<br>" else if n == 5 then "<br/>" else "<br />";
    assert StartsWithCi(t, p);
    assert LowerAscii(t[j]) == LowerAscii(p[j]);
    assert p[j] in "br/ >";
  }

  /** Inside a run of `c` units no position starts a run of more than `c`
      units, when units cannot start inside one another. */
  lemma {:induction false} RunInteriorShorter(unit: Matcher, t: string, j: nat)
    requires forall u :: NoInnerStart(unit, u)
    requires j < RunLen(unit, t)
    ensures RunCount(unit, t[j..]) <= RunCount(unit, t)
    decreases |t|
  {
    var m := Len(unit, t);
    if j == 0 {
      assert t[0..] == t;
    } else if j < m {
      assert NoInnerStart(unit, t);
    } else {
      RunInteriorShorter(unit, t[m..], j - m);
      assert t[m..][j - m..] == t[j..];
    }
  }

  /** A run pattern, described piece by piece: a maximal run of at least
      `min` units becomes `repl`, a shorter run and every other character are
      kept. Short runs can only be kept whole when units cannot start inside
      one another; with `min` = 1 there are no short runs. */
  lemma {:induction false} RunReplaceByPieces(unit: Matcher, m: Matcher, s: string, from: nat, min: nat, repl: string)
    requires from <= |s|
    requires min >= 1
    requires forall j {:trigger Len(m, s[j..])} :: from <= j < |s| ==> Len(m, s[j..]) == RunMatchLen(unit, min, s[j..])
    requires min == 1 || forall u :: NoInnerStart(unit, u)
    ensures ReplaceFrom(m, s, from, repl) == Render(Pieces(unit, s, from), min, repl)
    decreases |s| - from
  {
    if from < |s| {
      RunReplaceByPieces(unit, m, s, Next(unit, s, from), min, repl);
      RunStep(unit, m, s, from, min, repl);
      RenderPiecesStep(unit, s, from, min, repl);
    } else {
      assert Pieces(unit, s, from) == [];
    }
  }

  /** One step of the scanner on a run pattern renders one piece. */
  lemma RunStep(unit: Matcher, m: Matcher, s: string, from: nat, min: nat, repl: string)
    requires from < |s|
    requires min >= 1
    requires forall j {:trigger Len(m, s[j..])} :: from <= j < |s| ==> Len(m, s[j..]) == RunMatchLen(unit, min, s[j..])
    requires min == 1 || forall u :: NoInnerStart(unit, u)
    ensures ReplaceFrom(m, s, from, repl) == Head(unit, s, from, min, repl) + ReplaceFrom(m, s, Next(unit, s, from), repl)
  {
    var t := s[from..];
    var p := FirstPiece(unit, t);
    if p.Run? && p.count < min {
      ShortRunUnmatched(unit, m, s, from, min);
      ShortRunKept(unit, m, s, from, min, repl);
    } else {
      assert Len(m, t) == (if p.Other? then 0 else Next(unit, s, from) - from);
      MatchedOrCopied(unit, m, s, from, min, repl);
    }
  }

  /** Outside short runs the scanner either replaces a whole run or copies
      one character. */
  lemma MatchedOrCopied(unit: Matcher, m: Matcher, s: string, from: nat, min: nat, repl: string)
    requires from < |s|
    requires var p := FirstPiece(unit, s[from..]); p.Other? || p.count >= min
    requires Len(m, s[from..]) == (if FirstPiece(unit, s[from..]).Other? then 0 else Next(unit, s, from) - from)
    ensures ReplaceFrom(m, s, from, repl) == Head(unit, s, from, min, repl) + ReplaceFrom(m, s, Next(unit, s, from), repl)
  {
    if FirstPiece(unit, s[from..]).Other? {
      assert Head(unit, s, from, min, repl) == [s[from]];
      assert Next(unit, s, from) == from + 1;
    } else {
      assert Head(unit, s, from, min, repl) == repl;
      assert Next(unit, s, from) == from + Len(m, s[from..]);
    }
    ReplaceStep(m, s, from, repl);
  }

  /** A run shorter than `min` is copied as it is. */
  lemma ShortRunKept(unit: Matcher, m: Matcher, s: string, from: nat, min: nat, repl: string)
    requires from < |s|
    requires var p := FirstPiece(unit, s[from..]); p.Run? && p.count < min
    requires forall j :: from <= j < Next(unit, s, from) ==> Len(m, s[j..]) == 0
    ensures ReplaceFrom(m, s, from, repl) == Head(unit, s, from, min, repl) + ReplaceFrom(m, s, Next(unit, s, from), repl)
  {
    var next := Next(unit, s, from);
    ReplaceSkip(m, s, from, next, repl);
    assert s[from..next] == s[from..][..next - from];
  }

  /** No match starts inside a run that is too short. */
  lemma ShortRunUnmatched(unit: Matcher, m: Matcher, s: string, from: nat, min: nat)
    requires from < |s|
    requires forall j {:trigger Len(m, s[j..])} :: from <= j < |s| ==> Len(m, s[j..]) == RunMatchLen(unit, min, s[j..])
    requires forall u :: NoInnerStart(unit, u)
    requires 0 < RunCount(unit, s[from..]) < min
    ensures forall j :: from <= j < Next(unit, s, from) ==> Len(m, s[j..]) == 0
  {
    var t := s[from..];
    var next := Next(unit, s, from);
    assert next - from == RunLen(unit, t);
    forall j | from <= j < next
      ensures Len(m, s[j..]) == 0
    {
      InteriorNotMatched(unit, t, j - from, min);
      assert t[j - from..] == s[j..];
    }
  }

  /** No match of the run pattern starts inside a run that is too short. */
  lemma InteriorNotMatched(unit: Matcher, t: string, k: nat, min: nat)
    requires forall u :: NoInnerStart(unit, u)
    requires RunCount(unit, t) < min
    requires k < RunLen(unit, t)
    ensures RunMatchLen(unit, min, t[k..]) == 0
  {
    RunInteriorShorter(unit, t, k);
  }

  /** Replacing a needle by itself changes nothing. */
  lemma ReplaceSelf(x: string, s: string)
    ensures Replace(Literal(x), s, x) == s
  {
    ReplaceSelfFrom(x, s, 0);
  }

  lemma {:induction false} ReplaceSelfFrom(x: string, s: string, from: nat)
    requires from <= |s|
    ensures ReplaceFrom(Of(Literal(x)), s, from, x) == s[from..]
    decreases |s| - from
  {
    if from < |s| {
      if Len(Of(Literal(x)), s[from..]) > 0 {
        var e := from + Len(Of(Literal(x)), s[from..]);
        ReplaceSelfFrom(x, s, e);
        NeedleText(x, s, from, e);
        MatchedKeepsText(Of(Literal(x)), s, from, e, x);
      } else {
        ReplaceSelfFrom(x, s, from + 1);
        SelfCopied(x, s, from);
      }
    }
  }

  /** The text of an occurrence of `x` is `x`. */
  lemma NeedleText(x: string, s: string, from: nat, e: nat)
    requires from < |s| && Len(Of(Literal(x)), s[from..]) > 0
    requires e == from + Len(Of(Literal(x)), s[from..])
    ensures e <= |s| && s[from..e] == x
  {
    assert StartsWith(s[from..], x);
    assert s[from..][..|x|] == s[from..e];
  }

  lemma SelfCopied(x: string, s: string, from: nat)
    requires from < |s| && Len(Of(Literal(x)), s[from..]) == 0
    requires ReplaceFrom(Of(Literal(x)), s, from + 1, x) == s[from + 1..]
    ensures ReplaceFrom(Of(Literal(x)), s, from, x) == s[from..]
  {
    ReplaceStep(Of(Literal(x)), s, from, x);
    SliceCons(s, from, |s|);
  }

  /** A match, ending at `e`, whose text already is `repl` comes out
      unchanged. */
  lemma MatchedKeepsText(m: Matcher, s: string, from: nat, e: nat, repl: string)
    requires from < |s| && Len(m, s[from..]) > 0 && e == from + Len(m, s[from..])
    requires s[from..e] == repl
    requires ReplaceFrom(m, s, e, repl) == s[e..]
    ensures ReplaceFrom(m, s, from, repl) == s[from..]
  {
    ReplaceStep(m, s, from, repl);
    SliceSplit(s, from, e);
  }

  /** A text that is one whole match is replaced by `repl`. */
  lemma WholeMatchReplaced(pat: Pattern, t: string, repl: string)
    requires t != [] && MatchLen(pat, t) == |t|
    ensures Replace(pat, t, repl) == repl
  {
    assert t[0..] == t;
    assert Len(Of(pat), t[0..]) == |t|;
    ReplaceStep(Of(pat), t, 0, repl);
  }

  /** One step of the replace scanner. */
  lemma ReplaceStep(m: Matcher, s: string, from: nat, repl: string)
    requires from < |s|
    ensures Len(m, s[from..]) > 0 ==> ReplaceFrom(m, s, from, repl) == repl + ReplaceFrom(m, s, from + Len(m, s[from..]), repl)
    ensures Len(m, s[from..]) == 0 ==> ReplaceFrom(m, s, from, repl) == [s[from]] + ReplaceFrom(m, s, from + 1, repl)
  {
  }

  /** The whole-text form for the three run patterns of the clean-up. */
  lemma RunReplaceIsRender(k: RunKind, s: string, min: nat, repl: string)
    requires min >= 1
    requires k != EmptyParagraphRun || min == 1
    ensures Replace(TokenRun(k, min), s, repl) == Render(Pieces(Unit(k), s, 0), min, repl)
  {
    if k == NbspRun {
      forall u ensures NoInnerStart(Unit(k), u) { NbspNoInnerStart(u); }
    } else if k == BrRun {
      forall u ensures NoInnerStart(Unit(k), u) { BrNoInnerStart(u); }
    }
    RunReplaceByPieces(Unit(k), Of(TokenRun(k, min)), s, 0, min, repl);
  }
}

=== FILE: php_strings.dfy ===
/** The PHP string primitives the importer relies on, with PHP's edge cases:
    truthiness of strings, `trim`, `explode`/`implode`, `strrpos`, `dirname`
    and Drupal's `FileSystem::basename`. */
module PhpStrings {
  import opened Wrappers

  /** PHP truthiness of a string: both "" and "0" are false. */
  predicate Truthy(s: string) {
    s != "" && s != "0"
  }

  /** The characters PHP's `trim` removes by default. */
  predicate IsTrimChar(c: char) {
    c == ' ' || c == '\t' || c == '\n' || c == '\r' || c == '\0' || c == '\U{000B}'
  }

  /** ASCII lower-casing, as PCRE's case-insensitive matching applies it. */
  function LowerAscii(c: char): char {
    if 'A' <= c <= 'Z' then (c as int + 32) as char else c
  }

  /** `t` starts with `p`, compared case-sensitively. */
  predicate StartsWith(t: string, p: string) {
    |p| <= |t| && t[..|p|] == p
  }

  /** `t` starts with `p`, ignoring ASCII case on both sides. */
  predicate StartsWithCi(t: string, p: string) {
    |p| <= |t| && forall i :: 0 <= i < |p| ==> LowerAscii(t[i]) == LowerAscii(p[i])
  }

  /** `t` has `p` as a substring. */
  predicate Contains(t: string, p: string) {
    exists i :: 0 <= i <= |t| - |p| && StartsWith(t[i..], p)
  }

  /** First position of `c` in `s`, like `strpos` with a one-character needle. */
  function IndexOf(s: string, c: char): (r: Option<nat>)
    ensures r.Some? ==> r.value < |s| && s[r.value] == c && c !in s[..r.value]
    ensures r.None? <==> c !in s
  {
    if s == [] then None
    else if s[0] == c then Some(0)
    else match IndexOf(s[1..], c)
      case None => None
      case Some(i) =>
        assert s[..i + 1] == [s[0]] + s[1..][..i];
        Some(i + 1)
  }

  /** `c` at `i` with no `c` before it is the first `c`. */
  lemma IndexOfAt(s: string, c: char, i: nat)
    requires i < |s| && s[i] == c
    requires forall j :: 0 <= j < i ==> s[j] != c
    ensures IndexOf(s, c) == Some(i)
  {
    assert s[i] in s;
    forall j | i < j <= |s| ensures c in s[..j] {
      assert s[..j][i] == c;
    }
  }

  /** Last position of `c` in `s`, like `strrpos` with a one-character needle. */
  function LastIndexOf(s: string, c: char): (r: Option<nat>)
    ensures r.Some? ==> r.value < |s| && s[r.value] == c && c !in s[r.value + 1..]
    ensures r.None? <==> c !in s
  {
    if s == [] then None
    else if s[|s| - 1] == c then Some(|s| - 1)
    else
      var r := LastIndexOf(s[..|s| - 1], c);
      assert s == s[..|s| - 1] + [s[|s| - 1]];
      r
  }

  /** `c` at `i` with no `c` after it is the last `c`. */
  lemma LastIndexOfAt(s: string, c: char, i: nat)
    requires i < |s| && s[i] == c
    requires forall j :: i < j < |s| ==> s[j] != c
    ensures LastIndexOf(s, c) == Some(i)
  {
    assert s[i] in s;
    forall m | 0 < m <= i ensures c in s[m..] {
      assert s[m..][i - m] == c;
    }
  }

  /** PHP's `ltrim` with the default character list. */
  function TrimLeft(s: string): (r: string)
    ensures |r| <= |s| && r == s[|s| - |r|..]
    ensures r == [] || !IsTrimChar(r[0])
    ensures forall i :: 0 <= i < |s| - |r| ==> IsTrimChar(s[i])
  {
    if s == [] || !IsTrimChar(s[0]) then s else TrimLeft(s[1..])
  }

  /** PHP's `rtrim` with the default character list. */
  function TrimRight(s: string): (r: string)
    ensures |r| <= |s| && r == s[..|r|]
    ensures r == [] || !IsTrimChar(r[|r| - 1])
    ensures forall i :: |r| <= i < |s| ==> IsTrimChar(s[i])
  {
    if s == [] || !IsTrimChar(s[|s| - 1]) then s else TrimRight(s[..|s| - 1])
  }

  /** PHP's `trim` with the default character list. */
  function Trim(s: string): (r: string)
    ensures |r| <= |s|
    ensures r == [] || (!IsTrimChar(r[0]) && !IsTrimChar(r[|r| - 1]))
    ensures (forall i :: 0 <= i < |s| ==> !IsTrimChar(s[i])) ==> r == s
  {
    TrimRight(TrimLeft(s))
  }

  /** Trimming brings in no character. */
  lemma TrimKeepsChars(s: string)
    ensures forall d :: d in Trim(s) ==> d in s
  {
    var l := TrimLeft(s);
    var r := TrimRight(l);
    var k := |s| - |l|;
    assert r == l[..|r|];
    assert l == s[k..];
    forall i | 0 <= i < |r| ensures r[i] in s {
      assert r[i] == s[k + i];
    }
  }

  /** Trimming a string made only of trim characters leaves nothing, and
      trimming leaves nothing only for such a string. */
  lemma TrimEmpty(s: string)
    ensures Trim(s) == [] <==> forall i :: 0 <= i < |s| ==> IsTrimChar(s[i])
  {
    var l := TrimLeft(s);
    if Trim(s) == [] {
      assert l == [];
    }
  }

  /** The first `c` of a text is still the first once more text follows. */
  lemma IndexOfPrefix(s: string, more: string, c: char, i: nat)
    requires IndexOf(s, c) == Some(i)
    ensures IndexOf(s + more, c) == Some(i)
  {
    var r := IndexOf(s + more, c);
    assert (s + more)[i] == c;
    assert r.Some?;
    assert (s + more)[..i] == s[..i];
    assert forall k :: 0 <= k < i ==> s[k] == s[..i][k];
  }

  /** A `c` right after a stretch without one is the first. */
  lemma IndexOfAfter(v: string, c: char, rest: string)
    requires c !in v
    ensures IndexOf(v + [c] + rest, c) == Some(|v|)
  {
    var s := v + [c] + rest;
    var r := IndexOf(s, c);
    assert s[|v|] == c;
    assert forall k :: 0 <= k < |v| ==> s[k] == v[k];
  }

  /** PHP's `explode` with a one-character delimiter: always at least one
      part, and no part contains the delimiter. */
  function Split(s: string, c: char): (parts: seq<string>)
    ensures |parts| >= 1
    ensures forall i :: 0 <= i < |parts| ==> c !in parts[i]
    decreases |s|
  {
    match IndexOf(s, c)
    case None => [s]
    case Some(i) => [s[..i]] + Split(s[i + 1..], c)
  }

  /** PHP's `implode`: the parts with `glue` between neighbours. */
  function Join(parts: seq<string>, glue: string): string
  {
    if |parts| == 0 then ""
    else if |parts| == 1 then parts[0]
    else parts[0] + glue + Join(parts[1..], glue)
  }

  /** `implode` undoes `explode`. */
  lemma {:induction false} JoinSplit(s: string, c: char)
    ensures Join(Split(s, c), [c]) == s
    decreases |s|
  {
    match IndexOf(s, c)
    case None =>
    case Some(i) =>
      var rest := s[i + 1..];
      var tail := Split(rest, c);
      assert Join(tail, [c]) == rest by { JoinSplit(rest, c); }
      assert Split(s, c) == [s[..i]] + tail;
      JoinCons(s[..i], tail, [c]);
      assert s == s[..i] + [c] + rest by { assert s[i] == c; }
  }

  /** `implode` of a list with at least two parts. */
  lemma JoinCons(x: string, tail: seq<string>, glue: string)
    requires |tail| >= 1
    ensures Join([x] + tail, glue) == x + glue + Join(tail, glue)
  {
    assert ([x] + tail)[1..] == tail;
  }

  /** `explode` undoes `implode` when no part contains the delimiter. */
  lemma {:induction false} SplitJoin(parts: seq<string>, c: char)
    requires |parts| >= 1
    requires forall i :: 0 <= i < |parts| ==> c !in parts[i]
    ensures Split(Join(parts, [c]), c) == parts
  {
    if |parts| > 1 {
      var tail := Join(parts[1..], [c]);
      var s := parts[0] + [c] + tail;
      SplitJoin(parts[1..], c);
      var k := IndexOf(s, c);
      assert s[|parts[0]|] == c;
      assert k == Some(|parts[0]|) by {
        assert s[..|parts[0]|] == parts[0];
      }
      assert s[..|parts[0]|] == parts[0];
      assert s[|parts[0]| + 1..] == tail;
      assert parts == [parts[0]] + parts[1..];
    }
  }

  /** The prefix of `s` without its trailing slashes. */
  function StripTrailingSlashes(s: string): (r: string)
    ensures |r| <= |s| && r == s[..|r|]
    ensures r == [] || r[|r| - 1] != '/'
    ensures forall i :: |r| <= i < |s| ==> s[i] == '/'
  {
    if s == [] || s[|s| - 1] != '/' then s else StripTrailingSlashes(s[..|s| - 1])
  }

  /** The prefix of `s` up to and including its last slash. */
  function StripLastComponent(s: string): (r: string)
    ensures |r| <= |s| && r == s[..|r|]
    ensures r == [] || r[|r| - 1] == '/'
    ensures forall i :: |r| <= i < |s| ==> s[i] != '/'
  {
    if s == [] || s[|s| - 1] == '/' then s else StripLastComponent(s[..|s| - 1])
  }

  /** PHP's `dirname` on a POSIX path: "" for "", "." when there is no slash,
      "/" when only the root remains, otherwise the path without its last
      component and the slashes before it. */
  function PhpDirname(path: string): string
  {
    if path == [] then []
    else
      var a := StripTrailingSlashes(path);
      if a == [] then "/"
      else
        var b := StripLastComponent(a);
        if b == [] then "."
        else
          var d := StripTrailingSlashes(b);
          if d == [] then "/" else d
  }

  /** Drupal's `FileSystem::basename`: trailing slashes dropped, then the
      text after the last slash. */
  function DrupalBasename(uri: string): (r: string)
    ensures '/' !in r
  {
    var a := StripTrailingSlashes(uri);
    match LastIndexOf(a, '/')
    case None => a
    case Some(i) => a[i + 1..]
  }

  /** Joining a directory and a file name with "/" and taking `dirname`
      gives the directory back. */
  lemma DirnameOfJoin(dir: string, file: string)
    requires dir != [] && dir[|dir| - 1] != '/'
    requires file != [] && '/' !in file
    ensures PhpDirname(dir + "/" + file) == dir
  {
    var p := dir + "/" + file;
    assert p[|p| - 1] == file[|file| - 1];
    var a := StripTrailingSlashes(p);
    assert a == p;
    var b := StripLastComponent(a);
    forall j | |dir| < j < |p| ensures p[j] != '/' {
      assert p[j] == file[j - |dir| - 1];
    }
    assert p[|dir|] == '/';
    assert |b| == |dir| + 1;
    assert b == dir + "/";
    var d := StripTrailingSlashes(b);
    assert b[..|dir|] == dir;
    assert d == dir;
  }

  /** Joining a directory and a file name with "/" and taking the basename
      gives the file name back. */
  lemma BasenameOfJoin(dir: string, file: string)
    requires file != [] && '/' !in file
    ensures DrupalBasename(dir + "/" + file) == file
  {
    var p := dir + "/" + file;
    assert p[|p| - 1] == file[|file| - 1];
    assert StripTrailingSlashes(p) == p;
    var k := LastIndexOf(p, '/');
    forall j | |dir| < j < |p| ensures p[j] != '/' {
      assert p[j] == file[j - |dir| - 1];
    }
    assert p[|dir|] == '/';
    assert k == Some(|dir|);
    assert p[|dir| + 1..] == file;
  }
}

=== FILE: reconciler.dfy ===
/** The reconciliation of one meeting's parts with the content store:
    committees and locations upserted by ESDH id, the agenda document and
    enclosure files, bullet points and their attachments created or updated
    in place. Every step is a store transformer; a save that throws is an
    `Env.nodeSaveOk` that answers false, and the step goes on without the
    item. */
module Reconciler {
  import opened Wrappers
  import opened PhpStrings
  import opened Settings
  import opened Canonical
  import opened ContentStore
  import opened Entities
  import opened Environment
  import opened Patterns
  import opened HtmlCleanup
  import opened ManagedFiles

  /** A store and the reference targets a step returns, in order. */
  datatype Outcome = Outcome(store: Store, targets: seq<nat>)

  /** A store and the one term reference a term upsert returns. */
  datatype TermOutcome = TermOutcome(store: Store, tid: nat)

  /** Whether a sub-record is imported: everything is when closed content is
      imported, otherwise only what is open (absent access means open). */
  predicate Admitted(cfg: Config, access: Option<bool>)
    ensures access != Some(false) ==> Admitted(cfg, access)
    ensures access == Some(false) ==> (Admitted(cfg, access) <==> cfg.importClosedAgenda)
  {
    cfg.importClosedAgenda || EffectiveAccess(access)
  }

  /** Every file operation goes through. */
  ghost predicate FileOpsSucceed(env: Env) {
    && (forall u, v :: env.copyFile(u, v))
    && (forall u :: env.registerFile(u))
  }

  /** Every node save goes through. */
  ghost predicate SavesSucceed(env: Env) {
    forall n :: env.nodeSaveOk(n)
  }

  // ---------------------------------------------------------------------
  // Store growth.

  lemma GrowsReflexive(s: Store)
    ensures Grows(s, s)
  {
  }

  lemma AddNodeGrows(s: Store, n: Node)
    ensures Grows(s, AddNode(s, n))
  {
  }

  /** Overwriting a node with one of the same type and ESDH id, not a meeting. */
  lemma PutNodeGrows(s: Store, nid: nat, n: Node)
    requires nid < |s.nodes| && s.nodes[nid].bundle == n.bundle && s.nodes[nid].esdhId == n.esdhId
    requires n.bundle != MeetingType
    ensures Grows(s, PutNode(s, nid, n))
  {
  }

  lemma FilesAddedGrows(s: Store, s': Store)
    requires OnlyFilesAdded(s, s')
    ensures Grows(s, s')
  {
  }

  // ---------------------------------------------------------------------
  // Committees and locations.

  /** `processCommittee` / `processLocation`: the first term of the
      vocabulary with this ESDH id gets the record's name; without one a new
      term is created. Either way the record's term is stored under the
      returned ID. */
  function UpsertTerm(s: Store, kind: Kind, rec: TermRecord): (r: TermOutcome)
    requires !kind.IsNodeKind()
    ensures r.tid < |r.store.terms| && r.store.terms[r.tid] == Term(kind.TypeName(), rec.id, rec.name)
    ensures r.store.nodes == s.nodes && r.store.files == s.files
    ensures |s.terms| <= |r.store.terms|
    ensures forall i :: 0 <= i < |s.terms| && i != r.tid ==> r.store.terms[i] == s.terms[i]
    ensures LoadByEsdhId(s, kind, rec.id).Some? ==>
      && r.tid == LoadByEsdhId(s, kind, rec.id).value.tid
      && |r.store.terms| == |s.terms|
      && r.store.terms[r.tid] == s.terms[r.tid].(name := rec.name)
    ensures LoadByEsdhId(s, kind, rec.id).None? ==>
      r.store.terms == s.terms + [Term(kind.TypeName(), rec.id, rec.name)] && r.tid == |s.terms|
  {
    match LoadByEsdhId(s, kind, rec.id)
    case Some(w) =>
      var renamed := w.(term := w.term.(name := rec.name));
      TermOutcome(Save(s, renamed), w.tid)
    case None =>
      TermOutcome(AddTerm(s, Term(kind.TypeName(), rec.id, rec.name)), |s.terms|)
  }

  /** After an upsert the term is what a lookup by the record's ESDH id
      finds, under the returned ID and with the record's name. */
  lemma {:induction false} UpsertTermLoads(s: Store, kind: Kind, rec: TermRecord)
    requires !kind.IsNodeKind()
    ensures var r := UpsertTerm(s, kind, rec);
      LoadByEsdhId(r.store, kind, rec.id) == Some(TermWrapper(kind, r.tid, Term(kind.TypeName(), rec.id, rec.name)))
  {
    var first := UpsertTerm(s, kind, rec);
    var t := first.store.terms;
    var again := LoadByEsdhId(first.store, kind, rec.id);
    assert t[first.tid].vid == kind.TypeName() && t[first.tid].esdhId == rec.id;
    forall j | 0 <= j < first.tid
      ensures !(t[j].vid == kind.TypeName() && t[j].esdhId == rec.id)
    {
      assert t[j] == s.terms[j];
    }
    assert again.Some? && again.value.tid == first.tid;
  }

  /** Upserting the same record twice is upserting it once: the second call
      finds the term the first one wrote and changes nothing. */
  lemma UpsertTermIdempotent(s: Store, kind: Kind, rec: TermRecord)
    requires !kind.IsNodeKind()
    ensures UpsertTerm(UpsertTerm(s, kind, rec).store, kind, rec) == UpsertTerm(s, kind, rec)
  {
    var first := UpsertTerm(s, kind, rec);
    UpsertTermLoads(s, kind, rec);
    assert first.store.terms[first.tid := Term(kind.TypeName(), rec.id, rec.name)] == first.store.terms;
  }

  /** Whatever name a committee had, an upsert with an id that is already
      stored adds no term: a committee is never duplicated by a rename. */
  lemma RenameAddsNoTerm(s: Store, kind: Kind, rec: TermRecord, i: nat)
    requires !kind.IsNodeKind() && i < |s.terms|
    requires s.terms[i].vid == kind.TypeName() && s.terms[i].esdhId == rec.id
    ensures |UpsertTerm(s, kind, rec).store.terms| == |s.terms|
    ensures UpsertTerm(s, kind, rec).tid <= i
  {
  }

  // ---------------------------------------------------------------------
  // Agenda document and enclosures.

  /** `processAgendaDocument`: the managed file of the document, one target
      when there is one. In copy mode the document is copied next to itself
      under a name made from its title, and the target exists exactly when
      that copy goes through; otherwise the document is registered as a new
      managed file under its own name, and the target exists exactly when
      the registration goes through. Only files are ever added. */
  function ProcessAgendaDocument(env: Env, cfg: Config, s: Store, doc: AgendaDocument, dir: string): (r: Outcome)
    ensures |r.targets| <= 1 && OnlyFilesAdded(s, r.store)
    ensures r.targets == [] ==> r.store == s
    ensures r.targets != [] ==> r.targets[0] <= |s.files| && r.targets[0] < |r.store.files|
    ensures cfg.createFilesCopy ==>
      && (r.targets != [] <==> env.copyFile(dir + "/" + doc.uri, CopyUri(dir + "/" + doc.uri, doc.title)))
      && (r.targets != [] ==> r.store.files[r.targets[0]].uri == CopyUri(dir + "/" + doc.uri, doc.title))
    ensures !cfg.createFilesCopy ==>
      && (r.targets != [] <==> env.registerFile(dir + "/" + doc.uri))
      && (r.targets != [] ==>
            && r.targets == [|s.files|]
            && r.store.files == s.files + [ManagedFile(dir + "/" + doc.uri, DrupalBasename(dir + "/" + doc.uri))])
  {
    var fo := CreateFileCopyAsManaged(env, cfg, s, dir + "/" + doc.uri, doc.title);
    match fo.file
    case Some(fid) => Outcome(fo.store, [fid])
    case None => Outcome(s, [])
  }

  /** In copy mode importing the same agenda document again changes nothing
      and names the same file. */
  lemma AgendaDocumentIdempotent(env: Env, cfg: Config, s: Store, doc: AgendaDocument, dir: string)
    requires cfg.createFilesCopy
    ensures var first := ProcessAgendaDocument(env, cfg, s, doc, dir);
      ProcessAgendaDocument(env, cfg, first.store, doc, dir) == first
  {
    CopyModeIsIdempotent(env, cfg, s, dir + "/" + doc.uri, doc.title);
  }

  /** A store and the enclosure items a step returns. */
  datatype EnclosureOutcome = EnclosureOutcome(store: Store, items: seq<EnclosureItem>)

  /** An enclosure that gets a file when nothing fails: admitted, with a path. */
  predicate EnclosureKept(cfg: Config, e: EnclosureRecord) {
    Admitted(cfg, e.access) && Truthy(e.uri)
  }

  /** The title an enclosure contributes when nothing fails: its own when
      it is kept, none otherwise. */
  function KeptTitle(cfg: Config, e: EnclosureRecord): (ts: seq<string>)
    ensures |ts| <= 1
    ensures ts != [] <==> EnclosureKept(cfg, e)
    ensures ts != [] ==> ts[0] == e.title
  {
    if EnclosureKept(cfg, e) then [e.title] else []
  }

  /** The titles of the enclosures that get a file when nothing fails. */
  function KeptTitles(cfg: Config, encs: seq<EnclosureRecord>): seq<string>
    decreases |encs|
  {
    if encs == [] then [] else KeptTitle(cfg, encs[0]) + KeptTitles(cfg, encs[1..])
  }

  /** The descriptions of enclosure items, in order. */
  function Descriptions(items: seq<EnclosureItem>): (ds: seq<string>)
    ensures |ds| == |items|
    ensures forall k :: 0 <= k < |items| ==> ds[k] == items[k].description
  {
    seq(|items|, k requires 0 <= k < |items| => items[k].description)
  }

  /** Every item points at a managed file of the store. */
  predicate FileItems(s: Store, items: seq<EnclosureItem>) {
    forall k :: 0 <= k < |items| ==> items[k].targetId < |s.files|
  }

  /** One enclosure of `processEnclosures`. A closed one is dropped when
      closed content is not imported; with a bullet point given, an
      enclosure of the same description is reused; otherwise its file is
      copied (without a title) and the item is described by its title. */
  function ProcessEnclosure(env: Env, cfg: Config, s: Store, e: EnclosureRecord, dir: string, bp: Option<Node>): (r: EnclosureOutcome)
    ensures |r.items| <= 1 && OnlyFilesAdded(s, r.store)
    ensures !Admitted(cfg, e.access) ==> r == EnclosureOutcome(s, [])
    ensures r.items != [] ==> r.items[0].description == e.title
    ensures bp.None? ==> |r.items| <= |KeptTitle(cfg, e)| && FileItems(r.store, r.items)
    ensures bp.None? && FileOpsSucceed(env) ==> Descriptions(r.items) == KeptTitle(cfg, e)
  {
    if !Admitted(cfg, e.access) then EnclosureOutcome(s, [])
    else
      var reused := if bp.Some? then GetEnclosureByName(bp.value, e.title) else None;
      if reused.Some? then EnclosureOutcome(s, [EnclosureItem(reused.value, e.title)])
      else if !Truthy(e.uri) then EnclosureOutcome(s, [])
      else
        var fo := CreateFileCopyAsManaged(env, cfg, s, dir + "/" + e.uri, "");
        match fo.file
        case Some(fid) => EnclosureOutcome(fo.store, [EnclosureItem(fid, e.title)])
        case None => EnclosureOutcome(fo.store, [])
  }

  /** One enclosure's items followed by the rest's, with the facts the
      enclosure loop keeps (`noBp`: called without a bullet point; `ok`:
      no file operation fails). */
  lemma EnclosuresStep(s1: Store, s2: Store, s3: Store, a: seq<EnclosureItem>, b: seq<EnclosureItem>,
                       ta: seq<string>, tb: seq<string>, noBp: bool, ok: bool)
    requires OnlyFilesAdded(s1, s2) && OnlyFilesAdded(s2, s3)
    requires noBp ==> |a| <= |ta| && |b| <= |tb| && FileItems(s2, a) && FileItems(s3, b)
    requires noBp && ok ==> Descriptions(a) == ta && Descriptions(b) == tb
    ensures OnlyFilesAdded(s1, s3)
    ensures noBp ==> |a + b| <= |ta + tb| && FileItems(s3, a + b)
    ensures noBp && ok ==> Descriptions(a + b) == ta + tb
  {
    OnlyFilesAddedTransitive(s1, s2, s3);
    if noBp && ok {
      assert Descriptions(a + b) == Descriptions(a) + Descriptions(b);
    }
  }

  /** `processEnclosures`, enclosure by enclosure in order. Called without a
      bullet point (as the bullet point step does), no item is ever reused:
      the items are the kept enclosures' new files, and when no file
      operation fails they are described by exactly the kept titles. */
  function ProcessEnclosures(env: Env, cfg: Config, s: Store, encs: seq<EnclosureRecord>, dir: string, bp: Option<Node>): (r: EnclosureOutcome)
    ensures OnlyFilesAdded(s, r.store) && |r.items| <= |encs|
    ensures bp.None? ==> |r.items| <= |KeptTitles(cfg, encs)|
    ensures bp.None? ==> FileItems(r.store, r.items)
    ensures bp.None? && FileOpsSucceed(env) ==> Descriptions(r.items) == KeptTitles(cfg, encs)
    decreases |encs|
  {
    if encs == [] then EnclosureOutcome(s, [])
    else
      var first := ProcessEnclosure(env, cfg, s, encs[0], dir, bp);
      var rest := ProcessEnclosures(env, cfg, first.store, encs[1..], dir, bp);
      EnclosuresStep(s, first.store, rest.store, first.items, rest.items,
        KeptTitle(cfg, encs[0]), KeptTitles(cfg, encs[1..]), bp.None?, FileOpsSucceed(env));
      EnclosureOutcome(rest.store, first.items + rest.items)
  }

  // ---------------------------------------------------------------------
  // Attachments.

  /** The stored body of an attachment: the cleaned HTML with its image
      paths fixed. */
  function AttachmentBody(env: Env, cfg: Config, a: AttachmentRecord, dir: string): (body: string)
    ensures IsPlainText(a.body) && (forall j :: 0 <= j < |a.body| ==> SrcAttrLen(a.body[j..]) == 0) ==> body == a.body
  {
    var body := FixImagePaths(env, CleanHtml(cfg, a.body), dir);
    assert IsPlainText(a.body) && (forall j :: 0 <= j < |a.body| ==> SrcAttrLen(a.body[j..]) == 0) ==> body == a.body by {
      if IsPlainText(a.body) && (forall j :: 0 <= j < |a.body| ==> SrcAttrLen(a.body[j..]) == 0) {
        PlainBodyKept(env, cfg, a.body, dir);
      }
    }
    body
  }

  /** The attachment's file: a managed copy (without a title) when it has a
      path, none otherwise. */
  function AttachmentFile(env: Env, cfg: Config, s: Store, a: AttachmentRecord, dir: string): (fo: FileOutcome)
    ensures OnlyFilesAdded(s, fo.store)
    ensures fo.file.Some? ==> a.uri.Some? && Truthy(a.uri.value) && fo.file.value < |fo.store.files|
    ensures FileOpsSucceed(env) && a.uri.Some? && Truthy(a.uri.value) ==> fo.file.Some?
  {
    if a.uri.Some? && Truthy(a.uri.value) then
      CreateFileCopyAsManaged(env, cfg, s, dir + "/" + a.uri.value, "")
    else FileOutcome(s, None)
  }

  /** The attachment node before it is saved: the one already referenced by
      the bullet point with this ESDH id, retitled, or a new one; with the
      new body and, when a file was made, that file. */
  function AttachmentNode(env: Env, cfg: Config, s: Store, bp: Node, a: AttachmentRecord, dir: string, file: Option<nat>): (n: Node)
    ensures n.bundle == AttachmentType && n.esdhId == a.id && n.title == a.title
    ensures n.body == AttachmentBody(env, cfg, a, dir)
    ensures file.Some? ==> n.file == file
    ensures file.None? && GetBulletPointAttachmentByEsdhId(s, bp, a.id).None? ==> n.file.None?
  {
    var base := match GetBulletPointAttachmentByEsdhId(s, bp, a.id)
      case Some(j) => s.nodes[j].(title := a.title)
      case None => NewNode(AttachmentType, a.id, a.title);
    var withBody := base.(body := AttachmentBody(env, cfg, a, dir));
    if file.Some? then withBody.(file := file) else withBody
  }

  /** All targets are attachment nodes of the store. */
  predicate AttachmentTargets(s: Store, targets: seq<nat>) {
    forall k :: 0 <= k < |targets| ==> targets[k] < |s.nodes| && s.nodes[targets[k]].bundle == AttachmentType
  }

  /** The targets are attachment nodes of the store with the given ESDH ids,
      one for one and in order. */
  predicate AttachmentNodesFor(s: Store, targets: seq<nat>, ids: seq<string>) {
    && |targets| == |ids|
    && forall k :: 0 <= k < |targets| ==>
        targets[k] < |s.nodes| && s.nodes[targets[k]].bundle == AttachmentType && s.nodes[targets[k]].esdhId == ids[k]
  }

  lemma AttachmentTargetsAppend(s: Store, a: seq<nat>, b: seq<nat>)
    requires AttachmentTargets(s, a) && AttachmentTargets(s, b)
    ensures AttachmentTargets(s, a + b)
  {
  }

  lemma AttachmentTargetsGrow(s: Store, s': Store, targets: seq<nat>)
    requires AttachmentTargets(s, targets) && Grows(s, s')
    ensures AttachmentTargets(s', targets)
  {
  }

  /** Targets found before a store grows, followed by targets found after,
      when `cond` holds of both. */
  lemma AttachmentNodesForStep(s: Store, s': Store, a: seq<nat>, ia: seq<string>, b: seq<nat>, ib: seq<string>, cond: bool)
    requires Grows(s, s')
    requires cond ==> AttachmentNodesFor(s, a, ia) && AttachmentNodesFor(s', b, ib)
    ensures cond ==> AttachmentNodesFor(s', a + b, ia + ib)
  {
  }

  /** A single attachment node as a target list. */
  lemma SingleAttachment(s: Store, j: nat, id: string)
    requires j < |s.nodes| && s.nodes[j].bundle == AttachmentType && s.nodes[j].esdhId == id
    ensures AttachmentTargets(s, [j]) && AttachmentNodesFor(s, [j], [id])
  {
  }

  /** One attachment of `processAttachments`. A closed one is dropped when
      closed content is not imported. An admitted one updates the
      attachment node of the same ESDH id among the bullet point's own, or
      creates one; when the save fails the item is left out and no node is
      written, but a file already made stays. */
  function ProcessAttachment(env: Env, cfg: Config, s: Store, bp: Node, a: AttachmentRecord, dir: string): (r: Outcome)
    ensures |r.targets| <= 1 && Grows(s, r.store) && r.store.terms == s.terms
    ensures AttachmentTargets(r.store, r.targets)
    ensures !Admitted(cfg, a.access) ==> r == Outcome(s, [])
    ensures r.targets == [] ==> r.store.nodes == s.nodes
    ensures r.targets != [] ==>
      && AttachmentNodesFor(r.store, r.targets, [a.id])
      && r.store.nodes[r.targets[0]].title == a.title
      && r.store.nodes[r.targets[0]].body == AttachmentBody(env, cfg, a, dir)
    ensures r.targets != [] && GetBulletPointAttachmentByEsdhId(s, bp, a.id).Some? ==>
      r.targets[0] == GetBulletPointAttachmentByEsdhId(s, bp, a.id).value
    ensures SavesSucceed(env) && Admitted(cfg, a.access) ==> |r.targets| == 1
  {
    if !Admitted(cfg, a.access) then Outcome(s, [])
    else
      var fo := AttachmentFile(env, cfg, s, a, dir);
      FilesAddedGrows(s, fo.store);
      var n := AttachmentNode(env, cfg, s, bp, a, dir, fo.file);
      if !env.nodeSaveOk(n) then Outcome(fo.store, [])
      else match GetBulletPointAttachmentByEsdhId(s, bp, a.id)
        case Some(j) =>
          PutNodeGrows(fo.store, j, n);
          GrowsTransitive(s, fo.store, PutNode(fo.store, j, n));
          SingleAttachment(PutNode(fo.store, j, n), j, a.id);
          Outcome(PutNode(fo.store, j, n), [j])
        case None =>
          AddNodeGrows(fo.store, n);
          GrowsTransitive(s, fo.store, AddNode(fo.store, n));
          SingleAttachment(AddNode(fo.store, n), |fo.store.nodes|, a.id);
          Outcome(AddNode(fo.store, n), [|fo.store.nodes|])
  }

  /** How many attachments are admitted. */
  function CountAdmitted(cfg: Config, atts: seq<AttachmentRecord>): (c: nat)
    ensures c <= |atts|
    decreases |atts|
  {
    if atts == [] then 0 else (if Admitted(cfg, atts[0].access) then 1 else 0) + CountAdmitted(cfg, atts[1..])
  }

  /** The ESDH ids of the admitted attachments, in order: one per admitted
      attachment. */
  function AdmittedIds(cfg: Config, atts: seq<AttachmentRecord>): (ids: seq<string>)
    ensures |ids| == CountAdmitted(cfg, atts)
    decreases |atts|
  {
    if atts == [] then [] else (if Admitted(cfg, atts[0].access) then [atts[0].id] else []) + AdmittedIds(cfg, atts[1..])
  }

  /** `processAttachments`, attachment by attachment in order: the targets
      are attachment nodes, one per admitted attachment whose save went
      through; nothing admitted leaves the store as it was. When every save
      goes through, the k-th target is the node of the k-th admitted
      attachment. */
  function ProcessAttachments(env: Env, cfg: Config, s: Store, atts: seq<AttachmentRecord>, dir: string, bp: Node): (r: Outcome)
    ensures Grows(s, r.store) && r.store.terms == s.terms
    ensures |r.targets| <= CountAdmitted(cfg, atts)
    ensures AttachmentTargets(r.store, r.targets)
    ensures CountAdmitted(cfg, atts) == 0 ==> r == Outcome(s, [])
    ensures SavesSucceed(env) ==> |r.targets| == CountAdmitted(cfg, atts)
    ensures SavesSucceed(env) ==> AttachmentNodesFor(r.store, r.targets, AdmittedIds(cfg, atts))
    decreases |atts|
  {
    if atts == [] then Outcome(s, [])
    else
      var first := ProcessAttachment(env, cfg, s, bp, atts[0], dir);
      var rest := ProcessAttachments(env, cfg, first.store, atts[1..], dir, bp);
      GrowsTransitive(s, first.store, rest.store);
      AttachmentTargetsGrow(first.store, rest.store, first.targets);
      AttachmentTargetsAppend(rest.store, first.targets, rest.targets);
      var ids := if Admitted(cfg, atts[0].access) then [atts[0].id] else [];
      AttachmentNodesForStep(first.store, rest.store, first.targets, ids, rest.targets, AdmittedIds(cfg, atts[1..]), SavesSucceed(env));
      Outcome(rest.store, first.targets + rest.targets)
  }

  // ---------------------------------------------------------------------
  // Bullet points.

  /** The title a closed bullet point gets when closed content is not
      imported: the configured prefix and a space in front of it, or the
      title alone when no prefix is configured (PHP truthiness). */
  function ClosedTitle(cfg: Config, title: string): (t: string)
    ensures |title| <= |t| && t[|t| - |title|..] == title
    ensures Truthy(cfg.closedBpTitlePrefix) <==> |t| == |cfg.closedBpTitlePrefix| + 1 + |title|
    ensures Truthy(cfg.closedBpTitlePrefix) ==>
      t[..|cfg.closedBpTitlePrefix|] == cfg.closedBpTitlePrefix && t[|cfg.closedBpTitlePrefix|] == ' '
    ensures !Truthy(cfg.closedBpTitlePrefix) ==> t == title
  {
    if Truthy(cfg.closedBpTitlePrefix) then cfg.closedBpTitlePrefix + " " + title else title
  }

  /** The number prefix: the configured text and a space when there is
      text, the number, and a dot when configured. The number sits right
      after the text part, and the dot is the last character. */
  function NumberPrefix(cfg: Config, number: string): (p: string)
    ensures var lead := if Truthy(cfg.textBeforeBpNumber) then |cfg.textBeforeBpNumber| + 1 else 0;
      && |p| == lead + |number| + (if cfg.dotAfterBpNumber then 1 else 0)
      && p[lead..lead + |number|] == number
      && (Truthy(cfg.textBeforeBpNumber) ==> p[..|cfg.textBeforeBpNumber|] == cfg.textBeforeBpNumber && p[|cfg.textBeforeBpNumber|] == ' ')
      && (cfg.dotAfterBpNumber ==> p[|p| - 1] == '.')
  {
    (if Truthy(cfg.textBeforeBpNumber) then cfg.textBeforeBpNumber + " " else "")
      + number + (if cfg.dotAfterBpNumber then "." else "")
  }

  /** The title a bullet point is stored with, built as the import builds
      it: the record's title, then the closed prefix put in front of it
      when the bullet point is not admitted, then the number prefix put in
      front of that when it has a number. So the number comes first, the
      closed prefix second and the title last. It is computed from the
      record and the settings alone, never from the title stored before,
      so re-importing never stacks prefixes. */
  function BpTitle(cfg: Config, rec: BulletPointRecord): (t: string)
    ensures var lead := if rec.number.Some? then |NumberPrefix(cfg, rec.number.value)| + 1 else 0;
      var closed := !Admitted(cfg, rec.access) && Truthy(cfg.closedBpTitlePrefix);
      var mid := if closed then |cfg.closedBpTitlePrefix| + 1 else 0;
      && |t| == lead + mid + |rec.title|
      && (rec.number.Some? ==> t[..lead - 1] == NumberPrefix(cfg, rec.number.value) && t[lead - 1] == ' ')
      && (closed ==> t[lead..lead + mid - 1] == cfg.closedBpTitlePrefix && t[lead + mid - 1] == ' ')
      && t[lead + mid..] == rec.title
    ensures |rec.title| <= |t| && t[|t| - |rec.title|..] == rec.title
  {
    var base := if Admitted(cfg, rec.access) then rec.title else ClosedTitle(cfg, rec.title);
    match rec.number
    case None => base
    case Some(number) => NumberPrefix(cfg, number) + " " + base
  }

  /** The bullet point the meeting already references with this ESDH id;
      none without a meeting. */
  function ExistingBulletPoint(s: Store, meeting: Option<Node>, id: string): (r: Option<nat>)
    ensures r.Some? ==> r.value < |s.nodes| && s.nodes[r.value].bundle == BulletPointType && s.nodes[r.value].esdhId == id
    ensures meeting.None? ==> r.None?
  {
    if meeting.Some? then GetBulletPointByEsdhId(s, meeting.value, id) else None
  }

  /** A bullet point being processed: the store, its ID and the node. */
  datatype BpStart = BpStart(store: Store, nid: nat, node: Node)

  /** The first part of a bullet point: the existing one, retitled in
      memory, or a new one that is saved at once (no bullet point when that
      save fails). */
  function StartBulletPoint(env: Env, s: Store, meeting: Option<Node>, rec: BulletPointRecord): (r: Option<BpStart>)
    ensures r.Some? ==>
      && Grows(s, r.value.store) && r.value.store.terms == s.terms
      && r.value.nid < |r.value.store.nodes| && r.value.store.nodes[r.value.nid].bundle == BulletPointType
      && r.value.node.bundle == BulletPointType && r.value.node.esdhId == rec.id && r.value.node.title == rec.title
    ensures ExistingBulletPoint(s, meeting, rec.id).Some? ==>
      && r.Some? && r.value.store == s && r.value.nid == ExistingBulletPoint(s, meeting, rec.id).value
      && r.value.node == s.nodes[r.value.nid].(title := rec.title)
    ensures ExistingBulletPoint(s, meeting, rec.id).None? ==>
      && (r.Some? <==> env.nodeSaveOk(NewNode(BulletPointType, rec.id, rec.title)))
      && (r.Some? ==> r.value.nid == |s.nodes| && r.value.store == AddNode(s, r.value.node))
  {
    match ExistingBulletPoint(s, meeting, rec.id)
    case Some(j) =>
      GrowsReflexive(s);
      Some(BpStart(s, j, s.nodes[j].(title := rec.title)))
    case None =>
      AddNodeGrows(s, NewNode(BulletPointType, rec.id, rec.title));
      if env.nodeSaveOk(NewNode(BulletPointType, rec.id, rec.title))
      then Some(BpStart(AddNode(s, NewNode(BulletPointType, rec.id, rec.title)), |s.nodes|, NewNode(BulletPointType, rec.id, rec.title)))
      else None
  }

  /** The bullet point's files and attachments. */
  datatype Children = Children(store: Store, enclosures: seq<EnclosureItem>, attachments: seq<nat>)

  /** The attachments the bullet point's attachment step receives: with
      enclosures routed as attachments, the attachments and then the
      enclosures. */
  function AttachmentInputs(cfg: Config, rec: BulletPointRecord): (atts: seq<AttachmentRecord>)
    ensures !cfg.processEnclosuresAsAttachments ==> atts == rec.attachments
    ensures cfg.processEnclosuresAsAttachments ==>
      && |atts| == |rec.attachments| + |rec.enclosures|
      && atts[..|rec.attachments|] == rec.attachments
      && forall k :: 0 <= k < |rec.enclosures| ==> atts[|rec.attachments| + k] == EnclosureAsAttachment(rec.enclosures[k])
  {
    if cfg.processEnclosuresAsAttachments then
      rec.attachments + seq(|rec.enclosures|, k requires 0 <= k < |rec.enclosures| => EnclosureAsAttachment(rec.enclosures[k]))
    else rec.attachments
  }

  /** The admitted branch of a bullet point: enclosures (or none, when they
      go through the attachments) and then attachments; a bullet point that
      is not admitted gets neither. */
  function BpChildren(env: Env, cfg: Config, s: Store, bp: Node, rec: BulletPointRecord, dir: string): (r: Children)
    ensures Grows(s, r.store) && r.store.terms == s.terms
    ensures !Admitted(cfg, rec.access) ==> r == Children(s, [], [])
    ensures cfg.processEnclosuresAsAttachments ==> r.enclosures == []
    ensures AttachmentTargets(r.store, r.attachments)
    ensures Admitted(cfg, rec.access) && !cfg.processEnclosuresAsAttachments && FileOpsSucceed(env) ==>
      Descriptions(r.enclosures) == KeptTitles(cfg, rec.enclosures)
    ensures Admitted(cfg, rec.access) && SavesSucceed(env) ==>
      |r.attachments| == CountAdmitted(cfg, AttachmentInputs(cfg, rec))
  {
    if !Admitted(cfg, rec.access) then
      GrowsReflexive(s);
      Children(s, [], [])
    else
      var enc := if cfg.processEnclosuresAsAttachments then EnclosureOutcome(s, [])
        else ProcessEnclosures(env, cfg, s, rec.enclosures, dir, None);
      FilesAddedGrows(s, enc.store);
      var bpas := ProcessAttachments(env, cfg, enc.store, AttachmentInputs(cfg, rec), dir, bp);
      GrowsTransitive(s, enc.store, bpas.store);
      Children(bpas.store, enc.items, bpas.targets)
  }

  /** The bullet point node as it is saved at the end: the closed prefix and
      placeholder body when it is not admitted, the number prefix when it
      has a number, its files and attachments, and its closed flag. */
  function FinishBulletPoint(cfg: Config, node: Node, rec: BulletPointRecord, kids: Children): (n: Node)
    requires node.title == rec.title
    ensures n.bundle == node.bundle && n.esdhId == node.esdhId
    ensures n.title == BpTitle(cfg, rec)
    ensures n.closed == !EffectiveAccess(rec.access)
    ensures n.enclosures == kids.enclosures && n.attachments == kids.attachments
    ensures !Admitted(cfg, rec.access) ==> n.body == cfg.closedBpBodyText
    ensures Admitted(cfg, rec.access) ==> n.body == node.body
  {
    var marked := if Admitted(cfg, rec.access) then node
      else node.(title := ClosedTitle(cfg, node.title), body := cfg.closedBpBodyText);
    var numbered := match rec.number
      case Some(number) => marked.(title := NumberPrefix(cfg, number) + " " + marked.title)
      case None => marked;
    numbered.(enclosures := kids.enclosures, attachments := kids.attachments, closed := !EffectiveAccess(rec.access))
  }

  /** One bullet point of `processBulletPoints`. The node is the one the
      meeting references with this ESDH id, or a new one; its title is
      rebuilt from the record; a closed one that is not imported gets the
      placeholder body and no files or attachments. When the final save
      fails the bullet point is left out of the targets. */
  function ProcessBulletPoint(env: Env, cfg: Config, s: Store, meeting: Option<Node>, rec: BulletPointRecord, dir: string): (r: Outcome)
    ensures |r.targets| <= 1 && Grows(s, r.store) && r.store.terms == s.terms
    ensures r.targets != [] ==>
      && r.targets[0] < |r.store.nodes|
      && r.store.nodes[r.targets[0]].bundle == BulletPointType
      && r.store.nodes[r.targets[0]].esdhId == rec.id
      && r.store.nodes[r.targets[0]].title == BpTitle(cfg, rec)
      && r.store.nodes[r.targets[0]].closed == !EffectiveAccess(rec.access)
      && AttachmentTargets(r.store, r.store.nodes[r.targets[0]].attachments)
    ensures r.targets != [] && !Admitted(cfg, rec.access) ==>
      && r.store.nodes[r.targets[0]].body == cfg.closedBpBodyText
      && r.store.nodes[r.targets[0]].enclosures == []
      && r.store.nodes[r.targets[0]].attachments == []
    ensures r.targets != [] && cfg.processEnclosuresAsAttachments ==> r.store.nodes[r.targets[0]].enclosures == []
    ensures r.targets != [] && ExistingBulletPoint(s, meeting, rec.id).Some? ==>
      r.targets[0] == ExistingBulletPoint(s, meeting, rec.id).value
    ensures SavesSucceed(env) ==> |r.targets| == 1
  {
    match StartBulletPoint(env, s, meeting, rec)
    case None =>
      GrowsReflexive(s);
      Outcome(s, [])
    case Some(start) =>
      var kids := BpChildren(env, cfg, start.store, start.node, rec, dir);
      GrowsTransitive(s, start.store, kids.store);
      var n := FinishBulletPoint(cfg, start.node, rec, kids);
      if env.nodeSaveOk(n) then
        var saved := PutNode(kids.store, start.nid, n);
        PutNodeGrows(kids.store, start.nid, n);
        GrowsTransitive(s, kids.store, saved);
        AttachmentTargetsGrow(kids.store, saved, kids.attachments);
        Outcome(saved, [start.nid])
      else Outcome(kids.store, [])
  }

  /** Importing a bullet point again, into the store the first import left
      and for a meeting that references what it made, updates the same node
      and stores the same title: the title is rebuilt from the record, not
      prefixed onto the stored one. */
  lemma {:induction false} ReimportKeepsTitle(env: Env, cfg: Config, s: Store, meeting: Option<Node>, rec: BulletPointRecord, dir: string, again: Node)
    requires SavesSucceed(env)
    requires again.bulletPoints == ProcessBulletPoint(env, cfg, s, meeting, rec, dir).targets
    ensures var first := ProcessBulletPoint(env, cfg, s, meeting, rec, dir);
      var second := ProcessBulletPoint(env, cfg, first.store, Some(again), rec, dir);
      && |first.targets| == 1
      && second.targets == first.targets
      && second.store.nodes[second.targets[0]].title == first.store.nodes[first.targets[0]].title == BpTitle(cfg, rec)
  {
    var first := ProcessBulletPoint(env, cfg, s, meeting, rec, dir);
    assert |first.targets| == 1;
    var nid := first.targets[0];
    OnlyReferencedIsFound(first.store, again, rec.id, nid);
  }

  /** A meeting that references exactly one bullet point with the ESDH id
      finds that one. */
  lemma OnlyReferencedIsFound(s: Store, meeting: Node, id: string, nid: nat)
    requires meeting.bulletPoints == [nid] && nid < |s.nodes|
    requires s.nodes[nid].bundle == BulletPointType && s.nodes[nid].esdhId == id
    ensures ExistingBulletPoint(s, Some(meeting), id) == Some(nid)
  {
    var found := ExistingBulletPoint(s, Some(meeting), id);
    assert nid in GetBulletPoints(meeting);
    assert found.Some? && found.value in [nid];
  }

  /** All targets are bullet point nodes of the store. */
  predicate BulletPointTargets(s: Store, targets: seq<nat>) {
    forall k :: 0 <= k < |targets| ==> targets[k] < |s.nodes| && s.nodes[targets[k]].bundle == BulletPointType
  }

  lemma BulletPointTargetsGrow(s: Store, s': Store, targets: seq<nat>)
    requires BulletPointTargets(s, targets) && Grows(s, s')
    ensures BulletPointTargets(s', targets)
  {
  }

  /** `processBulletPoints`, bullet point by bullet point in order: the
      targets are bullet point nodes, one per bullet point whose saves went
      through, and a failed one does not stop the others. */
  function ProcessBulletPoints(env: Env, cfg: Config, s: Store, meeting: Option<Node>, recs: seq<BulletPointRecord>, dir: string): (r: Outcome)
    ensures Grows(s, r.store) && r.store.terms == s.terms
    ensures |r.targets| <= |recs|
    ensures BulletPointTargets(r.store, r.targets)
    ensures SavesSucceed(env) ==> |r.targets| == |recs|
    decreases |recs|
  {
    if recs == [] then
      GrowsReflexive(s);
      Outcome(s, [])
    else
      var first := ProcessBulletPoint(env, cfg, s, meeting, recs[0], dir);
      var rest := ProcessBulletPoints(env, cfg, first.store, meeting, recs[1..], dir);
      GrowsTransitive(s, first.store, rest.store);
      BulletPointTargetsGrow(first.store, rest.store, first.targets);
      BulletPointTargetsAppend(rest.store, first.targets, rest.targets);
      Outcome(rest.store, first.targets + rest.targets)
  }

  lemma BulletPointTargetsAppend(s: Store, a: seq<nat>, b: seq<nat>)
    requires BulletPointTargets(s, a) && BulletPointTargets(s, b)
    ensures BulletPointTargets(s, a + b)
  {
    forall k | 0 <= k < |a + b|
      ensures (a + b)[k] < |s.nodes| && s.nodes[(a + b)[k]].bundle == BulletPointType
    {
      if k >= |a| {
        assert (a + b)[k] == b[k - |a|];
      }
    }
  }
}

=== FILE: settings.dfy ===
/** The importer's settings (`os2web_meetings.settings`) as one immutable
    record, and the values the importer derives from them when it is
    constructed. */
module Settings {
  import opened Wrappers
  import opened PhpStrings

  /** The stored settings, as raw as the importer reads them. */
  datatype Config = Config(
    importClosedAgenda: bool,
    committeeWhitelist: string,
    closedBpTitlePrefix: string,
    closedBpBodyText: string,
    unpublishMissingAgendas: bool,
    processEnclosuresAsAttachments: bool,
    clearHtmlTagsList: string,
    replaceMultipleNbsp: bool,
    replaceEmptyParagraphs: bool,
    maxSequentialBr: Option<nat>,
    textBeforeBpNumber: string,
    dotAfterBpNumber: bool,
    createFilesCopy: bool,
    bannedSpecialChar: string)

  /** The committee whitelist: the comma-separated ids, or no ids at all
      when the setting is empty (PHP's `empty`, so "0" counts as empty). */
  function Whitelist(cfg: Config): (ids: seq<string>)
    ensures !Truthy(cfg.committeeWhitelist) <==> ids == []
    ensures ids != [] ==> Join(ids, ",") == cfg.committeeWhitelist
    ensures forall i :: 0 <= i < |ids| ==> ',' !in ids[i]
  {
    if Truthy(cfg.committeeWhitelist) then
      JoinSplit(cfg.committeeWhitelist, ',');
      Split(cfg.committeeWhitelist, ',')
    else []
  }

  /** A whitelist setting written as a comma list of ids reads back as
      exactly those ids. */
  lemma WhitelistOfList(cfg: Config, ids: seq<string>)
    requires |ids| >= 1 && forall i :: 0 <= i < |ids| ==> ',' !in ids[i]
    requires cfg.committeeWhitelist == Join(ids, ",")
    requires Truthy(cfg.committeeWhitelist)
    ensures Whitelist(cfg) == ids
  {
    SplitJoin(ids, ',');
  }

  /** Whether meetings of this committee may be imported: an empty whitelist
      admits every committee, otherwise the id must be listed. */
  predicate CommitteeAllowed(cfg: Config, committeeId: string)
    ensures !Truthy(cfg.committeeWhitelist) ==> CommitteeAllowed(cfg, committeeId)
    ensures Truthy(cfg.committeeWhitelist) ==>
      (CommitteeAllowed(cfg, committeeId) <==> committeeId in Split(cfg.committeeWhitelist, ','))
  {
    var ids := Whitelist(cfg);
    ids == [] || committeeId in ids
  }

  /** The tags whose style attribute is stripped, split at commas; entries
      are trimmed where they are used. */
  function HtmlTags(cfg: Config): (tags: seq<string>)
    ensures |tags| >= 1 && Join(tags, ",") == cfg.clearHtmlTagsList
  {
    JoinSplit(cfg.clearHtmlTagsList, ',');
    Split(cfg.clearHtmlTagsList, ',')
  }

  /** The maximum run of consecutive line breaks that survives; 1 when unset. */
  function MaxSequentialBr(cfg: Config): (n: nat)
    ensures cfg.maxSequentialBr.None? ==> n == 1
    ensures cfg.maxSequentialBr.Some? ==> n == cfg.maxSequentialBr.value
  {
    cfg.maxSequentialBr.GetOr(1)
  }
}

=== FILE: unpublish.dfy ===
/** The sweep that unpublishes meetings whose manifest has gone: before an
    import the published meetings of the source are scheduled for
    unpublishing, every row the import sees takes its meeting off the
    schedule, and after the import what is left is unpublished. */
module Unpublish {
  import opened Settings
  import opened ContentStore

  /** A scheduled meeting: its node ID and the node as it was loaded. */
  datatype ScheduledMeeting = ScheduledMeeting(nid: nat, entity: Node)

  /** The unpublish schedule, keyed by the meetings' ESDH ids. */
  type Schedule = map<string, ScheduledMeeting>

  /** What the query before an import selects: a published meeting node
      whose source is this import. */
  predicate Selected(n: Node, pluginId: string) {
    n.bundle == MeetingType && n.published && n.source == pluginId
  }

  /** The selected node that no later selected node shares its ESDH id
      with: the one the schedule keeps. */
  ghost predicate LastSelected(nodes: seq<Node>, pluginId: string, i: nat) {
    && i < |nodes|
    && Selected(nodes[i], pluginId)
    && forall j :: i < j < |nodes| ==> !(Selected(nodes[j], pluginId) && nodes[j].esdhId == nodes[i].esdhId)
  }

  /** The schedule built from the first `n` nodes, loaded in ID order: each
      selected node under its ESDH id, a later node replacing an earlier
      one with the same id. */
  function ScheduleOf(nodes: seq<Node>, pluginId: string, n: nat): (m: Schedule)
    requires n <= |nodes|
    ensures forall id :: id in m ==>
      && m[id].nid < n
      && m[id].entity == nodes[m[id].nid]
      && Selected(m[id].entity, pluginId)
      && m[id].entity.esdhId == id
    ensures forall i :: 0 <= i < n && Selected(nodes[i], pluginId) ==>
      nodes[i].esdhId in m && i <= m[nodes[i].esdhId].nid
    decreases n
  {
    if n == 0 then map[]
    else
      var m := ScheduleOf(nodes, pluginId, n - 1);
      if Selected(nodes[n - 1], pluginId) then m[nodes[n - 1].esdhId := ScheduledMeeting(n - 1, nodes[n - 1])]
      else m
  }

  /** The schedule keeps exactly the last selected node of each ESDH id. */
  lemma {:induction false} ScheduleKeepsLastSelected(nodes: seq<Node>, pluginId: string, i: nat)
    requires i < |nodes|
    ensures var m := ScheduleOf(nodes, pluginId, |nodes|);
      (nodes[i].esdhId in m && m[nodes[i].esdhId].nid == i) <==> LastSelected(nodes, pluginId, i)
  {
    var m := ScheduleOf(nodes, pluginId, |nodes|);
    var id := nodes[i].esdhId;
    if LastSelected(nodes, pluginId, i) {
      assert id in m && i <= m[id].nid;
    }
  }

  /** `preImport`: with unpublishing switched on, every selected meeting
      is scheduled; otherwise nothing is. */
  function PreImport(cfg: Config, s: Store, pluginId: string): (m: Schedule)
    ensures !cfg.unpublishMissingAgendas ==> m == map[]
    ensures cfg.unpublishMissingAgendas ==> forall i :: 0 <= i < |s.nodes| ==>
      ((s.nodes[i].esdhId in m && m[s.nodes[i].esdhId].nid == i) <==> LastSelected(s.nodes, pluginId, i))
    ensures forall id :: id in m ==>
      m[id].nid < |s.nodes| && m[id].entity == s.nodes[m[id].nid] && Selected(m[id].entity, pluginId) && m[id].entity.esdhId == id
  {
    if cfg.unpublishMissingAgendas then
      var m := ScheduleOf(s.nodes, pluginId, |s.nodes|);
      forall i | 0 <= i < |s.nodes|
        ensures (s.nodes[i].esdhId in m && m[s.nodes[i].esdhId].nid == i) <==> LastSelected(s.nodes, pluginId, i)
      {
        ScheduleKeepsLastSelected(s.nodes, pluginId, i);
      }
      m
    else map[]
  }

  /** The row hook's first step: with unpublishing switched on, the row's
      meeting leaves the schedule, whatever becomes of the row. */
  function Sight(cfg: Config, m: Schedule, agendaId: string): (m': Schedule)
    ensures agendaId !in m' || !cfg.unpublishMissingAgendas
    ensures forall id :: id in m' <==> id in m && (id != agendaId || !cfg.unpublishMissingAgendas)
    ensures forall id :: id in m' ==> m'[id] == m[id]
  {
    if cfg.unpublishMissingAgendas then m - {agendaId} else m
  }

  /** The schedule without the given ids. */
  function Without(m: Schedule, ids: set<string>): Schedule {
    map id | id in m && id !in ids :: m[id]
  }

  /** Sighting one more id removes it too (when the schedule is not empty,
      unpublishing is switched on). */
  lemma WithoutSight(cfg: Config, m: Schedule, ids: set<string>, id: string)
    requires m != map[] ==> cfg.unpublishMissingAgendas
    ensures Sight(cfg, Without(m, ids), id) == Without(m, ids + {id})
  {
    if m == map[] {
      assert Without(m, ids) == map[];
      assert Without(m, ids + {id}) == map[];
    }
  }

  /** The node IDs a schedule names. */
  function Nids(m: Schedule): set<nat> {
    set id | id in m :: m[id].nid
  }

  /** No two entries of the schedule name the same node. */
  predicate DistinctNodes(m: Schedule) {
    forall a, b :: a in m && b in m && m[a].nid == m[b].nid ==> a == b
  }

  /** `postImport`: with unpublishing switched on and a schedule left, each
      scheduled meeting is saved as it was loaded, unpublished; no other
      node changes. */
  method PostImport(cfg: Config, s: Store, m: Schedule) returns (r: Store)
    requires forall id :: id in m ==> m[id].nid < |s.nodes|
    requires DistinctNodes(m)
    ensures |r.nodes| == |s.nodes| && r.terms == s.terms && r.files == s.files
    ensures cfg.unpublishMissingAgendas ==> forall id :: id in m ==>
      r.nodes[m[id].nid] == m[id].entity.(published := false)
    ensures forall i :: 0 <= i < |s.nodes| && (!cfg.unpublishMissingAgendas || i !in Nids(m)) ==>
      r.nodes[i] == s.nodes[i]
  {
    r := s;
    if cfg.unpublishMissingAgendas && m != map[] {
      var left := m.Keys;
      ghost var touched: set<nat> := {};
      while left != {}
        invariant left <= m.Keys && touched <= Nids(m)
        invariant |r.nodes| == |s.nodes| && r.terms == s.terms && r.files == s.files
        invariant forall id :: id in m && id !in left ==> r.nodes[m[id].nid] == m[id].entity.(published := false)
        invariant forall i :: 0 <= i < |s.nodes| && i !in touched ==> r.nodes[i] == s.nodes[i]
        decreases |left|
      {
        var id :| id in left;
        var e := m[id];
        r := PutNode(r, e.nid, e.entity.(published := false));
        left := left - {id};
        touched := touched + {e.nid};
      }
    }
  }
}

=== FILE: wrappers.dfy ===
/** Failure-compatible wrappers: PHP's NULL returns become `Option`, thrown
    exceptions become `Result`. */
module Wrappers {

  datatype Option<+T> = None | Some(value: T) {

    predicate IsFailure() {
      None?
    }

    function PropagateFailure<U>(): Option<U>
      requires None?
    {
      None
    }

    function Extract(): T
      requires Some?
    {
      value
    }

    /** The value, or `default` when absent (PHP's `??`). */
    function GetOr(default: T): T {
      match this
      case Some(v) => v
      case None => default
    }
  }

  datatype Result<+R, +E> = Success(value: R) | Failure(error: E) {

    predicate IsFailure() {
      Failure?
    }

    function PropagateFailure<U>(): Result<U, E>
      requires Failure?
    {
      Failure(error)
    }

    function Extract(): R
      requires Success?
    {
      value
    }
  }
}

=== FILE: xml_rows.dfy ===
/** `SimpleXmlArray`, the data parser of the meeting manifests: opening a
    manifest (banned strings removed, parser errors turned into an
    exception, the directory of the manifest remembered) and shaping each
    matched element into a row. Fetching the file, the XML parser and the
    XPath evaluator are parameters (`XmlTools`). */
module XmlRows {
  import opened Wrappers
  import opened PhpStrings
  import opened Settings
  import opened Patterns

  /** A parsed XML element: its name, its own text (`(string) $element`)
      and its child elements. */
  datatype Element = Element(name: string, text: string, children: seq<Element>)

  /** One collected value: the element's text, or, for an element with child
      elements and blank text, the element itself as a nested array. */
  datatype Value = Text(s: string) | Nested(e: Element)

  /** A row field: a single value reduced to a scalar, or the list of
      values in match order. */
  datatype FieldValue = Scalar(v: Value) | List(vs: seq<Value>)

  type Row = map<string, FieldValue>

  /** A field selector of the migration: a field name and its XPath. */
  datatype Selector = Selector(field: string, xpath: string)

  /** What the parser reports: the libxml errors, and the document element. */
  datatype Parsed = Parsed(errors: seq<string>, root: Element)

  /** The parser's foreign parts. */
  datatype XmlTools = XmlTools(
    /** The data fetcher's `getResponseContent`. */
    fetch: string -> string,
    /** `simplexml_load_string` with `LIBXML_NOCDATA`, and the error buffer
        it leaves (each error already formatted by `parseLibXmlError`). */
    parse: string -> Parsed,
    /** `xpath()` evaluated on an element. */
    select: (Element, string) -> seq<Element>)

  /** The parser state after `openSourceUrl`: the elements still to be
      turned into rows, and the directory of the manifest. */
  datatype Source = Source(matches: seq<Element>, directoryPath: string)

  const DirectoryPathField: string := "directory_path"

  // ---------------------------------------------------------------------
  // Banned strings.

  /** The banned strings: the comma-separated setting, or none when it is
      empty (PHP's `empty`, so "0" bans nothing). */
  function BannedStrings(cfg: Config): (needles: seq<string>)
    ensures !Truthy(cfg.bannedSpecialChar) <==> needles == []
    ensures needles != [] ==> Join(needles, ",") == cfg.bannedSpecialChar
  {
    if Truthy(cfg.bannedSpecialChar) then
      JoinSplit(cfg.bannedSpecialChar, ',');
      Split(cfg.bannedSpecialChar, ',')
    else []
  }

  /** `str_replace($needles, '', $data)`: each needle in turn deletes all
      its occurrences from what the previous needles left. An empty needle
      deletes nothing. Part of `StripBanned` (SimpleXmlArray.php:57),
      whose contract and lemmas state what it does. */
  function RemoveAll(data: string, needles: seq<string>): (r: string)
    ensures |r| <= |data|
    decreases |needles|
  {
    if needles == [] then data
    else
      DeletionShrinks(Of(Literal(needles[0])), data, 0);
      RemoveAll(Replace(Literal(needles[0]), data, ""), needles[1..])
  }

  /** Deleting matches never makes a text longer. */
  lemma {:induction false} DeletionShrinks(m: Matcher, s: string, from: nat)
    requires from <= |s|
    ensures |ReplaceFrom(m, s, from, "")| <= |s| - from
    decreases |s| - from
  {
    if from < |s| {
      ReplaceStep(m, s, from, "");
      if Len(m, s[from..]) > 0 {
        DeletionShrinks(m, s, from + Len(m, s[from..]));
      } else {
        DeletionShrinks(m, s, from + 1);
      }
    }
  }

  /** The raw manifest with the banned strings removed. */
  function StripBanned(cfg: Config, data: string): (r: string)
    ensures |r| <= |data|
    ensures !Truthy(cfg.bannedSpecialChar) ==> r == data
  {
    RemoveAll(data, BannedStrings(cfg))
  }

  /** A text none of whose needles occurs anywhere is left as it is. */
  lemma {:induction false} RemoveAbsent(data: string, needles: seq<string>)
    requires forall k, j :: 0 <= k < |needles| && 0 <= j < |data| ==> !StartsWith(data[j..], needles[k])
    ensures RemoveAll(data, needles) == data
    decreases |needles|
  {
    if needles != [] {
      forall j | 0 <= j < |data| ensures MatchLen(Literal(needles[0]), data[j..]) == 0 {
        assert !StartsWith(data[j..], needles[0]);
      }
      NoMatchIdentity(Literal(needles[0]), data, "");
      RemoveAbsent(data, needles[1..]);
    }
  }

  /** Deleting a character leaves only characters of the input, none of
      them that character. */
  lemma {:induction false} DeleteCharFrom(s: string, c: char, from: nat)
    requires from <= |s|
    ensures forall d :: d in ReplaceFrom(Of(Literal([c])), s, from, "") ==> d != c && d in s[from..]
    decreases |s| - from
  {
    if from < |s| {
      DeleteCharFrom(s, c, from + 1);
      CharMatch(c, s[from..]);
      ReplaceStep(Of(Literal([c])), s, from, "");
      assert s[from..] == [s[from]] + s[from + 1..];
    }
  }

  /** Banned single characters: none of them is left in the text, and
      nothing new appears. */
  lemma {:induction false} SingleCharsRemoved(data: string, needles: seq<string>)
    requires forall k :: 0 <= k < |needles| ==> |needles[k]| == 1
    ensures forall k :: 0 <= k < |needles| ==> needles[k][0] !in RemoveAll(data, needles)
    ensures forall d :: d in RemoveAll(data, needles) ==> d in data
    decreases |needles|
  {
    if needles != [] {
      var c := needles[0][0];
      assert needles[0] == [c];
      var next := Replace(Literal([c]), data, "");
      DeleteCharFrom(data, c, 0);
      assert data[0..] == data;
      SingleCharsRemoved(next, needles[1..]);
      forall k | 0 <= k < |needles| ensures needles[k][0] !in RemoveAll(data, needles) {
        if k > 0 {
          assert needles[k] == needles[1..][k - 1];
        }
      }
    }
  }

  // ---------------------------------------------------------------------
  // Opening a manifest.

  /** The text the parser is given: the fetched data without the banned
      strings, trimmed. It is no longer than the data. */
  function ManifestText(cfg: Config, data: string): (t: string)
    ensures |t| <= |data|
  {
    Trim(StripBanned(cfg, data))
  }

  /** The parser's text has no blank at either end. */
  lemma ManifestTextTrimmed(cfg: Config, data: string)
    ensures var t := ManifestText(cfg, data);
      t == [] || (!IsTrimChar(t[0]) && !IsTrimChar(t[|t| - 1]))
  {
    TrimmedEnds(StripBanned(cfg, data));
  }

  lemma TrimmedEnds(x: string)
    ensures var t := Trim(x);
      t == [] || (!IsTrimChar(t[0]) && !IsTrimChar(t[|t| - 1]))
  {
  }

  /** With nothing banned, data without blanks reaches the parser as it is. */
  lemma ManifestTextPlain(cfg: Config, data: string)
    requires !Truthy(cfg.bannedSpecialChar)
    requires forall i :: 0 <= i < |data| ==> !IsTrimChar(data[i])
    ensures ManifestText(cfg, data) == data
  {
    assert StripBanned(cfg, data) == data;
  }

  /** When every banned entry is a single character, the parser is given
      none of them and no character the data did not have. */
  lemma ManifestTextHasNoBannedChar(cfg: Config, data: string)
    requires forall k :: 0 <= k < |BannedStrings(cfg)| ==> |BannedStrings(cfg)[k]| == 1
    ensures forall k :: 0 <= k < |BannedStrings(cfg)| ==> BannedStrings(cfg)[k][0] !in ManifestText(cfg, data)
    ensures forall d :: d in ManifestText(cfg, data) ==> d in data
  {
    SingleCharsRemoved(data, BannedStrings(cfg));
    TrimKeepsChars(StripBanned(cfg, data));
  }

  /** A banned entry of several characters can survive: deleting it can
      bring two halves together into a new occurrence. */
  lemma BannedStringCanSurvive(cfg: Config)
    requires cfg.bannedSpecialChar == "ab"
    ensures StripBanned(cfg, "aabb") == "ab"
  {
    SplitJoin(["ab"], ',');
    assert BannedStrings(cfg) == ["ab"];
    DeletingAbFromAabb();
  }

  /** Deleting "ab" from "aabb" leaves "ab". */
  lemma DeletingAbFromAabb()
    ensures Replace(Literal("ab"), "aabb", "") == "ab"
  {
    var s := "aabb";
    AabbMatches();
    KeepFirstAndLast(Of(Literal("ab")), s);
    assert [s[0]] + [s[3]] == "ab";
  }

  /** Proof helper for `BannedStringCanSurvive`: where `ab` occurs in `aabb`. */
  lemma AabbMatches()
    ensures var m := Of(Literal("ab"));
      var s := "aabb";
      Len(m, s[0..]) == 0 && Len(m, s[1..]) == 2 && Len(m, s[3..]) == 0
  {
    var s := "aabb";
    assert s[0..][..2][1] == 'a';
    assert s[1..][..2] == "ab";
    assert |s[3..]| == 1;
  }

  /** Proof helper for `BannedStringCanSurvive`, not part of the model: a
      four-character text whose middle two characters are the only match
      loses them. */
  lemma KeepFirstAndLast(m: Matcher, s: string)
    requires |s| == 4 && Len(m, s[0..]) == 0 && Len(m, s[1..]) == 2 && Len(m, s[3..]) == 0
    ensures ReplaceFrom(m, s, 0, "") == [s[0]] + [s[3]]
  {
    ReplaceStep(m, s, 0, "");
    ReplaceStep(m, s, 1, "");
    ReplaceStep(m, s, 3, "");
    assert ReplaceFrom(m, s, 4, "") == [];
  }

  /** `openSourceUrl`: the manifest text is parsed; the first parser error
      becomes the exception message; otherwise the source holds the item
      selector's matches and the manifest's directory. */
  function OpenSourceUrl(tools: XmlTools, cfg: Config, itemSelector: string, url: string): (r: Result<Source, string>)
    ensures var parsed := tools.parse(ManifestText(cfg, tools.fetch(url)));
      && (r.Failure? <==> parsed.errors != [])
      && (r.Failure? ==> r.error == parsed.errors[0])
      && (r.Success? ==> r.value.matches == tools.select(parsed.root, itemSelector))
    ensures r.Success? ==> r.value.directoryPath == PhpDirname(url)
  {
    var parsed := tools.parse(ManifestText(cfg, tools.fetch(url)));
    if parsed.errors != [] then Failure(parsed.errors[0])
    else Success(Source(tools.select(parsed.root, itemSelector), PhpDirname(url)))
  }

  /** A manifest at `dir/name` gives its rows `dir` as their directory, the
      directory relative file paths are resolved against. */
  lemma ManifestDirectory(tools: XmlTools, cfg: Config, itemSelector: string, dir: string, name: string)
    requires dir != [] && dir[|dir| - 1] != '/'
    requires name != [] && '/' !in name
    requires OpenSourceUrl(tools, cfg, itemSelector, dir + "/" + name).Success?
    ensures OpenSourceUrl(tools, cfg, itemSelector, dir + "/" + name).value.directoryPath == dir
  {
    DirnameOfJoin(dir, name);
  }

  // ---------------------------------------------------------------------
  // Row shaping.

  /** An element with child elements and blank text is kept as a nested
      array; anything else contributes its text. */
  function ValueOf(e: Element): (v: Value)
    ensures v.Nested? <==> e.children != [] && !Truthy(Trim(e.text))
    ensures v.Nested? ==> v.e == e
    ensures v.Text? ==> v.s == e.text
  {
    if e.children != [] && !Truthy(Trim(e.text)) then Nested(e) else Text(e.text)
  }

  /** The values of matched elements, in match order. */
  function ValuesOf(es: seq<Element>): (vs: seq<Value>)
    ensures |vs| == |es|
    ensures forall i :: 0 <= i < |es| ==> vs[i] == ValueOf(es[i])
  {
    seq(|es|, i requires 0 <= i < |es| => ValueOf(es[i]))
  }

  /** The values collected for `field`: those of every selector for that
      field, selector by selector, each in match order. */
  function Collected(target: Element, sels: seq<Selector>, select: (Element, string) -> seq<Element>, field: string): seq<Value>
    decreases |sels|
  {
    if sels == [] then []
    else
      var last := sels[|sels| - 1];
      Collected(target, sels[..|sels| - 1], select, field)
        + (if last.field == field then ValuesOf(select(target, last.xpath)) else [])
  }

  /** The field names of the selectors. */
  function FieldNames(sels: seq<Selector>): set<string> {
    set i | 0 <= i < |sels| :: sels[i].field
  }

  predicate HasNested(vs: seq<Value>) {
    exists i :: 0 <= i < |vs| && vs[i].Nested?
  }

  /** The reduction of a field's values: a single value becomes a scalar
      unless the field holds a nested array. */
  function Collapse(vs: seq<Value>): (f: FieldValue)
    ensures f.Scalar? <==> |vs| == 1 && !HasNested(vs)
    ensures f.Scalar? ==> f.v == vs[0]
    ensures f.List? ==> f.vs == vs
  {
    if |vs| == 1 && !HasNested(vs) then Scalar(vs[0]) else List(vs)
  }

  /** The fields with at least one collected value, and their values. */
  function Entries(target: Element, sels: seq<Selector>, select: (Element, string) -> seq<Element>): map<string, seq<Value>> {
    map f | f in FieldNames(sels) && Collected(target, sels, select, f) != [] :: Collected(target, sels, select, f)
  }

  /** The row of one matched element: every field with at least one value,
      reduced, and the manifest's directory under `directory_path`. */
  function RowOf(target: Element, sels: seq<Selector>, select: (Element, string) -> seq<Element>, dir: string): (row: Row)
    ensures DirectoryPathField in row && row[DirectoryPathField] == Scalar(Text(dir))
    ensures forall f :: f != DirectoryPathField ==>
      (f in row <==> f in FieldNames(sels) && Collected(target, sels, select, f) != [])
    ensures forall f :: f in row && f != DirectoryPathField ==>
      row[f] == Collapse(Collected(target, sels, select, f))
  {
    CollapseMap(Entries(target, sels, select))[DirectoryPathField := Scalar(Text(dir))]
  }

  /** Every field of `items` reduced. */
  function CollapseMap(items: map<string, seq<Value>>): (r: Row)
    ensures r.Keys == items.Keys
    ensures forall f :: f in r ==> r[f] == Collapse(items[f])
  {
    map f | f in items :: Collapse(items[f])
  }

  /** The values already collected for a field. */
  function Existing(items: map<string, seq<Value>>, field: string): seq<Value> {
    if field in items then items[field] else []
  }

  /** The fields holding a nested array (`$arrayFields`). */
  function NestedFields(items: map<string, seq<Value>>): set<string> {
    set f | f in items && HasNested(items[f])
  }

  /** `fetchNextRow`: takes the next matched element and shapes its row;
      with no element left there is no row. */
  method FetchNextRow(src: Source, sels: seq<Selector>, select: (Element, string) -> seq<Element>)
    returns (next: Source, row: Option<Row>)
    ensures src.matches == [] ==> next == src && row.None?
    ensures src.matches != [] ==>
      && next == Source(src.matches[1..], src.directoryPath)
      && row == Some(RowOf(src.matches[0], sels, select, src.directoryPath))
  {
    if src.matches == [] {
      return src, None;
    }
    var target := src.matches[0];
    var items, arrayFields := CollectFields(target, sels, select);
    var result := CollapseAll(items, arrayFields);
    result := result[DirectoryPathField := Scalar(Text(src.directoryPath))];
    return Source(src.matches[1..], src.directoryPath), Some(result);
  }

  /** The field loop of `fetchNextRow`: every selector's matches appended to
      its field, and the fields that received a nested array. */
  method CollectFields(target: Element, sels: seq<Selector>, select: (Element, string) -> seq<Element>)
    returns (items: map<string, seq<Value>>, arrayFields: set<string>)
    ensures items == Entries(target, sels, select)
    ensures arrayFields == NestedFields(items)
  {
    items, arrayFields := map[], {};
    assert Entries(target, sels[..0], select) == map[];
    for i := 0 to |sels|
      invariant items == Entries(target, sels[..i], select)
      invariant arrayFields == NestedFields(items)
    {
      var found := select(target, sels[i].xpath);
      EntriesStep(target, sels, select, i);
      NestedFieldsStep(items, sels[i].field, ValuesOf(found));
      items, arrayFields := AppendValues(items, arrayFields, sels[i].field, found);
    }
    assert sels[..|sels|] == sels;
  }

  /** The inner loop: the values of `found` appended to `field`, in order. */
  method AppendValues(items: map<string, seq<Value>>, arrayFields: set<string>, field: string, found: seq<Element>)
    returns (items': map<string, seq<Value>>, arrayFields': set<string>)
    ensures found == [] ==> items' == items
    ensures found != [] ==> items' == items[field := Existing(items, field) + ValuesOf(found)]
    ensures arrayFields' == if HasNested(ValuesOf(found)) then arrayFields + {field} else arrayFields
  {
    var added: seq<Value> := [];
    arrayFields' := arrayFields;
    for j := 0 to |found|
      invariant added == ValuesOf(found[..j])
      invariant arrayFields' == if HasNested(added) then arrayFields + {field} else arrayFields
    {
      var v := ValueOf(found[j]);
      ValuesOfSnoc(found, j);
      HasNestedSnoc(added, v);
      added := added + [v];
      if v.Nested? {
        arrayFields' := arrayFields' + {field};
      }
    }
    assert found[..|found|] == found;
    items' := if found == [] then items else items[field := Existing(items, field) + added];
  }

  /** The reduction loop: every field reduced, single values to scalars
      unless the field holds a nested array. */
  method CollapseAll(items: map<string, seq<Value>>, arrayFields: set<string>) returns (result: Row)
    requires arrayFields == NestedFields(items)
    ensures result == CollapseMap(items)
  {
    result := map[];
    var keys := items.Keys;
    while keys != {}
      invariant keys <= items.Keys
      invariant forall f :: f in result <==> f in items && f !in keys
      invariant forall f :: f in result ==> result[f] == Collapse(items[f])
      decreases keys
    {
      var f :| f in keys;
      var vs := items[f];
      result := result[f := if |vs| == 1 && f !in arrayFields then Scalar(vs[0]) else List(vs)];
      keys := keys - {f};
    }
  }

  lemma ValuesOfSnoc(es: seq<Element>, j: nat)
    requires j < |es|
    ensures ValuesOf(es[..j + 1]) == ValuesOf(es[..j]) + [ValueOf(es[j])]
  {
    var longer := ValuesOf(es[..j + 1]);
    var shorter := ValuesOf(es[..j]);
    forall i | 0 <= i < j ensures longer[i] == shorter[i] {
      assert es[..j + 1][i] == es[..j][i];
    }
    assert longer[j] == ValueOf(es[j]) by {
      assert es[..j + 1][j] == es[j];
    }
    SnocByIndex(longer, shorter, ValueOf(es[j]));
  }

  lemma SnocByIndex(longer: seq<Value>, shorter: seq<Value>, v: Value)
    requires |longer| == |shorter| + 1 && longer[|shorter|] == v
    requires forall i :: 0 <= i < |shorter| ==> longer[i] == shorter[i]
    ensures longer == shorter + [v]
  {
  }

  lemma HasNestedSnoc(vs: seq<Value>, v: Value)
    ensures HasNested(vs + [v]) <==> HasNested(vs) || v.Nested?
  {
    if HasNested(vs) {
      var k :| 0 <= k < |vs| && vs[k].Nested?;
      assert (vs + [v])[k] == vs[k];
    }
    if v.Nested? {
      assert (vs + [v])[|vs|] == v;
    }
  }

  lemma HasNestedAppend(a: seq<Value>, b: seq<Value>)
    ensures HasNested(a + b) <==> HasNested(a) || HasNested(b)
  {
    if HasNested(a + b) {
      var k :| 0 <= k < |a + b| && (a + b)[k].Nested?;
      if k >= |a| {
        assert b[k - |a|] == (a + b)[k];
      }
    }
    if HasNested(a) {
      var k :| 0 <= k < |a| && a[k].Nested?;
      assert (a + b)[k] == a[k];
    }
    if HasNested(b) {
      var k :| 0 <= k < |b| && b[k].Nested?;
      assert (a + b)[|a| + k] == b[k];
    }
  }

  /** Selector `i` extends the entries of the prefix before it. */
  lemma EntriesStep(target: Element, sels: seq<Selector>, select: (Element, string) -> seq<Element>, i: nat)
    requires i < |sels|
    ensures var before := Entries(target, sels[..i], select);
      var vs := ValuesOf(select(target, sels[i].xpath));
      Entries(target, sels[..i + 1], select)
        == if vs == [] then before else before[sels[i].field := Existing(before, sels[i].field) + vs]
  {
    var before := Entries(target, sels[..i], select);
    var after := Entries(target, sels[..i + 1], select);
    var vs := ValuesOf(select(target, sels[i].xpath));
    var expected := if vs == [] then before else before[sels[i].field := Existing(before, sels[i].field) + vs];
    CollectedStep(target, sels, select, i);
    FieldNamesStep(sels, i);
    forall f ensures (f in after <==> f in expected) && (f in after ==> after[f] == expected[f]) {
      var c := Collected(target, sels[..i], select, f);
      var c' := Collected(target, sels[..i + 1], select, f);
      assert c' == c + (if sels[i].field == f then vs else []);
      assert f in before <==> f in FieldNames(sels[..i]) && c != [];
      assert f in after <==> f in FieldNames(sels[..i + 1]) && c' != [];
      if f in before {
        assert before[f] == c;
      }
      if f in after {
        assert after[f] == c';
      }
      if f != sels[i].field {
        assert c' == c;
      } else if f !in FieldNames(sels[..i]) {
        CollectedOutside(target, sels[..i], select, f);
      }
    }
    assert after == expected;
  }

  /** Appending to one field changes only that field's nesting. */
  lemma NestedFieldsStep(items: map<string, seq<Value>>, field: string, vs: seq<Value>)
    ensures vs != [] ==> (NestedFields(items[field := Existing(items, field) + vs])
      == if HasNested(vs) then NestedFields(items) + {field} else NestedFields(items))
    ensures vs == [] ==> HasNested(vs) == false
  {
    HasNestedAppend(Existing(items, field), vs);
  }

  /** Adding selector `i` to the prefix adds its values to its field only. */
  lemma CollectedStep(target: Element, sels: seq<Selector>, select: (Element, string) -> seq<Element>, i: nat)
    requires i < |sels|
    ensures forall f :: (Collected(target, sels[..i + 1], select, f)
      == Collected(target, sels[..i], select, f)
         + (if sels[i].field == f then ValuesOf(select(target, sels[i].xpath)) else []))
  {
    assert sels[..i + 1][..i] == sels[..i];
  }

  /** A field no selector names collects nothing. */
  lemma {:induction false} CollectedOutside(target: Element, sels: seq<Selector>, select: (Element, string) -> seq<Element>, f: string)
    requires f !in FieldNames(sels)
    ensures Collected(target, sels, select, f) == []
    decreases |sels|
  {
    if sels != [] {
      var n := |sels| - 1;
      assert sels[n].field != f;
      forall k | 0 <= k < n ensures sels[..n][k].field != f {
        assert sels[..n][k] == sels[k];
      }
      CollectedOutside(target, sels[..n], select, f);
    }
  }

  lemma FieldNamesStep(sels: seq<Selector>, i: nat)
    requires i < |sels|
    ensures FieldNames(sels[..i + 1]) == FieldNames(sels[..i]) + {sels[i].field}
  {
    forall f | f in FieldNames(sels[..i + 1]) ensures f in FieldNames(sels[..i]) + {sels[i].field} {
      var k :| 0 <= k < i + 1 && sels[..i + 1][k].field == f;
      if k < i {
        assert sels[..i][k].field == f;
      }
    }
    forall f | f in FieldNames(sels[..i]) ensures f in FieldNames(sels[..i + 1]) {
      var k :| 0 <= k < i && sels[..i][k].field == f;
      assert sels[..i + 1][k].field == f;
    }
  }

  /** For a field with a single selector, the row holds exactly the matched
      elements' values in match order: no field without a match, a scalar
      for one plain match, a list otherwise. */
  lemma SingleSelectorField(target: Element, sels: seq<Selector>, select: (Element, string) -> seq<Element>, dir: string, i: nat)
    requires i < |sels| && sels[i].field != DirectoryPathField
    requires forall k :: 0 <= k < |sels| && k != i ==> sels[k].field != sels[i].field
    ensures var row := RowOf(target, sels, select, dir);
      var vs := ValuesOf(select(target, sels[i].xpath));
      && (sels[i].field in row <==> vs != [])
      && (sels[i].field in row ==> row[sels[i].field] == Collapse(vs))
  {
    var f := sels[i].field;
    CollectedOfUnique(target, sels, select, i, |sels|);
    assert sels[..|sels|] == sels;
    assert Collected(target, sels, select, f) == ValuesOf(select(target, sels[i].xpath));
    assert f in FieldNames(sels);
  }

  /** The collected values of a field named by only selector `i`. */
  lemma {:induction false} CollectedOfUnique(target: Element, sels: seq<Selector>, select: (Element, string) -> seq<Element>, i: nat, n: nat)
    requires i < |sels| && n <= |sels|
    requires forall k :: 0 <= k < |sels| && k != i ==> sels[k].field != sels[i].field
    ensures Collected(target, sels[..n], select, sels[i].field)
      == (if i < n then ValuesOf(select(target, sels[i].xpath)) else [])
    decreases n
  {
    if n > 0 {
      CollectedOfUnique(target, sels, select, i, n - 1);
      assert sels[..n][..n - 1] == sels[..n - 1];
      assert sels[..n][n - 1] == sels[n - 1];
    }
    if n == |sels| {
      assert sels[..n] == sels;
    }
  }
}
